=== FILE: README.md ===
# Stitching Air Quality Egg message archives

This project models the stitching engine of `stitchjob.js` and the heat-index lookup of `utility.js`. The engine takes a device's archive of MQTT messages, one JSON file per chunk, and writes a single time series. That output is either CSV rows under a header, or a JSON array of Influx points.

A job runs in two passes:

1. **Survey.** Reads every message once and collects the distinct topics, the temperature messages, whether pressure or battery readings occur, the temperature units and the message count. From these it classifies the device into one of 21 models (`model A` … `model Y`) by which sensor topics appear. It also estimates the sampling period: the mean of the gaps between temperature readings, after dropping gaps more than one standard deviation from the mean.
2. **Main pass.** Folds the messages into records, one slot per column of the model's layout. A message joins the current record while it lies within half a period of the record's timestamp. Otherwise the record is flushed as one CSV row or one Influx point, and a new record starts at the message.

Modules, one per file:

| file | module | what it holds |
|---|---|---|
| options.dfy | Options | `Option` |
| values.dfy | Values | JavaScript values: truthiness, `\|\|`, unary `+`, `isNumeric`, `valueOrInvalid` |
| text.dfy | Text | `indexOf`, `replace` (first occurrence), the last part of `split`, `split`/`join` |
| messages.dfy | Messages | messages, the known topic prefixes, the natural topic |
| models.dfy | Models | `getEggModelType` (bit code of present sensors) and `refineModelType` |
| layout.dfy | Layout | `getRecordLengthByModelType`, the CSV header of `appendHeaderRow`, the Influx field-name and unit-tag arrays with their pressure/battery splices |
| placement.dfy | Placement | `addMessageToRecord`: topic dispatch, the slots each branch writes, GPS patching |
| timebase.dfy | Timebase | `determineTimebase` over exact reals |
| encoders.dfy | Encoders | `convertRecordToString` for CSV and Influx |
| stitch.dfy | Stitch | `getTemperatureUnits`, the survey, the windowing step, per-file opening, the final flush, the whole job |
| heatindex.dfy | HeatIndex | `calculateHeatIndexDegF/DegC`, `fToC`, `cToF` |

Modelling choices:

- A record is a map from slot to cell. A cell is a timestamp or a value.
- A timestamp is modelled as `At(ms)` or `Unparseable`; `moment` arithmetic on an unparseable stamp gives NaN.
- The clock reading `moment(undefined)` is a parameter, `now`.
- Output is a sequence of chunks: a header row, `[`, a CSV row, an Influx point, `]`. Rendering to text is not modelled.
- Every file of a job is a sequence of messages. Reading them from disk is not modelled.
- The variant is a parameter. `AsWritten` follows the source. `Corrected` is what the source evidently intends: the water branches write only on model W, the Influx array opens once, and the leading comma follows points actually written. See "## Findings".

## Model

| member | source | states |
|---|---|---|
| Values.ValueOrInvalid | stitchjob.js:57-69 | the result is the value or `"---"`; it is numeric exactly when the value is, and it is the value itself exactly when that is numeric (or already `"---"`) |
| Values.Or | stitchjob.js:933 | `a \|\| b` is one of its operands, `a` exactly when `a` is truthy (or the two are equal), and is truthy exactly when one of them is |
| Values.ToNumber | stitchjob.js:1062 | unary `+` always gives a number, NaN or an infinity, and a numeric value gives a finite number |
| Text.ContainsPiece | stitchjob.js:488-504 | a string that contains a topic contains every piece of it, so any topic containing `/orgs/wd/aqe/co2` also contains `/orgs/wd/aqe/co` |
| Text.LastSegment | stitchjob.js:687-688 | the serial number taken from the directory name is its longest suffix without `_`, preceded by `_` when shorter than the name |
| Text.SplitJoin | stitchjob.js:960-961 | splitting a comma-joined line of comma-free fields gives the fields back, so a row has as many columns as fields |
| Models.CodeBits | stitchjob.js:689-705 | bit i of the model code is set exactly when the i-th sensor's topic, bare or followed by `/serial`, is among the topics, and the code is below 1024 |
| Models.TableRoundTrip | stitchjob.js:707-732 | each model other than H has exactly one code that selects it, and every other code (0 included) gives the base model H |
| Models.NeutralTopicsDoNotClassify | stitchjob.js:689-705 | temperature, humidity, pressure, battery and water-temperature topics never change the classification |
| Models.Classify | stitchjob.js:686-734 | classification never yields a refined model (N or Y), and every model other than H is the one whose code is the bit code of the present sensor topics |
| Models.FindTopic | stitchjob.js:667 | `data.find` returns the first message whose topic contains the needle, or none when no topic does |
| Models.RefineSplitsCollisions | stitchjob.js:663-684 | only C and U are refined: C becomes N exactly when the first particulate message has a truthy `pm1p0`, and U becomes Y exactly when the first so2 message has a truthy `raw-value2` |
| Models.Refine | stitchjob.js:663-684 | refinement keeps the model, or turns C into N, or U into Y |
| Models.RefineIdempotent | stitchjob.js:663-684 | refining on the same data again changes nothing, and a refined N or Y stays put on any later file |
| Layout.Width | stitchjob.js:736-793 | every record has at least the six slots of the base model, plus one for pressure and one for battery |
| Layout.WidthShape | stitchjob.js:736-793 | the record length is the model's base length plus one for pressure and one for battery, and the base model has six slots |
| Layout.RefineWidens | stitchjob.js:663-684 | refinement never shortens the record |
| Layout.TailOrder | stitchjob.js:475-487 | the pressure slot and then the battery slot sit after every sensor slot and directly before the three GPS slots |
| Layout.HeaderLabels | stitchjob.js:839-923 | the header has one label per record slot, starts with `timestamp`, ends in the GPS labels, and labels the pressure and battery slots |
| Layout.HeaderSplitsBack | stitchjob.js:839-925 | with comma-free units, the comma-joined header splits back into the same labels |
| Layout.InfluxFields | stitchjob.js:971-1040 | after the splices the field names have one entry per record slot, end in latitude/longitude/altitude, and name pressure and battery at their slots |
| Layout.InfluxTags | stitchjob.js:996-1040 | the unit tags have one entry per record slot, carry the temperature units at slot 1, and `Pa` and `V` at the pressure and battery slots |
| Placement.DispatchIndexFirst | stitchjob.js:108-661 | the test the chain stops at is the first, in source order, whose topic occurs in the message topic; when none occurs it stops at none |
| Placement.NoBranchIff | stitchjob.js:108-661 | a message writes no sensor slot exactly when its topic contains none of the branch prefixes |
| Placement.DispatchedTopicOccurs | stitchjob.js:108-661 | the branch taken is that of the first prefix the topic contains |
| Placement.Co2IsNotCo | stitchjob.js:488-504 | a co2 topic also contains the co prefix, yet it is never sent to the co branch |
| Placement.CoordinatesTogether | stitchjob.js:84-100 | latitude and longitude are both read or both left null, and a read coordinate is a number, NaN or an infinity |
| Placement.PressureFallbackUnreachable | stitchjob.js:475-484 | the altitude fallback of a pressure message never fires, because the GPS patch has already filled the altitude slot |
| Placement.PlaceEffect | stitchjob.js:71-661 | adding a message writes exactly the GPS slots and the branch's slots, each filtered through `valueOrInvalid`, leaves every other slot alone, and writes the timestamp to slot 0 exactly on the temperature branch |
| Placement.PlaceKeepsGps | stitchjob.js:102-105 | the last three slots hold the message's filtered altitude, longitude and latitude, on every model when corrected and, as written, when water messages come only on model W |
| Placement.TargetsFit | stitchjob.js:108-661 | every branch writes within the record plus one; with water sensors only on model W, it writes before the GPS slots, and sensor branches write only sensor slots |
| Placement.WritesFit | stitchjob.js:645-660 | the writes a message makes lie within the record plus one, and before the GPS slots when corrected or when water writes come only on model W |
| Placement.WaterBranchOverrunsModelH | stitchjob.js:657-660 | as written, on the base model a pH message writes slot 7, past the end of a six-slot record |
| Placement.WaterBranchOverwritesGps | stitchjob.js:653-656 | as written, on the base model a turbidity message overwrites the longitude and altitude just patched into slots 4 and 5, so a numeric turbidity with no longitude leaves a number in the longitude column |
| Placement.CorrectedPlacementFits | stitchjob.js:645-660 | corrected, every message keeps its own GPS reading in the last three slots and a record within its width, on every model |
| Placement.PlaceWithin | stitchjob.js:102-105 | a record whose slots lie within the width keeps them there after the message is placed, on every model when corrected and, as written, when water messages come only on model W |
| Placement.AddMessage | stitchjob.js:71-661 | a message on no known topic changes nothing; a known temperature message sets slot 0 to its timestamp and no other message moves it; a record within the width stays within it when corrected, and as written when water messages come only on model W |
| Timebase.DetermineTimebase | stitchjob.js:795-837 | the timebase says the temperature topic is missing exactly when it is, and otherwise is a period exactly when there are two or more temperature stamps and all parse |
| Timebase.TemperatureTopicIn | stitchjob.js:795-808 | the temperature topic, when found, is the bare topic or the one ending in `/serial` and is among the unique topics; the bare topic is preferred when present; it is missing exactly when neither is among them |
| Timebase.Gaps | stitchjob.js:810-824 | one gap per consecutive pair of temperature stamps, the i-th being the gap from stamp i to stamp i+1 |
| Timebase.Keep | stitchjob.js:831-833 | every gap kept by the outlier filter is one of the gaps and lies within one standard deviation of the mean, and never more are kept than there are gaps |
| Timebase.KeepComplete | stitchjob.js:827-833 | every gap within one standard deviation of the mean is kept by the outlier filter, so together with Keep a gap is kept exactly when it is near the mean |
| Timebase.InliersNonEmpty | stitchjob.js:826-833 | at least one gap survives the outlier filter, so the recomputed mean is a number |
| Timebase.TimebaseDefined | stitchjob.js:795-837 | the timebase is a number exactly when there are two or more temperature stamps and all parse |
| Timebase.TimebaseBetween | stitchjob.js:826-837 | when every gap lies between two bounds, so does the timebase |
| Timebase.RegularTimebase | stitchjob.js:795-837 | evenly spaced temperature readings give their spacing as the timebase |
| Encoders.CountDefined | stitchjob.js:948-956 | the count of defined slots is positive exactly when some slot in the range is defined |
| Encoders.EncodeCsv | stitchjob.js:944-963 | a row is written exactly when some slot after the timestamp is defined; then every undefined slot below the width reads `---`, defined ones are shown as they are, and slot 0 is the formatted timestamp |
| Encoders.TempUnitsArgument | stitchjob.js:944 | an undefined argument becomes `'degC'`, and any other argument is kept |
| Encoders.MergeFieldsFirstTruthy | stitchjob.js:1053-1064 | each field takes the first truthy number written to it, or the last value when none is truthy |
| Encoders.UnitTagsLast | stitchjob.js:1059-1061 | a `<field>_units` tag is present exactly when some slot naming the field has a truthy unit tag, and it holds the last such tag |
| Encoders.EncodePoint | stitchjob.js:1042-1083 | a point is written exactly when the timestamp parses and some slot after it is defined; it carries a leading comma exactly when rows were written before, the timestamp of slot 0, and a `serial_number` tag exactly when a serial is given |
| Encoders.EncodeInflux | stitchjob.js:964-1086 | a point is written exactly when the anchor parses and some slot after it is defined; a defined GPS slot gives it `latitude`, and defined pressure and battery slots give it `pressure` and `battery` |
| Encoders.PointFields | stitchjob.js:1050-1066 | a field is present exactly when some defined slot's name lists it, and its value is the first truthy number among those slots |
| Stitch.TemperatureUnits | stitchjob.js:927-935 | the units are undefined exactly when no topic contains `temperature`, and truthy otherwise |
| Stitch.TemperatureUnitsFirst | stitchjob.js:927-934 | the units are those of the first message on a topic containing `temperature`: its `converted-units`, else its `units`, else `"degC"` |
| Stitch.SurveyFlags | stitchjob.js:1196-1210 | the survey counts every message and sets the pressure and battery flags exactly when some topic contains those words |
| Stitch.SurveyTopics | stitchjob.js:1198-1209 | the unique topics are exactly the topics seen, each listed once |
| Stitch.SurveyUnits | stitchjob.js:1210 | the surveyed temperature units are `null` for no messages and otherwise those of the first temperature message |
| Stitch.SurveyedTimebase | stitchjob.js:1239 | the timebase computed from the surveyed temperature messages equals the one computed from all messages |
| Stitch.Context | stitchjob.js:1196-1238 | the survey's message total is the length of all files together |
| Stitch.StepWindow | stitchjob.js:1280-1316 | a message within half a timebase of the record's anchor joins it and writes nothing, and the anchor moves only for a temperature message, which also sets the current units to its converted units; otherwise the record is flushed with the current units, one row is counted, a fresh record anchored at the message's timestamp receives the message, and the current units stay as they were |
| Stitch.Step | stitchjob.js:1280-1316 | one message keeps the model, never takes back output, and appends at most one chunk, only when it counts one more row |
| Stitch.Finish | stitchjob.js:1343-1354 | the final flush counts one more row, keeps the model, and appends exactly the last record's flush: under the current units for CSV, and for an Influx job with messages under the survey's units followed by `]`; an Influx job without messages appends nothing |
| Stitch.Run | stitchjob.js:1098-1354 | a job stitches exactly when it has files; the classified model is never N or Y, and the final model is the classified one or its refinement to N or Y |
| Stitch.CsvRowsMatchHeaders | stitchjob.js:1262-1265 | a CSV job with files stitches, and every row spans exactly the columns of the header written above it, for every job when corrected and, as written, when water messages come only on model W |
| Stitch.InfluxWellFramed | stitchjob.js:1266-1268 | with the framing corrected, the Influx output of a job with messages is `[`, then points of which only the first has no comma, then `]` |
| Stitch.AsWrittenBrackets | stitchjob.js:1266-1268 | as written, the Influx output opens the array once per file and closes it once |
| Stitch.AsWrittenMisframed | stitchjob.js:1348-1351 | as written, two files or more never give one well-framed array |
| Stitch.PhantomComma | stitchjob.js:1307-1313 | as written, a break whose flush writes nothing still counts a row, so the next point carries a leading comma, while corrected it does not |
| Stitch.FlushFramedAny | stitchjob.js:1072-1077 | a flushed point has a leading comma exactly when something counts as written before it |
| Stitch.RowsWrittenBounds | stitchjob.js:1310-1354 | the job counts at least one and at most one more row than messages, and exactly one more when the timebase is not a number |
| HeatIndex.Round | utility.js:7-8 | `Math.round` gives the integer within half of its argument, halves rounded up |
| HeatIndex.FToC | utility.js:89-91 | `fToC` is the inverse of `cToF` |
| HeatIndex.CelsiusRoundTrip | utility.js:93-95 | `cToF` is the inverse of `fToC` |
| HeatIndex.TablesAreWellFormed | utility.js:27-57 | both tables have 13 rows of equal lengths, rows never decrease, danger levels lie in 1..4 and every row ends at level 4 |
| HeatIndex.HeatIndexDegF | utility.js:4-81 | the result is undefined exactly when the rounded temperature is at least 80 °F and the rounded humidity above 100 %, the linear estimate at level 0 is used exactly below 80 °F or 40 %, and every category is the name of its level, at most 4 |
| HeatIndex.Cell | utility.js:61-78 | a cell's category is the name of its danger level, in 1..4, and `greaterThan` is set exactly past the end of the row |
| HeatIndex.LinearBranch | utility.js:10-23 | the linear estimate is used exactly when the rounded temperature is below 80 °F or the rounded humidity below 40 %, and it is the only reading at level 0 |
| HeatIndex.UndefinedBeyondTable | utility.js:25-64 | the result is undefined exactly when the rounded temperature is at least 80 °F and the rounded humidity above 100 % |
| HeatIndex.TableBranch | utility.js:25-78 | within the table the reading is the cell at row `(hum - 40) / 5`, column `(tmp - 80) / 2` |
| HeatIndex.QuotientsExact | utility.js:4-23 | the rounded temperature and humidity are whole steps, so rounding the row and column quotients gives the exact integer quotients, one per step above 40 % and 80 °F |
| HeatIndex.StepsMonotone | utility.js:22-78 | on the table, a higher rounded temperature at the same rounded humidity reads a cell of the same row no earlier in it, never lower nor safer |
| HeatIndex.HotterNeverSafer | utility.js:27-78 | at a humidity on the table, a higher temperature never gives a lower value or a safer level |
| HeatIndex.CelsiusInput | utility.js:4-6 | a Celsius reading gives what its Fahrenheit conversion gives under any other units |
| HeatIndex.HeatIndexDegC | utility.js:83-85 | the Celsius variant is undefined exactly when the Fahrenheit one is |
| HeatIndex.CelsiusVariant | utility.js:83-88 | the Celsius variant keeps the category, level and `greaterThan`, and gives the nearest degree Celsius of the value |

## Findings

| source | as written | input that shows it | evidently intended | confidence | as-written member | corrected member |
|---|---|---|---|---|---|---|
| stitchjob.js:1266-1268 | the Influx `[` is appended once per file, but `]` is appended once at the end | a job with two files and at least one message: the output holds two `[` and one `]` | open the array once, before the first file | not executed | Stitch.AsWrittenMisframed | Stitch.InfluxWellFramed |
| stitchjob.js:645-660 | the water-temperature, conductivity, turbidity and pH branches write their slots on every model | a water device whose files lack the conductivity, turbidity or pH topic is classified as model H; a turbidity message then overwrites the longitude and altitude in slots 4 and 5, and a pH message writes slot 7 of a six-slot record | write the water slots only on model W | not executed | Placement.WaterBranchOverwritesGps | Placement.CorrectedPlacementFits |
| stitchjob.js:1307-1313 | `rowsWritten` counts flushes, including those that write nothing, and decides the leading comma | a job whose only temperature reading makes the timebase NaN: the first message breaks the window with an empty record, nothing is written, and the first point is written as `[,{…}` | a comma exactly when a point has already been written | not executed | Stitch.PhantomComma | Stitch.InfluxWellFramed |

## Left out

- Reading files, the job queue, `job.log`/`progress`, the next-job hand-off and the heap dump are I/O. Files are given as sequences of messages and the output as chunks.
- The survey's error paths are not modelled: an unreadable file, a `1.json` with no messages, and the notice for a job with no files. They are I/O and depend on file names. The no-files notice also uses an `sn` that is not in scope there.
- The CSV and JSON renderings are not modelled: `moment` formatting with the UTC offset, `JSON.stringify`, and `r.join(",")` beyond the field list.
- The output extension and `stitch_format` are assumed to agree: CSV with `.csv`, Influx with `.json`.
- Floating point is replaced by exact reals: jStat's mean and standard deviation, the `||` of field values, and the heat-index arithmetic. NaN inputs to the heat index are not modelled.
- A missing message timestamp is modelled as an unparseable one. The source reads it differently in four places. Its `currentRecord[0] === undefined` test sees the stamp as absent, while the model's record holds it. The other three read `moment(undefined)`, which is the current time and valid: the join test at stitchjob.js:1288 measures from now, the timebase gaps at stitchjob.js:817-820 give a number rather than NaN, and the Influx validity test at stitchjob.js:1044 writes the point at now. In the model all three behave as for an unparseable stamp.
- Models outside the 21 named ones cannot arise from classification or refinement, so the `default` switch branches and Influx's `"unknown"` layout are not modelled.
- `ToNumber`: a blank string, which `+` reads as 0, is taken as NaN.
- Placement.PlaceKeepsGps: as written, it holds only when water messages come on model W. On other models the water branches write over or past the GPS slots, as Placement.WaterBranchOverwritesGps shows; corrected, it holds unconditionally.
- Placement.PlaceWithin: the same model-W condition applies, as written only.
- Placement.AddMessage: its bound carries the same model-W condition, as written only.
- Stitch.CsvRowsMatchHeaders: the same model-W condition on water messages applies, as written only.
- Layout.Width: its contract states the lower bound and, with Layout.WidthShape, the one-slot increments; the per-model lengths are the table itself.
- Layout.UnitsText: temperature units that are truthy but not a string, such as a number or `true`, render as `???` in the header label. The template literal would print the value, but rendering numbers and booleans to text is not modelled.
- Log messages (`UNKNOWN TOPIC ENCOUNTERED`, `Unexpected Model Code`) are left out.

=== FILE: encoders.dfy ===
/** `convertRecordToString` (stitchjob.js): a finished record becomes a CSV
    row or an Influx point, or nothing when it carries no data. The CSV row
    is kept as the array the source joins with commas, and the Influx point
    as the object the source serialises: neither the text of numbers and
    dates nor the JSON text is modelled. */
module Encoders {

  import opened Options
  import opened Values
  import opened Text
  import opened Messages
  import opened Models
  import opened Layout
  import opened Placement

  /** `r[k] !== undefined` */
  predicate Defined(record: Record, k: int) {
    Lookup(record, k).Some? && Lookup(record, k).value != Val(Undefined)
  }

  /** How many of the slots `lo .. hi-1` are defined. */
  function CountDefined(record: Record, lo: nat, hi: nat): (n: nat)
    ensures n <= if lo <= hi then hi - lo else 0
    ensures n > 0 <==> exists k :: lo <= k < hi && Defined(record, k)
    decreases hi - lo
  {
    if lo >= hi then 0
    else (if Defined(record, lo) then 1 else 0) + CountDefined(record, lo + 1, hi)
  }

  // ---------------------------------------------------------------- CSV

  /** One field of a CSV row: the formatted slot-0 timestamp (the clock
      reading when the slot is empty), a slot as it stands, or the `"---"`
      placeholder for an empty slot inside the record width. */
  datatype CsvField = Formatted(stamp: Option<Cell>) | Shown(c: Cell) | Placeholder

  /** The slots `0 .. n-1`. */
  function Below(n: nat): (r: set<nat>)
    ensures forall k: nat :: k in r <==> k < n
  {
    if n == 0 then {} else Below(n - 1) + {n - 1}
  }

  /** The fields of the row, by position: every slot below the width, and
      any slot written past it. */
  function RowFields(record: Record, width: nat): (row: map<nat, CsvField>)
    ensures row.Keys == Below(width) + record.Keys + {0}
  {
    map k: nat | k in Below(width) + record.Keys + {0} ::
      if k == 0 then Formatted(Lookup(record, 0))
      else if k < width && !Defined(record, k) then Placeholder
      else Shown(record[k])
  }

  /** The CSV branch of `convertRecordToString`: slot 0 always counts as a
      defined field once formatted, so a row needs more than that one. A
      row is produced exactly when some slot after the timestamp and inside
      the width is defined. It then covers every slot of the width: slot 0
      holds the formatted timestamp, empty ones the placeholder and defined
      ones their value, and slots written past the width are kept. */
  function EncodeCsv(record: Record, m: Model, hasPressure: bool, hasBattery: bool): (r: Option<map<nat, CsvField>>)
    ensures var width := Width(m, hasPressure, hasBattery);
      r.Some? <==> exists k :: 1 <= k < width && Defined(record, k)
    ensures r.Some? ==> r.value.Keys == Below(Width(m, hasPressure, hasBattery)) + record.Keys + {0}
    ensures var width := Width(m, hasPressure, hasBattery);
      r.Some? ==>
        var row := r.value;
        && (forall k: nat :: k < width ==> k in row)
        && row[0] == Formatted(Lookup(record, 0))
        && (forall k: nat :: 1 <= k < width ==> (row[k] == Placeholder <==> !Defined(record, k)))
        && (forall k: nat :: 1 <= k && k in record && (Defined(record, k) || k >= width) ==> row[k] == Shown(record[k]))
        && (forall k: nat :: k in row && k >= width ==> k in record)
  {
    var width := Width(m, hasPressure, hasBattery);
    var nonTrivial := 1 + CountDefined(record, 1, width);
    if nonTrivial > 1 then Some(RowFields(record, width)) else None
  }

  // ---------------------------------------------------------------- Influx

  /** An Influx point of the `egg_data` measurement; `leadingComma` is the
      `","` the source puts before every point after the first row. */
  datatype Point = Point(leadingComma: bool, time: int, tags: map<string, Value>, fields: map<string, Value>)

  /** `moment(r[0])`: the record's anchor time; an empty slot 0 reads the
      clock. Slot 0 is only ever written with a timestamp. */
  function Anchor(record: Record, now: int): Stamp {
    match Lookup(record, 0)
    case None => At(now)
    case Some(Time(s)) => s
    case Some(Val(_)) => Unparseable
  }

  /** `+r[i]` of a slot past the timestamp. */
  function Number(c: Cell): Value {
    match c
    case Val(v) => ToNumber(v)
    case Time(_) => NaN
  }

  /** The field names of a column: its entry split on `|`, none for the
      empty entry. */
  function ColumnFields(name: string): (r: seq<string>)
    ensures name == "" ==> r == []
    ensures name != "" && '|' !in name ==> r == [name]
  {
    if name == "" then []
    else
      if '|' !in name then NoOccurrenceOfAbsentChar(name, '|'); Split(name, '|')
      else Split(name, '|')
  }

  /** What one column contributes: each of its field names with the
      column's number and unit tag. */
  function Contribute(fields: seq<string>, number: Value, tag: Value): (r: seq<(string, Value, Value)>)
    ensures |r| == |fields|
    ensures forall j :: 0 <= j < |r| ==> r[j] == (fields[j], number, tag)
  {
    if |fields| == 0 then [] else [(fields[0], number, tag)] + Contribute(fields[1..], number, tag)
  }

  /** The contributions of the defined columns `lo .. hi-1`, in column
      order. */
  function Contributions(record: Record, names: seq<string>, tags: seq<Value>, lo: nat, hi: nat): seq<(string, Value, Value)>
    requires hi <= |names| && hi <= |tags|
    decreases hi - lo
  {
    if lo >= hi then []
    else
      (if Defined(record, lo) then Contribute(ColumnFields(names[lo]), Number(record[lo]), tags[lo]) else [])
      + Contributions(record, names, tags, lo + 1, hi)
  }

  /** `fields[field] = fields[field] || value`, for each contribution in
      order. */
  function MergeFields(cs: seq<(string, Value, Value)>): map<string, Value>
    decreases |cs|
  {
    if |cs| == 0 then map[]
    else
      var acc := MergeFields(cs[..|cs| - 1]);
      var c := cs[|cs| - 1];
      acc[c.0 := Or(if c.0 in acc then acc[c.0] else Undefined, c.1)]
  }

  /** `if (tag) tags[field + '_units'] = tag`, for each contribution in
      order. */
  function UnitTagsOf(cs: seq<(string, Value, Value)>): map<string, Value>
    decreases |cs|
  {
    if |cs| == 0 then map[]
    else
      var acc := UnitTagsOf(cs[..|cs| - 1]);
      var c := cs[|cs| - 1];
      if Truthy(c.2) then acc[c.0 + "_units" := c.2] else acc
  }

  /** The Influx branch of `convertRecordToString`, over the model's field
      names and unit tags. A point is produced exactly when the anchor time
      parses and some slot after the timestamp and inside the width is
      defined. It carries a leading comma exactly after the first row, the
      anchor time, and the serial-number tag exactly when a serial number
      is given. */
  function EncodePoint(record: Record, width: nat, names: seq<string>, tags: seq<Value>, now: int, rowsWritten: int, serial: string): (r: Option<Point>)
    requires width <= |names| && width <= |tags|
    ensures r.Some? <==> Anchor(record, now).At? && exists k :: 1 <= k < width && Defined(record, k)
    ensures r.Some? ==>
      && (r.value.leadingComma <==> rowsWritten > 0)
      && r.value.time == Anchor(record, now).ms
      && ("serial_number" in r.value.tags <==> serial != "")
      && (serial != "" ==> r.value.tags["serial_number"] == Lit(serial))
  {
    match Anchor(record, now)
    case Unparseable => None
    case At(time) =>
      if CountDefined(record, 1, width) == 0 then None
      else
        var cs := Contributions(record, names, tags, 1, width);
        var units := UnitTagsOf(cs);
        NoSerialUnitKey(cs);
        Some(Point(rowsWritten > 0, time,
          if serial != "" then units["serial_number" := Lit(serial)] else units,
          MergeFields(cs)))
  }

  /** `convertRecordToString(..., 'influx', rowsWritten, serial)`: a point
      is produced exactly when the anchor time parses and some slot of the
      model's width after the timestamp is defined; a defined GPS, pressure
      or battery slot gives the point its field of that name. */
  function EncodeInflux(record: Record, m: Model, hasPressure: bool, hasBattery: bool, now: int, tempUnits: Value, rowsWritten: int, serial: string): (r: Option<Point>)
    ensures r.Some? <==> Anchor(record, now).At? && exists k :: 1 <= k < Width(m, hasPressure, hasBattery) && Defined(record, k)
    ensures r.Some? && Defined(record, GpsSlot(m, hasPressure, hasBattery)) ==> "latitude" in r.value.fields
    ensures r.Some? && hasPressure && Defined(record, PressureSlot(m, hasPressure, hasBattery)) ==> "pressure" in r.value.fields
    ensures r.Some? && hasBattery && Defined(record, BatterySlot(m, hasPressure, hasBattery)) ==> "battery" in r.value.fields
  {
    InfluxNamedFields(record, m, hasPressure, hasBattery, now, tempUnits, rowsWritten, serial);
    EncodePoint(record, Width(m, hasPressure, hasBattery), InfluxFields(m, hasPressure, hasBattery),
      InfluxTags(m, tempUnits, hasPressure, hasBattery), now, rowsWritten, serial)
  }

  /** The GPS, pressure and battery slots are named by plain field names. */
  lemma InfluxNamedFields(record: Record, m: Model, hasPressure: bool, hasBattery: bool, now: int, tempUnits: Value, rowsWritten: int, serial: string)
    ensures var r := EncodePoint(record, Width(m, hasPressure, hasBattery), InfluxFields(m, hasPressure, hasBattery),
      InfluxTags(m, tempUnits, hasPressure, hasBattery), now, rowsWritten, serial);
      && (r.Some? && Defined(record, GpsSlot(m, hasPressure, hasBattery)) ==> "latitude" in r.value.fields)
      && (r.Some? && hasPressure && Defined(record, PressureSlot(m, hasPressure, hasBattery)) ==> "pressure" in r.value.fields)
      && (r.Some? && hasBattery && Defined(record, BatterySlot(m, hasPressure, hasBattery)) ==> "battery" in r.value.fields)
  {
    var w := Width(m, hasPressure, hasBattery);
    var names := InfluxFields(m, hasPressure, hasBattery);
    assert names[w - 3] == names[w - 3..][0];
    TailFields(record, w, names, InfluxTags(m, tempUnits, hasPressure, hasBattery), now, rowsWritten, serial,
      hasPressure, hasBattery, PressureSlot(m, hasPressure, hasBattery), BatterySlot(m, hasPressure, hasBattery));
  }

  /** A defined GPS, pressure or battery slot gives the point its field,
      for any arrays that name those slots so. */
  lemma TailFields(record: Record, w: nat, names: seq<string>, tags: seq<Value>, now: int, rowsWritten: int, serial: string,
                   hasPressure: bool, hasBattery: bool, pressureSlot: int, batterySlot: int)
    requires 4 <= w <= |names| && w <= |tags|
    requires names[w - 3] == "latitude"
    requires hasPressure ==> 1 <= pressureSlot < w && names[pressureSlot] == "pressure"
    requires hasBattery ==> 1 <= batterySlot < w && names[batterySlot] == "battery"
    ensures var r := EncodePoint(record, w, names, tags, now, rowsWritten, serial);
      && (r.Some? && Defined(record, w - 3) ==> "latitude" in r.value.fields)
      && (r.Some? && hasPressure && Defined(record, pressureSlot) ==> "pressure" in r.value.fields)
      && (r.Some? && hasBattery && Defined(record, batterySlot) ==> "battery" in r.value.fields)
  {
    NamedSlotField(record, w, names, tags, now, rowsWritten, serial, w - 3, "latitude");
    if hasPressure {
      NamedSlotField(record, w, names, tags, now, rowsWritten, serial, pressureSlot, "pressure");
    }
    if hasBattery {
      NamedSlotField(record, w, names, tags, now, rowsWritten, serial, batterySlot, "battery");
    }
  }

  /** A defined slot named by a plain field name gives the point that field. */
  lemma NamedSlotField(record: Record, width: nat, names: seq<string>, tags: seq<Value>, now: int, rowsWritten: int, serial: string, i: int, f: string)
    requires width <= |names| && width <= |tags|
    requires 1 <= i < width && names[i] == f && f != "" && '|' !in f
    ensures var r := EncodePoint(record, width, names, tags, now, rowsWritten, serial);
      r.Some? && Defined(record, i) ==> f in r.value.fields
  {
    if EncodePoint(record, width, names, tags, now, rowsWritten, serial).Some? {
      assert f in ColumnFields(names[i]);
      PointFields(record, width, names, tags, now, rowsWritten, serial, f);
    }
  }

  /** The default `tempUnits = 'degC'` applies when the argument is
      `undefined`. */
  function TempUnitsArgument(v: Value): (r: Value)
    ensures r != Undefined
    ensures v == Undefined ==> r == Lit("degC")
    ensures v != Undefined ==> r == v
  {
    if v == Undefined then Lit("degC") else v
  }

  /** The contributions made for `field`. */
  function For(cs: seq<(string, Value, Value)>, field: string): (r: seq<Value>)
    ensures |r| <= |cs|
    decreases |cs|
  {
    if |cs| == 0 then []
    else For(cs[..|cs| - 1], field) + (if cs[|cs| - 1].0 == field then [cs[|cs| - 1].1] else [])
  }

  /** The first truthy value, or the last value when none is truthy. */
  function FirstTruthy(vs: seq<Value>): (r: Value)
    requires |vs| > 0
    ensures (exists j :: 0 <= j < |vs| && Truthy(vs[j])) ==>
      exists j :: 0 <= j < |vs| && Truthy(vs[j]) && r == vs[j] && forall i :: 0 <= i < j ==> !Truthy(vs[i])
    ensures (forall j :: 0 <= j < |vs| ==> !Truthy(vs[j])) ==> r == vs[|vs| - 1]
  {
    if |vs| == 1 || Truthy(vs[0]) then vs[0] else FirstTruthy(vs[1..])
  }

  /** A field folded with `||` holds the first truthy number contributed
      for it, or the last one when none is truthy; a field is present
      exactly when some column contributes to it. */
  lemma {:induction false} MergeFieldsFirstTruthy(cs: seq<(string, Value, Value)>, field: string)
    ensures field in MergeFields(cs) <==> |For(cs, field)| > 0
    ensures field in MergeFields(cs) ==> MergeFields(cs)[field] == FirstTruthy(For(cs, field))
    decreases |cs|
  {
    if |cs| > 0 {
      var init := cs[..|cs| - 1];
      MergeFieldsFirstTruthy(init, field);
      var c := cs[|cs| - 1];
      var before := For(init, field);
      if c.0 == field {
        var after := before + [c.1];
        assert For(cs, field) == after;
        if |before| > 0 {
          FirstTruthyExtend(before, c.1);
        } else {
          assert after == [c.1];
          assert FirstTruthy(after) == c.1;
        }
      } else {
        assert For(cs, field) == before;
      }
    }
  }

  /** Appending a value to a sequence leaves its first truthy value, or
      gives the appended value when there was none. */
  lemma {:induction false} FirstTruthyExtend(vs: seq<Value>, v: Value)
    requires |vs| > 0
    ensures FirstTruthy(vs + [v]) == Or(FirstTruthy(vs), v)
    decreases |vs|
  {
    if |vs| == 1 {
    } else if Truthy(vs[0]) {
    } else {
      assert (vs + [v])[1..] == vs[1..] + [v];
      FirstTruthyExtend(vs[1..], v);
    }
  }

  /** A unit tag is present exactly when some contribution for its field
      carries a truthy tag, and it holds the last such tag. */
  lemma {:induction false} UnitTagsLast(cs: seq<(string, Value, Value)>, field: string)
    ensures field + "_units" in UnitTagsOf(cs) <==> exists j :: 0 <= j < |cs| && cs[j].0 == field && Truthy(cs[j].2)
    ensures field + "_units" in UnitTagsOf(cs) ==>
      exists j :: 0 <= j < |cs| && cs[j].0 == field && Truthy(cs[j].2) && UnitTagsOf(cs)[field + "_units"] == cs[j].2 &&
        forall i :: j < i < |cs| ==> !(cs[i].0 == field && Truthy(cs[i].2))
    decreases |cs|
  {
    if |cs| > 0 {
      var init := cs[..|cs| - 1];
      UnitTagsLast(init, field);
      var c := cs[|cs| - 1];
      if Truthy(c.2) && c.0 != field {
        SuffixInjective(c.0, field, "_units");
      }
      forall j | 0 <= j < |init| ensures init[j] == cs[j] { }
    }
  }

  /** Distinct names have distinct `_units` keys. */
  lemma SuffixInjective(a: string, b: string, suffix: string)
    requires a != b
    ensures a + suffix != b + suffix
  {
    if |a| == |b| {
      var i :| 0 <= i < |a| && a[i] != b[i];
      assert (a + suffix)[i] == a[i];
      assert (b + suffix)[i] == b[i];
    } else {
      assert |a + suffix| != |b + suffix|;
    }
  }

  /** Every unit-tag key ends in `_units`. */
  lemma {:induction false} UnitKeysEndInUnits(cs: seq<(string, Value, Value)>, key: string)
    requires key in UnitTagsOf(cs)
    ensures |key| >= 6 && key[|key| - 6..] == "_units"
    decreases |cs|
  {
    var c := cs[|cs| - 1];
    if !(Truthy(c.2) && key == c.0 + "_units") {
      UnitKeysEndInUnits(cs[..|cs| - 1], key);
    }
  }

  /** A contribution made by defined column `i`. */
  predicate FromColumn(c: (string, Value, Value), record: Record, names: seq<string>, tags: seq<Value>, i: nat)
    requires i < |names| && i < |tags|
  {
    Defined(record, i) && c.0 in ColumnFields(names[i]) && c.1 == Number(record[i]) && c.2 == tags[i]
  }

  /** Every contribution of columns `lo .. hi-1` comes from a defined
      column among them. */
  lemma {:induction false} ContributionFromColumn(record: Record, names: seq<string>, tags: seq<Value>, lo: nat, hi: nat, j: nat)
    requires hi <= |names| && hi <= |tags|
    requires j < |Contributions(record, names, tags, lo, hi)|
    ensures exists i :: lo <= i < hi && FromColumn(Contributions(record, names, tags, lo, hi)[j], record, names, tags, i)
    decreases hi - lo
  {
    var head := if Defined(record, lo) then Contribute(ColumnFields(names[lo]), Number(record[lo]), tags[lo]) else [];
    var rest := Contributions(record, names, tags, lo + 1, hi);
    var cs := head + rest;
    assert cs == Contributions(record, names, tags, lo, hi);
    if j < |head| {
      var fields := ColumnFields(names[lo]);
      assert head == Contribute(fields, Number(record[lo]), tags[lo]);
      assert cs[j] == head[j] == (fields[j], Number(record[lo]), tags[lo]);
      assert FromColumn(cs[j], record, names, tags, lo);
    } else {
      ContributionFromColumn(record, names, tags, lo + 1, hi, j - |head|);
      var i :| lo + 1 <= i < hi && FromColumn(rest[j - |head|], record, names, tags, i);
      assert cs[j] == rest[j - |head|];
    }
  }

  /** Every field name of a defined column among `lo .. hi-1` is
      contributed, with the column's number and tag. */
  lemma {:induction false} ColumnContributes(record: Record, names: seq<string>, tags: seq<Value>, lo: nat, hi: nat, i: nat, f: string)
    requires hi <= |names| && hi <= |tags|
    requires lo <= i < hi && Defined(record, i) && f in ColumnFields(names[i])
    ensures var cs := Contributions(record, names, tags, lo, hi);
      exists j :: 0 <= j < |cs| && cs[j] == (f, Number(record[i]), tags[i])
    decreases hi - lo
  {
    var head := if Defined(record, lo) then Contribute(ColumnFields(names[lo]), Number(record[lo]), tags[lo]) else [];
    var rest := Contributions(record, names, tags, lo + 1, hi);
    var cs := head + rest;
    assert cs == Contributions(record, names, tags, lo, hi);
    if i == lo {
      var fields := ColumnFields(names[lo]);
      var k :| 0 <= k < |fields| && fields[k] == f;
      assert head == Contribute(fields, Number(record[lo]), tags[lo]);
      assert cs[k] == head[k] == (f, Number(record[i]), tags[i]);
      assert Contributions(record, names, tags, lo, hi)[k] == (f, Number(record[i]), tags[i]);
    } else {
      ColumnContributes(record, names, tags, lo + 1, hi, i, f);
      var j :| 0 <= j < |rest| && rest[j] == (f, Number(record[i]), tags[i]);
      assert cs[|head| + j] == rest[j];
      var n := |head| + j;
      assert 0 <= n < |Contributions(record, names, tags, lo, hi)|;
      assert Contributions(record, names, tags, lo, hi)[n] == (f, Number(record[i]), tags[i]);
    }
  }

  /** The merged fields of columns `1 .. width-1` are exactly the field
      names of the defined columns. */
  lemma MergedColumns(record: Record, width: nat, names: seq<string>, tags: seq<Value>, f: string)
    requires width <= |names| && width <= |tags|
    ensures var cs := Contributions(record, names, tags, 1, width);
      f in MergeFields(cs) <==> exists i :: 1 <= i < width && Defined(record, i) && f in ColumnFields(names[i])
  {
    var cs := Contributions(record, names, tags, 1, width);
    MergeFieldsFirstTruthy(cs, f);
    ForNonEmpty(cs, f);
    if exists j :: 0 <= j < |cs| && cs[j].0 == f {
      var j :| 0 <= j < |cs| && cs[j].0 == f;
      ContributionFromColumn(record, names, tags, 1, width, j);
    }
    if exists i :: 1 <= i < width && Defined(record, i) && f in ColumnFields(names[i]) {
      var i :| 1 <= i < width && Defined(record, i) && f in ColumnFields(names[i]);
      ColumnContributes(record, names, tags, 1, width, i, f);
    }
  }

  /** Some contribution names `field` exactly when its list is non-empty. */
  lemma {:induction false} ForNonEmpty(cs: seq<(string, Value, Value)>, field: string)
    ensures |For(cs, field)| > 0 <==> exists j :: 0 <= j < |cs| && cs[j].0 == field
    decreases |cs|
  {
    if |cs| > 0 {
      var init := cs[..|cs| - 1];
      ForNonEmpty(init, field);
      forall j | 0 <= j < |init| ensures init[j] == cs[j] { }
    }
  }

  /** No unit tag is keyed `serial_number`. */
  lemma NoSerialUnitKey(cs: seq<(string, Value, Value)>)
    ensures "serial_number" !in UnitTagsOf(cs)
  {
    if "serial_number" in UnitTagsOf(cs) {
      UnitKeysEndInUnits(cs, "serial_number");
    }
  }

  /** A point's fields are exactly the names of its defined columns; each
      holds the first truthy number among the columns that name it, or the
      last one when none is truthy. */
  lemma PointFields(record: Record, width: nat, names: seq<string>, tags: seq<Value>, now: int, rowsWritten: int, serial: string, f: string)
    requires width <= |names| && width <= |tags|
    requires EncodePoint(record, width, names, tags, now, rowsWritten, serial).Some?
    ensures var p := EncodePoint(record, width, names, tags, now, rowsWritten, serial).value;
      f in p.fields <==> exists i :: 1 <= i < width && Defined(record, i) && f in ColumnFields(names[i])
    ensures var p := EncodePoint(record, width, names, tags, now, rowsWritten, serial).value;
      var vs := For(Contributions(record, names, tags, 1, width), f);
      f in p.fields ==> |vs| > 0 && p.fields[f] == FirstTruthy(vs)
  {
    MergedColumns(record, width, names, tags, f);
    MergeFieldsFirstTruthy(Contributions(record, names, tags, 1, width), f);
  }
}

=== FILE: heatindex.dfy ===
/** The heat index of `utility.js`: a table lookup after rounding the
    temperature to steps of 2 °F and the humidity to steps of 5 %, with a
    linear estimate below 80 °F or 40 %. Arithmetic is over exact reals. */
module HeatIndex {
  import opened Options
  import opened Values

  /** `Math.round`: the nearest integer, halves rounded up. */
  function Round(x: real): (r: int)
    ensures r as real - 0.5 <= x < r as real + 0.5
  {
    (x + 0.5).Floor
  }

  lemma RoundMonotone(x: real, y: real)
    requires x <= y
    ensures Round(x) <= Round(y)
  {
  }

  /** Rounding an integer leaves it alone. */
  lemma RoundInt(n: int)
    ensures Round(n as real) == n
  {
  }

  /** `cToF`. */
  function CToF(c: real): real {
    c * (9.0 / 5.0) + 32.0
  }

  /** `fToC`, the inverse of `cToF`. */
  function FToC(f: real): (c: real)
    ensures CToF(c) == f
  {
    (f - 32.0) * 5.0 / 9.0
  }

  /** `cToF` is the inverse of `fToC`. */
  lemma CelsiusRoundTrip(c: real)
    ensures FToC(CToF(c)) == c
  {
    assert CToF(FToC(CToF(c))) == CToF(c);
  }

  // ---------------------------------------------------------------- the tables

  /** Heat index in °F, by humidity row (40 %, 45 %, ..., 100 %) and
      temperature column (80 °F, 82 °F, ...). */
  const Table: seq<seq<int>> := [
    [80, 81, 83, 85, 88, 91, 94, 97, 101, 105, 109, 114, 119, 124, 130, 136],
    [80, 82, 84, 87, 89, 93, 96, 100, 104, 109, 114, 119, 124, 130, 137],
    [81, 83, 85, 88, 91, 95, 99, 103, 108, 113, 118, 124, 131, 137],
    [81, 84, 86, 89, 93, 97, 101, 106, 112, 117, 124, 130, 137],
    [82, 84, 88, 91, 95, 100, 105, 110, 116, 123, 129, 137],
    [82, 85, 89, 93, 98, 103, 108, 114, 121, 128, 136],
    [83, 86, 90, 95, 100, 105, 112, 119, 126, 134],
    [84, 88, 92, 97, 103, 109, 116, 124, 132],
    [84, 89, 94, 100, 106, 113, 121, 129],
    [85, 90, 96, 102, 110, 117, 126, 135],
    [86, 91, 98, 105, 113, 122, 131],
    [86, 93, 100, 108, 117, 127],
    [87, 95, 103, 112, 121, 132]
  ]

  /** The danger level of each cell of `Table`. */
  const IndexTable: seq<seq<int>> := [
    [1, 1, 1, 1, 1, 2, 2, 2, 2, 3, 3, 3, 3, 3, 4, 4],
    [1, 1, 1, 1, 1, 2, 2, 2, 3, 3, 3, 3, 3, 4, 4],
    [1, 1, 1, 1, 2, 2, 2, 2, 3, 3, 3, 3, 4, 4],
    [1, 1, 1, 1, 2, 2, 2, 3, 3, 3, 3, 4, 4],
    [1, 1, 1, 2, 2, 2, 3, 3, 3, 3, 4, 4],
    [1, 1, 1, 2, 2, 2, 3, 3, 3, 4, 4],
    [1, 1, 1, 2, 2, 3, 3, 3, 4, 4],
    [1, 1, 2, 2, 2, 3, 3, 3, 4],
    [1, 1, 2, 2, 3, 3, 3, 4],
    [1, 1, 2, 2, 3, 3, 4, 4],
    [1, 2, 2, 3, 3, 3, 4],
    [1, 2, 2, 3, 3, 4],
    [1, 2, 2, 3, 3, 4]
  ]

  const CategoryMap: seq<string> := ["safe", "caution", "extreme caution", "danger", "extreme danger"]

  /** From `k` on, each element is at most the next, and all lie within
      `lo..hi`. */
  predicate Climbs(row: seq<int>, k: nat, lo: int, hi: int)
    decreases |row| - k
  {
    k >= |row| || (lo <= row[k] <= hi && (k + 1 == |row| || row[k] <= row[k + 1]) && Climbs(row, k + 1, lo, hi))
  }

  lemma {:induction false} ClimbsPairs(row: seq<int>, k: nat, lo: int, hi: int, i: nat, j: nat)
    requires Climbs(row, k, lo, hi) && k <= i <= j < |row|
    ensures lo <= row[i] <= row[j] <= hi
    decreases |row| - k
  {
    if k < i {
      ClimbsPairs(row, k + 1, lo, hi, i, j);
    } else if i < j {
      ClimbsPairs(row, k + 1, lo, hi, i + 1, j);
    }
  }

  /** The tables have the same shape, their rows are non-empty and never
      decrease, and every danger level is a category. */
  predicate TablesWellFormed() {
    && |Table| == |IndexTable| == 13
    && forall i :: 0 <= i < 13 ==>
      && |Table[i]| == |IndexTable[i]| > 0
      && Climbs(Table[i], 0, 1, 200) && Climbs(IndexTable[i], 0, 1, 4)
      && IndexTable[i][|IndexTable[i]| - 1] == 4
  }

  lemma TablesAreWellFormed()
    ensures TablesWellFormed()
  {
    forall i | 0 <= i < 13
      ensures |Table[i]| == |IndexTable[i]| > 0
      ensures Climbs(Table[i], 0, 1, 200) && Climbs(IndexTable[i], 0, 1, 4)
      ensures IndexTable[i][|IndexTable[i]| - 1] == 4
    {
      RowWellFormed(i);
    }
  }

  lemma RowWellFormed(i: nat)
    requires i < 13
    ensures |Table[i]| == |IndexTable[i]| > 0
    ensures Climbs(Table[i], 0, 1, 200) && Climbs(IndexTable[i], 0, 1, 4)
    ensures IndexTable[i][|IndexTable[i]| - 1] == 4
  {
    TableRowClimbs(i);
    IndexRowClimbs(i);
  }

  // Each row is a literal, which Dafny checks cell by cell.

  lemma TableRowClimbs(i: nat)
    requires i < 13
    ensures Climbs(Table[i], 0, 1, 200)
  {
  }

  lemma IndexRowClimbs(i: nat)
    requires i < 13
    ensures Climbs(IndexTable[i], 0, 1, 4)
  {
  }


  // ---------------------------------------------------------------- the lookup

  /** The result object: `greaterThan` is set only when the temperature is
      beyond the end of its row. */
  datatype Reading = Reading(category: string, index: nat, value: int, greaterThan: bool)

  /** The default `temperature_units = 'degC'` applies when the argument is
      `undefined`; only the units `'degC'` are converted. */
  predicate IsCelsius(units: Value) {
    units == Undefined || (units.Str? && units.s == "degC")
  }

  function Fahrenheit(temperature: real, units: Value): real {
    if IsCelsius(units) then CToF(temperature) else temperature
  }

  /** The temperature rounded to a step of 2 °F. */
  function TemperatureStep(tempF: real): int {
    Round(tempF / 2.0) * 2
  }

  /** The humidity rounded to a step of 5 %. */
  function HumidityStep(humidity: real): int {
    Round(humidity / 5.0) * 5
  }

  /** The estimate used below 80 °F or 40 %. */
  function Linear(tempF: real, humidity: real): Reading {
    Reading("safe", 0, Round(1.1 * tempF - 10.3 + 0.047 * humidity), false)
  }

  /** The table cell at row `h`, column `t`: past the end of the row, the
      row's last value at the highest danger level. */
  function Cell(h: nat, t: nat): (r: Reading)
    requires h < 13
    ensures 1 <= r.index <= 4 && r.category == CategoryMap[r.index]
    ensures r.greaterThan <==> t >= |Table[h]|
  {
    TablesAreWellFormed();
    var row := Table[h];
    if t >= |row| then Reading(CategoryMap[4], 4, row[|row| - 1], true)
    else
      ClimbsPairs(IndexTable[h], 0, 1, 4, t, t);
      var index := IndexTable[h][t];
      Reading(CategoryMap[index], index, row[t], false)
  }

  /** The lookup on the rounded temperature `tmp` (°F) and humidity `hum`
      (%), with `linear` the estimate used below 80 °F or 40 %: `None` is the
      `undefined` returned for a humidity beyond the table. The row and
      column are the quotients of whole steps, which `Math.round` leaves
      alone (`QuotientsExact`). */
  function FromSteps(tmp: int, hum: int, linear: Reading): (r: Option<Reading>)
    ensures r.Some? && r.value != linear ==> 1 <= r.value.index <= 4 && r.value.category == CategoryMap[r.value.index]
    ensures r.Some? && r.value.greaterThan && r.value != linear ==> r.value.index == 4
  {
    if tmp < 80 || hum < 40 then Some(linear)
    else
      var humIdx := (hum - 40) / 5;
      var tmpIdx := (tmp - 80) / 2;
      if humIdx >= |Table| then None
      else Some(Cell(humIdx, tmpIdx))
  }

  /** The lookup on a temperature in °F. */
  function FromFahrenheit(tempF: real, humidity: real): (r: Option<Reading>)
    ensures r.Some? ==> r.value.index <= 4 && r.value.category == CategoryMap[r.value.index]
    ensures r.Some? && r.value.greaterThan ==> r.value.index == 4
  {
    FromSteps(TemperatureStep(tempF), HumidityStep(humidity), Linear(tempF, humidity))
  }

  /** `calculateHeatIndexDegF`: `undefined` exactly past the last row of the
      table, the linear estimate (danger level 0) exactly below 80 °F or
      40 %, and otherwise a table reading whose category names its danger
      level. */
  function HeatIndexDegF(temperature: real, humidity: real, units: Value): (r: Option<Reading>)
    ensures var tempF := Fahrenheit(temperature, units);
      r.None? <==> TemperatureStep(tempF) >= 80 && HumidityStep(humidity) > 100
    ensures var tempF := Fahrenheit(temperature, units);
      (r.Some? && r.value.index == 0) <==> (TemperatureStep(tempF) < 80 || HumidityStep(humidity) < 40)
    ensures r.Some? ==> r.value.index <= 4 && r.value.category == CategoryMap[r.value.index]
  {
    var tempF := Fahrenheit(temperature, units);
    UndefinedBeyondTable(tempF, humidity);
    LinearBranch(tempF, humidity);
    FromFahrenheit(tempF, humidity)
  }

  /** `calculateHeatIndexDegC`. */
  function HeatIndexDegC(temperature: real, humidity: real, units: Value): (r: Option<Reading>)
    ensures r.Some? <==> HeatIndexDegF(temperature, humidity, units).Some?
  {
    match HeatIndexDegF(temperature, humidity, units)
    case None => None
    case Some(f) => Some(f.(value := Round(FToC(f.value as real))))
  }

  // ---------------------------------------------------------------- properties

  /** The rounded readings are whole steps, so rounding the row and column
      quotients, as the source does, changes nothing: they are the exact
      quotients, one per step above 40 % and 80 °F. */
  lemma QuotientsExact(tempF: real, humidity: real)
    ensures var hum, tmp := HumidityStep(humidity), TemperatureStep(tempF);
      && Round((hum - 40) as real / 5.0) == (hum - 40) / 5 == Round(humidity / 5.0) - 8
      && Round((tmp - 80) as real / 2.0) == (tmp - 80) / 2 == Round(tempF / 2.0) - 40
  {
    var h := Round(humidity / 5.0);
    assert (HumidityStep(humidity) - 40) as real / 5.0 == (h - 8) as real;
    RoundInt(h - 8);
    var t := Round(tempF / 2.0);
    assert (TemperatureStep(tempF) - 80) as real / 2.0 == (t - 40) as real;
    RoundInt(t - 40);
  }

  /** The linear estimate is used exactly below 80 °F or 40 % (after
      rounding); it is the only reading at danger level 0. */
  lemma LinearBranch(tempF: real, humidity: real)
    ensures var r := FromFahrenheit(tempF, humidity);
      (r.Some? && r.value.index == 0) <==> (TemperatureStep(tempF) < 80 || HumidityStep(humidity) < 40)
    ensures TemperatureStep(tempF) < 80 || HumidityStep(humidity) < 40 ==>
      FromFahrenheit(tempF, humidity) == Some(Linear(tempF, humidity))
  {
  }

  /** The result is `undefined` exactly when the rounded humidity is past
      the last row (100 %) and the linear estimate does not apply. */
  lemma UndefinedBeyondTable(tempF: real, humidity: real)
    ensures FromFahrenheit(tempF, humidity).None? <==> TemperatureStep(tempF) >= 80 && HumidityStep(humidity) > 100
  {
    QuotientsExact(tempF, humidity);
  }

  /** Within the table the reading is the cell of the rounded readings:
      row `(hum - 40) / 5`, column `(tmp - 80) / 2`. */
  lemma TableBranch(tempF: real, humidity: real)
    requires TemperatureStep(tempF) >= 80 && 40 <= HumidityStep(humidity) <= 100
    ensures var r := FromFahrenheit(tempF, humidity);
      && r.Some? && 1 <= r.value.index
      && r.value == Cell(Round(humidity / 5.0) - 8, Round(tempF / 2.0) - 40)
  {
    QuotientsExact(tempF, humidity);
  }

  /** Along a row, a hotter cell is never safer and never reads lower. */
  lemma CellMonotone(h: nat, t1: nat, t2: nat)
    requires h < 13 && t1 <= t2
    ensures Cell(h, t1).value <= Cell(h, t2).value
    ensures Cell(h, t1).index <= Cell(h, t2).index
  {
    TablesAreWellFormed();
    var n := |Table[h]|;
    if t1 < n {
      var t := if t2 < n then t2 else n - 1;
      ClimbsPairs(Table[h], 0, 1, 200, t1, t);
      ClimbsPairs(IndexTable[h], 0, 1, 4, t1, t);
    }
  }

  /** On the table, a higher rounded temperature reads a cell of the same
      row no earlier in it. */
  lemma StepsMonotone(tmp1: int, tmp2: int, hum: int, l1: Reading, l2: Reading)
    requires 80 <= tmp1 <= tmp2 && tmp1 % 2 == 0 && tmp2 % 2 == 0
    requires 40 <= hum <= 100 && hum % 5 == 0
    ensures var r1, r2 := FromSteps(tmp1, hum, l1), FromSteps(tmp2, hum, l2);
      && r1.Some? && r2.Some?
      && r1.value.value <= r2.value.value
      && r1.value.index <= r2.value.index
  {
    CellMonotone((hum - 40) / 5, (tmp1 - 80) / 2, (tmp2 - 80) / 2);
  }

  /** The rounded readings are whole steps, and rounding keeps order. */
  lemma StepsOrdered(f1: real, f2: real, humidity: real)
    requires f1 <= f2
    ensures TemperatureStep(f1) <= TemperatureStep(f2)
    ensures TemperatureStep(f1) % 2 == 0 && TemperatureStep(f2) % 2 == 0
    ensures HumidityStep(humidity) % 5 == 0
  {
    RoundMonotone(f1 / 2.0, f2 / 2.0);
  }

  /** At a humidity on the table, a higher temperature never gives a lower
      heat index or a safer category. */
  lemma HotterNeverSafer(f1: real, f2: real, humidity: real)
    requires f1 <= f2
    requires TemperatureStep(f1) >= 80 && 40 <= HumidityStep(humidity) <= 100
    ensures var r1, r2 := FromFahrenheit(f1, humidity), FromFahrenheit(f2, humidity);
      && r1.Some? && r2.Some?
      && r1.value.value <= r2.value.value
      && r1.value.index <= r2.value.index
  {
    StepsOrdered(f1, f2, humidity);
    StepsMonotone(TemperatureStep(f1), TemperatureStep(f2), HumidityStep(humidity),
      Linear(f1, humidity), Linear(f2, humidity));
  }

  /** The conversion of the input keeps the order of temperatures, so the
      same holds whatever the units. */
  lemma FahrenheitMonotone(t1: real, t2: real, units: Value)
    requires t1 <= t2
    ensures Fahrenheit(t1, units) <= Fahrenheit(t2, units)
  {
  }

  /** A temperature in Celsius reads as its conversion given under any
      units other than `'degC'`. */
  lemma CelsiusInput(temperature: real, humidity: real, units: Value)
    requires !IsCelsius(units)
    ensures HeatIndexDegF(temperature, humidity, Undefined) == HeatIndexDegF(CToF(temperature), humidity, units)
  {
  }

  /** The Celsius variant keeps the category, the danger level and the
      `greaterThan` flag and converts only the value, to the nearest degree. */
  lemma CelsiusVariant(temperature: real, humidity: real, units: Value)
    ensures var f := HeatIndexDegF(temperature, humidity, units);
      var c := HeatIndexDegC(temperature, humidity, units);
      f.Some? ==>
        && c.value.category == f.value.category && c.value.index == f.value.index
        && c.value.greaterThan == f.value.greaterThan
        && c.value.value as real - 0.5 <= FToC(f.value.value as real) < c.value.value as real + 0.5
  {
  }
}

=== FILE: layout.dfy ===
/** The per-model record layout of stitchjob.js: the record width
    (`getRecordLengthByModelType`), the CSV header text (`appendHeaderRow`)
    and the Influx field-name and unit-tag arrays of
    `convertRecordToString`, with the pressure and battery columns spliced
    in ahead of the GPS triple. */
module Layout {

  import opened Values
  import opened Text
  import opened Models

  /** The width of a record without pressure or battery columns. */
  function BaseWidth(m: Model): (n: nat)
    ensures 6 <= n <= 13
  {
    match m
    case A => 10
    case B => 10
    case C => 8
    case D => 7
    case E => 9
    case G => 10
    case J => 11
    case H => 6
    case K => 11
    case L => 11
    case M => 12
    case N => 9
    case P => 13
    case Q => 13
    case R => 13
    case S => 13
    case T => 13
    case U => 11
    case V => 10
    case W => 11
    case Y => 12
  }

  function Flag(b: bool): nat {
    if b then 1 else 0
  }

  /** `getRecordLengthByModelType(model, hasPressure, hasBattery)` */
  function Width(m: Model, hasPressure: bool, hasBattery: bool): (w: nat)
    ensures w >= 6 + Flag(hasPressure) + Flag(hasBattery)
  {
    BaseWidth(m) + Flag(hasPressure) + Flag(hasBattery)
  }

  /** The optional columns add one each to the model's width; the bare
      model H has just timestamp, temperature, humidity and GPS. */
  lemma WidthShape(m: Model, hasPressure: bool, hasBattery: bool)
    ensures Width(m, hasPressure, hasBattery) == Width(m, false, false) + Flag(hasPressure) + Flag(hasBattery)
    ensures Width(H, hasPressure, hasBattery) == 6 + Flag(hasPressure) + Flag(hasBattery)
  {
  }

  /** Refinement only ever widens a record (C to N, U to Y). */
  lemma RefineWidens(m: Model, data: seq<Messages.Message>, hasPressure: bool, hasBattery: bool)
    ensures Width(Refine(m, data), hasPressure, hasBattery) >= Width(m, hasPressure, hasBattery)
  {
    RefineSplitsCollisions(m, data);
  }

  /** The slot pressure is written to: four from the end, five when a
      battery column follows it. */
  function PressureSlot(m: Model, hasPressure: bool, hasBattery: bool): int {
    Width(m, hasPressure, hasBattery) - 4 - Flag(hasBattery)
  }

  /** The slot battery is written to: four from the end. */
  function BatterySlot(m: Model, hasPressure: bool, hasBattery: bool): int {
    Width(m, hasPressure, hasBattery) - 4
  }

  /** The first of the three GPS slots (latitude, longitude, altitude). */
  function GpsSlot(m: Model, hasPressure: bool, hasBattery: bool): int {
    Width(m, hasPressure, hasBattery) - 3
  }

  /** The last sensor slot: the slot before pressure, battery and GPS. */
  function LastSensorSlot(m: Model): nat {
    BaseWidth(m) - 4
  }

  /** With their flags set, the tail slots follow the sensor columns in the
      order pressure, battery, latitude, longitude, altitude. */
  lemma TailOrder(m: Model, hasPressure: bool, hasBattery: bool)
    ensures hasPressure ==> LastSensorSlot(m) < PressureSlot(m, hasPressure, hasBattery)
    ensures hasBattery ==> LastSensorSlot(m) < BatterySlot(m, hasPressure, hasBattery)
    ensures hasPressure && hasBattery ==> PressureSlot(m, hasPressure, hasBattery) + 1 == BatterySlot(m, hasPressure, hasBattery)
    ensures LastSensorSlot(m) + Flag(hasPressure) + Flag(hasBattery) + 1 == GpsSlot(m, hasPressure, hasBattery)
  {
  }

  // ---------------------------------------------------------------- CSV header

  /** The model-specific header columns, between humidity (temperature for
      model W) and the optional pressure/battery columns. */
  function SensorLabels(m: Model): seq<string> {
    match m
    case A => ["no2[ppb]", "co[ppm]", "no2[V]", "co[V]"]
    case B => ["so2[ppb]", "o3[ppb]", "so2[V]", "o3[V]"]
    case C => ["pm[ug/m^3]", "pm[V]"]
    case D => ["co2[ppm]"]
    case E => ["eco2[ppm]", "tvoc[ppb]", "resistance[ohm]"]
    case G => ["co2[ppm]", "pm1.0[ug/m^3]", "pm2.5[ug/m^3]", "pm10.0[ug/m^3]"]
    case J => ["no2[ppb]", "o3[ppb]", "no2_we[V]", "no2_aux[V]", "o3[V]"]
    case K => ["no2[ppb]", "no2[V]", "pm1.0[ug/m^3]", "pm2.5[ug/m^3]", "pm10.0[ug/m^3]"]
    case L => ["co[ppm]", "co[V]", "pm1.0[ug/m^3]", "pm2.5[ug/m^3]", "pm10.0[ug/m^3]"]
    case M => ["co2[ppm]", "pm1.0[ug/m^3]", "pm2.5[ug/m^3]", "pm10.0[ug/m^3]", "no2[ppb]", "no2[V]"]
    case N => ["pm1.0[ug/m^3]", "pm2.5[ug/m^3]", "pm10.0[ug/m^3]"]
    case P => ["co2[ppm]", "pm1.0[ug/m^3]", "pm2.5[ug/m^3]", "pm10.0[ug/m^3]", "eco2[ppm]", "tvoc[ppb]", "resistance[ohm]"]
    case Q => ["pm1.0[ug/m^3]", "pm2.5[ug/m^3]", "pm10.0[ug/m^3]", "co[ppb]", "co[V]", "no2[ppb]", "no2[V]"]
    case R => ["pm1.0[ug/m^3]", "pm2.5[ug/m^3]", "pm10.0[ug/m^3]", "o3[ppb]", "o3[V]", "no2[ppb]", "no2[V]"]
    case S => ["pm1.0[ug/m^3]", "pm2.5[ug/m^3]", "pm10.0[ug/m^3]", "so2[ppb]", "so2[V]", "no2[ppb]", "no2[V]"]
    case T => ["pm1.0[ug/m^3]", "pm2.5[ug/m^3]", "pm10.0[ug/m^3]", "o3[ppb]", "o3[V]", "co[ppm]", "co[V]"]
    case U => ["so2[ppb]", "so2[V]", "pm1.0[ug/m^3]", "pm2.5[ug/m^3]", "pm10.0[ug/m^3]"]
    case V => ["co2[ppm]", "eco2[ppm]", "tvoc[ppb]", "resistance[ohm]"]
    // the water model has no humidity column, and its labels carry a
    // leading space after each comma
    case W => ["conductivity[mS/cm]", " conductivity_raw[V]", " turbidity[NTU]", " turbidity_raw[V]", " ph[n/a]", " ph_raw[V]"]
    case Y => ["so2[ppb]", "so2_we[V]", "so2_aux[V]", "pm1.0[ug/m^3]", "pm2.5[ug/m^3]", "pm10.0[ug/m^3]"]
    case H => []
  }

  /** The temperature units shown in the header: "???" when there are
      none. Only string units are rendered. */
  function UnitsText(units: Value): string {
    if Truthy(units) && units.Str? then units.s else "???"
  }

  /** The columns ahead of the sensor columns: timestamp, temperature and
      (except on the water model) humidity. */
  function LeadLabels(m: Model, units: Value): seq<string> {
    if m == W then ["timestamp", "temperature[" + UnitsText(units) + "]"]
    else ["timestamp", "temperature[" + UnitsText(units) + "]", "humidity[%]"]
  }

  /** Lead columns, sensor columns, the optional pressure and battery
      columns, then the GPS triple. */
  function AssembleLabels(lead: seq<string>, sensor: seq<string>, hasPressure: bool, hasBattery: bool): seq<string> {
    lead + sensor
    + (if hasPressure then ["pressure[Pa]"] else [])
    + (if hasBattery then ["battery[V]"] else [])
    + ["latitude[deg]", "longitude[deg]", "altitude[m]"]
  }

  /** The header columns, in order: one per record slot, starting with
      `timestamp`, with the pressure and battery labels at their slots and
      the GPS labels last. */
  function HeaderLabels(m: Model, units: Value, hasPressure: bool, hasBattery: bool): (hs: seq<string>)
    ensures |hs| == Width(m, hasPressure, hasBattery)
    ensures var w := Width(m, hasPressure, hasBattery);
      && hs[0] == "timestamp"
      && hs[w - 3] == "latitude[deg]" && hs[w - 2] == "longitude[deg]" && hs[w - 1] == "altitude[m]"
      && (hasPressure ==> hs[PressureSlot(m, hasPressure, hasBattery)] == "pressure[Pa]")
      && (hasBattery ==> hs[BatterySlot(m, hasPressure, hasBattery)] == "battery[V]")
  {
    var lead, sensor := LeadLabels(m, units), SensorLabels(m);
    LabelsFillBase(m, units);
    AssembleShape(lead, sensor, hasPressure, hasBattery);
    AssembleLabels(lead, sensor, hasPressure, hasBattery)
  }

  /** The lead, sensor and GPS labels fill the base width. */
  lemma LabelsFillBase(m: Model, units: Value)
    ensures |LeadLabels(m, units)| + |SensorLabels(m)| + 3 == BaseWidth(m)
  {
    SensorLabelsFree(m);
  }

  /** The header row as appended to the CSV file. */
  function HeaderLine(m: Model, units: Value, hasPressure: bool, hasBattery: bool): string {
    Join(HeaderLabels(m, units, hasPressure, hasBattery), ',') + "\r\n"
  }

  lemma SensorLabelsFree1(m: Model)
    requires m == A || m == B || m == C
    ensures SeparatorFree(SensorLabels(m), ',')
    ensures |SensorLabels(m)| + (if m == W then 2 else 3) + 3 == BaseWidth(m)
  {
  }

  lemma SensorLabelsFree2(m: Model)
    requires m == D || m == E || m == G
    ensures SeparatorFree(SensorLabels(m), ',')
    ensures |SensorLabels(m)| + (if m == W then 2 else 3) + 3 == BaseWidth(m)
  {
  }

  lemma SensorLabelsFree3(m: Model)
    requires m == H || m == J || m == K
    ensures SeparatorFree(SensorLabels(m), ',')
    ensures |SensorLabels(m)| + (if m == W then 2 else 3) + 3 == BaseWidth(m)
  {
  }

  lemma SensorLabelsFree4(m: Model)
    requires m == L || m == M || m == N
    ensures SeparatorFree(SensorLabels(m), ',')
    ensures |SensorLabels(m)| + (if m == W then 2 else 3) + 3 == BaseWidth(m)
  {
  }

  lemma SensorLabelsFree5(m: Model)
    requires m == P || m == Q || m == R
    ensures SeparatorFree(SensorLabels(m), ',')
    ensures |SensorLabels(m)| + (if m == W then 2 else 3) + 3 == BaseWidth(m)
  {
  }

  lemma SensorLabelsFree6(m: Model)
    requires m == S || m == T || m == U
    ensures SeparatorFree(SensorLabels(m), ',')
    ensures |SensorLabels(m)| + (if m == W then 2 else 3) + 3 == BaseWidth(m)
  {
  }

  lemma SensorLabelsFree7(m: Model)
    requires m == V || m == Y
    ensures SeparatorFree(SensorLabels(m), ',')
    ensures |SensorLabels(m)| + (if m == W then 2 else 3) + 3 == BaseWidth(m)
  {
  }

  lemma SensorLabelsFree8(m: Model)
    requires m == W
    ensures SeparatorFree(SensorLabels(m), ',')
    ensures |SensorLabels(m)| + (if m == W then 2 else 3) + 3 == BaseWidth(m)
  {
  }

  /** Every model's sensor labels are free of commas, and with the lead and
      GPS columns they fill the base width. */
  lemma SensorLabelsFree(m: Model)
    ensures SeparatorFree(SensorLabels(m), ',')
    ensures |SensorLabels(m)| + (if m == W then 2 else 3) + 3 == BaseWidth(m)
  {
    if m == A || m == B || m == C {
      SensorLabelsFree1(m);
    } else if m == D || m == E || m == G {
      SensorLabelsFree2(m);
    } else if m == H || m == J || m == K {
      SensorLabelsFree3(m);
    } else if m == L || m == M || m == N {
      SensorLabelsFree4(m);
    } else if m == P || m == Q || m == R {
      SensorLabelsFree5(m);
    } else if m == S || m == T || m == U {
      SensorLabelsFree6(m);
    } else if m == V || m == Y {
      SensorLabelsFree7(m);
    } else {
      SensorLabelsFree8(m);
    }
  }

  /** The shape of an assembled header, whatever the sensor columns. */
  lemma AssembleShape(lead: seq<string>, sensor: seq<string>, hasPressure: bool, hasBattery: bool)
    requires |lead| >= 1
    ensures var hs := AssembleLabels(lead, sensor, hasPressure, hasBattery);
      var w := |lead| + |sensor| + Flag(hasPressure) + Flag(hasBattery) + 3;
      && |hs| == w
      && hs[0] == lead[0]
      && hs[w - 3] == "latitude[deg]" && hs[w - 2] == "longitude[deg]" && hs[w - 1] == "altitude[m]"
      && (hasPressure ==> hs[w - 4 - Flag(hasBattery)] == "pressure[Pa]")
      && (hasBattery ==> hs[w - 4] == "battery[V]")
    ensures SeparatorFree(lead, ',') && SeparatorFree(sensor, ',') ==>
      SeparatorFree(AssembleLabels(lead, sensor, hasPressure, hasBattery), ',')
  {
  }

  /** An assembled header of width `w` read back through `Split`. */
  lemma AssembleSplits(lead: seq<string>, sensor: seq<string>, hasPressure: bool, hasBattery: bool)
    requires |lead| >= 1 && SeparatorFree(lead, ',') && SeparatorFree(sensor, ',')
    ensures var hs := AssembleLabels(lead, sensor, hasPressure, hasBattery);
      Split(Join(hs, ','), ',') == hs
  {
    AssembleShape(lead, sensor, hasPressure, hasBattery);
    SplitJoin(AssembleLabels(lead, sensor, hasPressure, hasBattery), ',');
  }

  /** The lead labels are free of commas when the units text is. */
  lemma LeadLabelsFree(m: Model, units: Value)
    requires ',' !in UnitsText(units)
    ensures SeparatorFree(LeadLabels(m, units), ',')
  {
    var t := "temperature[" + UnitsText(units) + "]";
    assert ',' !in t;
  }

  /** The header line's comma-separated fields are exactly the labels,
      provided the units text has no comma. */
  lemma HeaderSplitsBack(m: Model, units: Value, hasPressure: bool, hasBattery: bool)
    ensures ',' !in UnitsText(units) ==>
      Split(Join(HeaderLabels(m, units, hasPressure, hasBattery), ','), ',') == HeaderLabels(m, units, hasPressure, hasBattery)
  {
    if ',' !in UnitsText(units) {
      SensorLabelsFree(m);
      LeadLabelsFree(m, units);
      AssembleSplits(LeadLabels(m, units), SensorLabels(m), hasPressure, hasBattery);
    }
  }

  // ---------------------------------------------------------------- Influx

  /** `modelInfluxFieldsMap[model]`; `|` separates alias names. */
  function FieldNames(m: Model): seq<string> {
    match m
    case A => ["", "temperature", "humidity", "no2", "co", "no2_raw", "co_raw", "latitude", "longitude", "altitude"]
    case B => ["", "temperature", "humidity", "so2", "o3", "so2_raw", "o3_raw", "latitude", "longitude", "altitude"]
    case C => ["", "temperature", "humidity", "particulate", "particulate_raw", "latitude", "longitude", "altitude"]
    case D => ["", "temperature", "humidity", "co2", "latitude", "longitude", "altitude"]
    case E => ["", "temperature", "humidity", "eco2|co2", "voc", "voc_raw", "latitude", "longitude", "altitude"]
    case G => ["", "temperature", "humidity", "co2", "pm1p0", "pm2p5", "pm10p0", "latitude", "longitude", "altitude"]
    case H => ["", "temperature", "humidity", "latitude", "longitude", "altitude"]
    case J => ["", "temperature", "humidity", "no2", "o3", "no2_raw1", "no2_raw2", "o3_raw", "latitude", "longitude", "altitude"]
    case K => ["", "temperature", "humidity", "no2", "no2_raw", "pm1p0", "pm2p5", "pm10p0", "latitude", "longitude", "altitude"]
    case L => ["", "temperature", "humidity", "co", "co_raw", "pm1p0", "pm2p5", "pm10p0", "latitude", "longitude", "altitude"]
    case M => ["", "temperature", "humidity", "co2", "pm1p0", "pm2p5", "pm10p0", "no2", "no2_raw", "latitude", "longitude", "altitude"]
    case N => ["", "temperature", "humidity", "pm1p0", "pm2p5", "pm10p0", "latitude", "longitude", "altitude"]
    case P => ["", "temperature", "humidity", "co2", "pm1p0", "pm2p5", "pm10p0", "eco2|co2", "voc", "voc_raw", "latitude", "longitude", "altitude"]
    case Q => ["", "temperature", "humidity", "pm1p0", "pm2p5", "pm10p0", "o3", "o3_raw", "no2", "no2_raw", "latitude", "longitude", "altitude"]
    case R => ["", "temperature", "humidity", "pm1p0", "pm2p5", "pm10p0", "co", "co_raw", "no2", "no2_raw", "latitude", "longitude", "altitude"]
    case S => ["", "temperature", "humidity", "pm1p0", "pm2p5", "pm10p0", "so2", "so2_raw", "no2", "no2_raw", "latitude", "longitude", "altitude"]
    case T => ["", "temperature", "humidity", "pm1p0", "pm2p5", "pm10p0", "o3", "o3_raw", "co", "co_raw", "latitude", "longitude", "altitude"]
    case U => ["", "temperature", "humidity", "so2", "so2_raw", "pm1p0", "pm2p5", "pm10p0", "latitude", "longitude", "altitude"]
    case V => ["", "temperature", "humidity", "co2", "eco2", "voc", "voc_raw", "latitude", "longitude", "altitude"]
    case W => ["", "temperature", "conductivity", "conductivity_raw", "turbidity", "turbidity_raw", "ph", "ph_raw", "latitude", "longitude", "altitude"]
    case Y => ["", "temperature", "humidity", "so2", "so2_raw", "so2_raw2", "pm1p0", "pm2p5", "pm10p0", "latitude", "longitude", "altitude"]
  }

  /** A string literal as a JavaScript value. */
  function Lit(s: string): Value {
    Str(s, Options.None)
  }

  /** `modelInfluxTagsMap[model]`: no unit for the timestamp, the caller's
      temperature units, then the model's other units. */
  function UnitTags(m: Model, tempUnits: Value): seq<Value> {
    [Lit(""), tempUnits] + OtherTags(m)
  }

  /** The units after temperature, per model. */
  function OtherTags(m: Model): seq<Value> {
    match m
    case A => [Lit("%"), Lit("ppb"), Lit("ppm"), Lit("V"), Lit("V"), Lit("deg"), Lit("deg"), Lit("m")]
    case B => [Lit("%"), Lit("ppb"), Lit("ppb"), Lit("V"), Lit("V"), Lit("deg"), Lit("deg"), Lit("m")]
    case C => [Lit("%"), Lit("ug/m^3"), Lit("V"), Lit("deg"), Lit("deg"), Lit("m")]
    case D => [Lit("%"), Lit("ppm"), Lit("deg"), Lit("deg"), Lit("m")]
    case E => [Lit("%"), Lit("ppm"), Lit("ppb"), Lit("ohms"), Lit("deg"), Lit("deg"), Lit("m")]
    case G => [Lit("%"), Lit("ppm"), Lit("ug/m^3"), Lit("ug/m^3"), Lit("ug/m^3"), Lit("deg"), Lit("deg"), Lit("m")]
    case H => [Lit("%"), Lit("deg"), Lit("deg"), Lit("m")]
    case J => [Lit("%"), Lit("ppb"), Lit("ppb"), Lit("V"), Lit("V"), Lit("V"), Lit("deg"), Lit("deg"), Lit("m")]
    case K => [Lit("%"), Lit("ppb"), Lit("V"), Lit("ug/m^3"), Lit("ug/m^3"), Lit("ug/m^3"), Lit("deg"), Lit("deg"), Lit("m")]
    case L => [Lit("%"), Lit("ppm"), Lit("V"), Lit("ug/m^3"), Lit("ug/m^3"), Lit("ug/m^3"), Lit("deg"), Lit("deg"), Lit("m")]
    case M => [Lit("%"), Lit("ppm"), Lit("ug/m^3"), Lit("ug/m^3"), Lit("ug/m^3"), Lit("ppb"), Lit("V"), Lit("deg"), Lit("deg"), Lit("m")]
    case N => [Lit("%"), Lit("ug/m^3"), Lit("ug/m^3"), Lit("ug/m^3"), Lit("deg"), Lit("deg"), Lit("m")]
    case P => [Lit("%"), Lit("ppm"), Lit("ug/m^3"), Lit("ug/m^3"), Lit("ug/m^3"), Lit("ppm"), Lit("ppb"), Lit("ohms"), Lit("deg"), Lit("deg"), Lit("m")]
    case Q => [Lit("%"), Lit("ug/m^3"), Lit("ug/m^3"), Lit("ug/m^3"), Lit("ppm"), Lit("V"), Lit("ppb"), Lit("V"), Lit("deg"), Lit("deg"), Lit("m")]
    case R => [Lit("%"), Lit("ug/m^3"), Lit("ug/m^3"), Lit("ug/m^3"), Lit("ppb"), Lit("V"), Lit("ppb"), Lit("V"), Lit("deg"), Lit("deg"), Lit("m")]
    case S => [Lit("%"), Lit("ug/m^3"), Lit("ug/m^3"), Lit("ug/m^3"), Lit("ppb"), Lit("V"), Lit("ppb"), Lit("V"), Lit("deg"), Lit("deg"), Lit("m")]
    case T => [Lit("%"), Lit("ug/m^3"), Lit("ug/m^3"), Lit("ug/m^3"), Lit("ppb"), Lit("V"), Lit("ppm"), Lit("V"), Lit("deg"), Lit("deg"), Lit("m")]
    case U => [Lit("%"), Lit("ppb"), Lit("V"), Lit("ug/m^3"), Lit("ug/m^3"), Lit("ug/m^3"), Lit("deg"), Lit("deg"), Lit("m")]
    case V => [Lit("%"), Lit("ppm"), Lit("ppm"), Lit("ppb"), Lit("ohms"), Lit("deg"), Lit("deg"), Lit("m")]
    case W => [Lit("mS/cm"), Lit("V"), Lit("NTU"), Lit("V"), Lit("n/a"), Lit("V"), Lit("deg"), Lit("deg"), Lit("m")]
    case Y => [Lit("%"), Lit("ppb"), Lit("V"), Lit("V"), Lit("ug/m^3"), Lit("ug/m^3"), Lit("ug/m^3"), Lit("deg"), Lit("deg"), Lit("m")]
  }

  /** `xs.splice(xs.length - 3, 0, x)`: insert `x` before the last three. */
  function InsertBeforeGps<X>(xs: seq<X>, x: X): (r: seq<X>)
    requires |xs| >= 3
    ensures |r| == |xs| + 1
    ensures r[..|xs| - 3] == xs[..|xs| - 3] && r[|xs| - 3] == x && r[|xs| - 2..] == xs[|xs| - 3..]
  {
    xs[..|xs| - 3] + [x] + xs[|xs| - 3..]
  }

  /** Pressure spliced in first, then battery, both ahead of the GPS
      triple. */
  function WithTail<X>(xs: seq<X>, hasPressure: bool, hasBattery: bool, pressure: X, battery: X): (r: seq<X>)
    requires |xs| >= 3
    ensures |r| == |xs| + Flag(hasPressure) + Flag(hasBattery)
  {
    var withPressure := if hasPressure then InsertBeforeGps(xs, pressure) else xs;
    if hasBattery then InsertBeforeGps(withPressure, battery) else withPressure
  }

  lemma BaseArrays1(m: Model, tempUnits: Value)
    requires m == A || m == B || m == C
    ensures |FieldNames(m)| == BaseWidth(m)
    ensures |UnitTags(m, tempUnits)| == BaseWidth(m)
    ensures FieldNames(m)[BaseWidth(m) - 3..] == ["latitude", "longitude", "altitude"]
  {
  }

  lemma BaseArrays2(m: Model, tempUnits: Value)
    requires m == D || m == E || m == G
    ensures |FieldNames(m)| == BaseWidth(m)
    ensures |UnitTags(m, tempUnits)| == BaseWidth(m)
    ensures FieldNames(m)[BaseWidth(m) - 3..] == ["latitude", "longitude", "altitude"]
  {
  }

  lemma BaseArrays3(m: Model, tempUnits: Value)
    requires m == H || m == J || m == K
    ensures |FieldNames(m)| == BaseWidth(m)
    ensures |UnitTags(m, tempUnits)| == BaseWidth(m)
    ensures FieldNames(m)[BaseWidth(m) - 3..] == ["latitude", "longitude", "altitude"]
  {
  }

  lemma BaseArrays4(m: Model, tempUnits: Value)
    requires m == L || m == M || m == N
    ensures |FieldNames(m)| == BaseWidth(m)
    ensures |UnitTags(m, tempUnits)| == BaseWidth(m)
    ensures FieldNames(m)[BaseWidth(m) - 3..] == ["latitude", "longitude", "altitude"]
  {
  }

  lemma BaseArrays5(m: Model, tempUnits: Value)
    requires m == P || m == Q || m == R
    ensures |FieldNames(m)| == BaseWidth(m)
    ensures |UnitTags(m, tempUnits)| == BaseWidth(m)
    ensures FieldNames(m)[BaseWidth(m) - 3..] == ["latitude", "longitude", "altitude"]
  {
  }

  lemma BaseArrays6(m: Model, tempUnits: Value)
    requires m == S || m == T || m == U
    ensures |FieldNames(m)| == BaseWidth(m)
    ensures |UnitTags(m, tempUnits)| == BaseWidth(m)
    ensures FieldNames(m)[BaseWidth(m) - 3..] == ["latitude", "longitude", "altitude"]
  {
  }

  lemma BaseArrays7(m: Model, tempUnits: Value)
    requires m == V || m == W || m == Y
    ensures |FieldNames(m)| == BaseWidth(m)
    ensures |UnitTags(m, tempUnits)| == BaseWidth(m)
    ensures FieldNames(m)[BaseWidth(m) - 3..] == ["latitude", "longitude", "altitude"]
  {
  }

  /** Each model's Influx field names and unit tags have one entry per base
      column and end in the GPS triple. */
  lemma BaseArrays(m: Model, tempUnits: Value)
    ensures |FieldNames(m)| == BaseWidth(m)
    ensures |UnitTags(m, tempUnits)| == BaseWidth(m)
    ensures FieldNames(m)[BaseWidth(m) - 3..] == ["latitude", "longitude", "altitude"]
  {
    if m == A || m == B || m == C {
      BaseArrays1(m, tempUnits);
    } else if m == D || m == E || m == G {
      BaseArrays2(m, tempUnits);
    } else if m == H || m == J || m == K {
      BaseArrays3(m, tempUnits);
    } else if m == L || m == M || m == N {
      BaseArrays4(m, tempUnits);
    } else if m == P || m == Q || m == R {
      BaseArrays5(m, tempUnits);
    } else if m == S || m == T || m == U {
      BaseArrays6(m, tempUnits);
    } else {
      BaseArrays7(m, tempUnits);
    }
  }

  /** Where the splices put things, whatever the array: the result is
      `flags` longer, keeps the last three entries last, and holds pressure
      and battery in the two slots ahead of them. */
  lemma WithTailShape<X>(xs: seq<X>, hasPressure: bool, hasBattery: bool, pressure: X, battery: X)
    requires |xs| >= 3
    ensures var r := WithTail(xs, hasPressure, hasBattery, pressure, battery);
      var w := |xs| + Flag(hasPressure) + Flag(hasBattery);
      && |r| == w
      && r[w - 3..] == xs[|xs| - 3..]
      && r[..|xs| - 3] == xs[..|xs| - 3]
      && (hasPressure ==> r[w - 4 - Flag(hasBattery)] == pressure)
      && (hasBattery ==> r[w - 4] == battery)
  {
  }

  /** The Influx field names after the splices: one per record slot, the
      GPS names last, and the names at the pressure and battery slots those
      of what the placement writes there. */
  function InfluxFields(m: Model, hasPressure: bool, hasBattery: bool): (fs: seq<string>)
    ensures var w := Width(m, hasPressure, hasBattery);
      && |fs| == w
      && fs[w - 3..] == ["latitude", "longitude", "altitude"]
      && (hasPressure ==> fs[PressureSlot(m, hasPressure, hasBattery)] == "pressure")
      && (hasBattery ==> fs[BatterySlot(m, hasPressure, hasBattery)] == "battery")
  {
    BaseArrays(m, Undefined);
    WithTailShape(FieldNames(m), hasPressure, hasBattery, "pressure", "battery");
    WithTail(FieldNames(m), hasPressure, hasBattery, "pressure", "battery")
  }

  /** The unit tags after the splices: one per record slot, with the
      temperature units in the temperature slot and the pressure and
      battery units in their slots. */
  function InfluxTags(m: Model, tempUnits: Value, hasPressure: bool, hasBattery: bool): (ts: seq<Value>)
    ensures && |ts| == Width(m, hasPressure, hasBattery)
      && ts[1] == tempUnits
      && (hasPressure ==> ts[PressureSlot(m, hasPressure, hasBattery)] == Lit("Pa"))
      && (hasBattery ==> ts[BatterySlot(m, hasPressure, hasBattery)] == Lit("V"))
  {
    BaseArrays(m, tempUnits);
    assert UnitTags(m, tempUnits)[1] == ([Lit(""), tempUnits] + OtherTags(m))[1] == tempUnits;
    TagsShape(UnitTags(m, tempUnits), tempUnits, BaseWidth(m), hasPressure, hasBattery);
    WithTail(UnitTags(m, tempUnits), hasPressure, hasBattery, Lit("Pa"), Lit("V"))
  }

  lemma TagsShape(xs: seq<Value>, tempUnits: Value, n: nat, hasPressure: bool, hasBattery: bool)
    requires |xs| == n >= 6 && xs[1] == tempUnits
    ensures var ts := WithTail(xs, hasPressure, hasBattery, Lit("Pa"), Lit("V"));
      var w := n + Flag(hasPressure) + Flag(hasBattery);
      && |ts| == w
      && ts[1] == tempUnits
      && (hasPressure ==> ts[w - 4 - Flag(hasBattery)] == Lit("Pa"))
      && (hasBattery ==> ts[w - 4] == Lit("V"))
  {
    WithTailShape(xs, hasPressure, hasBattery, Lit("Pa"), Lit("V"));
    var ts := WithTail(xs, hasPressure, hasBattery, Lit("Pa"), Lit("V"));
    assert ts[1] == ts[..|xs| - 3][1] == xs[..|xs| - 3][1] == xs[1];
  }
}

=== FILE: messages.dfy ===
/** Telemetry messages and the topic vocabulary of the stitching engine
    (stitchjob.js). A message is a JSON object; here its `topic`,
    `serial-number`, `timestamp` and `__location` members are lifted out
    and every other member is looked up by name. */
module Messages {

  import opened Options
  import opened Values
  import opened Text

  /** A message timestamp as `moment` reads it: an instant in milliseconds,
      or a value `moment` cannot parse. */
  datatype Stamp = At(ms: int) | Unparseable

  datatype Message = Message(
    topic: string,
    /** `message['serial-number']` as text (an absent member reads as the
        text "undefined" when interpolated into the topic pattern) */
    serial: string,
    timestamp: Stamp,
    /** every other member of the message */
    fields: map<string, Value>,
    /** the `__location` object, when present */
    location: Option<map<string, Value>>)

  /** `message[name]` */
  function Field(m: Message, name: string): Value {
    if name in m.fields then m.fields[name] else Undefined
  }

  /** `message.__location[name]`, `undefined` when there is no location. */
  function LocationField(m: Message, name: string): Value {
    match m.location
    case None => Undefined
    case Some(loc) => if name in loc then loc[name] else Undefined
  }

  const Root: string := "/orgs/wd/aqe/"

  function TopicOf(name: string): string {
    Root + name
  }

  const TemperatureTopic: string := TopicOf("temperature")
  const HumidityTopic: string := TopicOf("humidity")
  const No2Topic: string := TopicOf("no2")
  const CoTopic: string := TopicOf("co")
  const So2Topic: string := TopicOf("so2")
  const O3Topic: string := TopicOf("o3")
  const ParticulateTopic: string := TopicOf("particulate")
  const Co2Topic: string := TopicOf("co2")
  const VocTopic: string := TopicOf("voc")
  const PressureTopic: string := TopicOf("pressure")
  const BatteryTopic: string := TopicOf("battery")
  const WaterTemperatureTopic: string := TopicOf("water/temperature")
  const ConductivityTopic: string := TopicOf("water/conductivity")
  const TurbidityTopic: string := TopicOf("water/turbidity")
  const PhTopic: string := TopicOf("water/ph")

  /** `known_topic_prefixes` */
  const KnownTopics: seq<string> := [
    TemperatureTopic, HumidityTopic, No2Topic, CoTopic, So2Topic, O3Topic,
    ParticulateTopic, Co2Topic, VocTopic, PressureTopic, BatteryTopic,
    WaterTemperatureTopic, ConductivityTopic, TurbidityTopic, PhTopic
  ]

  /** The topic with the first `/<serial-number>` removed. */
  function NaturalTopic(m: Message): string {
    RemoveFirst(m.topic, "/" + m.serial)
  }

  /** The message is on one of the known topics once its serial suffix is
      removed. */
  predicate IsKnown(m: Message) {
    NaturalTopic(m) in KnownTopics
  }
}

=== FILE: models.dfy ===
/** The model classifier (`getEggModelType`) and the content-based
    refinement of colliding codes (`refineModelType`), stitchjob.js. */
module Models {

  import opened Options
  import opened Values
  import opened Text
  import opened Messages

  /** The model codes 'model A' ... 'model Y' the classifier and the
      refiner can return. */
  datatype Model = A | B | C | D | E | G | H | J | K | L | M | N | P | Q | R | S | T | U | V | W | Y

  /** The sensor kinds that feed the capability code, in bit order. */
  datatype Kind = NO2 | CO | SO2 | O3 | PM | CO2 | VOC | Conductivity | PH | Turbidity

  const BitOrder: seq<Kind> := [NO2, CO, SO2, O3, PM, CO2, VOC, Conductivity, PH, Turbidity]

  function KindTopic(k: Kind): string {
    match k
    case NO2 => No2Topic
    case CO => CoTopic
    case SO2 => So2Topic
    case O3 => O3Topic
    case PM => ParticulateTopic
    case CO2 => Co2Topic
    case VOC => VocTopic
    case Conductivity => ConductivityTopic
    case PH => PhTopic
    case Turbidity => TurbidityTopic
  }

  /** The kind was seen: its bare topic or the topic suffixed with the
      device serial is one of the observed topics (exact match). */
  predicate Present(k: Kind, topics: seq<string>, serial: string) {
    KindTopic(k) in topics || KindTopic(k) + "/" + serial in topics
  }

  /** The serial number is the last `_`-separated part of the directory
      name. */
  function SerialOf(dirname: string): string {
    LastSegment(dirname, '_')
  }

  /** `[hasNO2, hasCO, ..., hasTurbidity]` */
  function Presence(topics: seq<string>, serial: string): (r: seq<bool>)
    ensures |r| == |BitOrder|
    ensures forall i :: 0 <= i < |r| ==> (r[i] <==> Present(BitOrder[i], topics, serial))
  {
    seq(|BitOrder|, i requires 0 <= i < |BitOrder| => Present(BitOrder[i], topics, serial))
  }

  function Reverse<X>(xs: seq<X>): (r: seq<X>)
    ensures |r| == |xs|
  {
    if |xs| == 0 then [] else Reverse(xs[1..]) + [xs[0]]
  }

  function BitValue(b: bool): nat {
    if b then 1 else 0
  }

  /** `bits.reduce((t, v) => t * 2 + (v ? 1 : 0), 0)` */
  function Fold(bits: seq<bool>): nat {
    if |bits| == 0 then 0 else Fold(bits[..|bits| - 1]) * 2 + BitValue(bits[|bits| - 1])
  }

  /** Bit `i` of `n`. */
  function Bit(n: nat, i: nat): nat {
    if i == 0 then n % 2 else Bit(n / 2, i - 1)
  }

  function Pow2(i: nat): nat {
    if i == 0 then 1 else 2 * Pow2(i - 1)
  }

  /** The capability code: the presence list reversed and read as a binary
      number, so that NO2 is bit 0. */
  function ModelCode(topics: seq<string>, serial: string): nat {
    Fold(Reverse(Presence(topics, serial)))
  }

  /** The `switch (modelCode)` table. */
  function ModelOfCode(code: nat): (r: Model)
    ensures r != N && r != Y
  {
    match code
    case 0x003 => A    // no2 + co
    case 0x00C => B    // so2 + o3
    case 0x010 => C    // particulate (collides with N)
    case 0x020 => D    // co2
    case 0x040 => E    // voc
    case 0x030 => G    // co2 + particulate
    case 0x009 => J    // no2 + o3
    case 0x011 => K    // no2 + particulate
    case 0x012 => L    // co + particulate
    case 0x031 => M    // co2 + particulate + no2
    case 0x070 => P    // co2 + particulate + voc
    case 0x013 => Q    // particulate + co + no2
    case 0x019 => R    // particulate + o3 + no2
    case 0x015 => S    // particulate + so2 + no2
    case 0x01A => T    // particulate + co + o3
    case 0x014 => U    // particulate + so2 (collides with Y)
    case 0x060 => V    // co2 + voc
    case 0x380 => W    // conductivity + pH + turbidity
    case _ => H        // the base model
  }

  /** The code a model is listed under in the table, if any. */
  function CodeOf(m: Model): Option<nat> {
    match m
    case A => Some(0x003)
    case B => Some(0x00C)
    case C => Some(0x010)
    case D => Some(0x020)
    case E => Some(0x040)
    case G => Some(0x030)
    case J => Some(0x009)
    case K => Some(0x011)
    case L => Some(0x012)
    case M => Some(0x031)
    case P => Some(0x070)
    case Q => Some(0x013)
    case R => Some(0x019)
    case S => Some(0x015)
    case T => Some(0x01A)
    case U => Some(0x014)
    case V => Some(0x060)
    case W => Some(0x380)
    case _ => None
  }

  /** The table is one-to-one: a code maps to a listed model exactly when
      that model is listed under the code, and every code outside the
      table (0 included) gives the base model H. */
  lemma TableRoundTrip(code: nat, m: Model)
    ensures m != H ==> (ModelOfCode(code) == m <==> CodeOf(m) == Some(code))
    ensures ModelOfCode(code) == H <==> forall m' :: CodeOf(m') != Some(code)
    ensures ModelOfCode(0) == H
  {
    if ModelOfCode(code) != H {
      assert CodeOf(ModelOfCode(code)) == Some(code);
    }
  }

  /** `getEggModelType(dirname, extantTopics)`: never one of the models
      only refinement gives, and any model but the base one is the model
      listed under the capability code. */
  function Classify(dirname: string, topics: seq<string>): (m: Model)
    ensures m != N && m != Y
    ensures m != H ==> CodeOf(m) == Some(ModelCode(topics, SerialOf(dirname)))
  {
    var code := ModelCode(topics, SerialOf(dirname));
    TableRoundTrip(code, ModelOfCode(code));
    ModelOfCode(code)
  }

  /** The least-significant-first reading of a bit list. */
  function Weigh(bits: seq<bool>): nat {
    if |bits| == 0 then 0 else BitValue(bits[0]) + 2 * Weigh(bits[1..])
  }

  lemma {:induction false} FoldReverse(bits: seq<bool>)
    ensures Fold(Reverse(bits)) == Weigh(bits)
    decreases |bits|
  {
    if |bits| > 0 {
      var rest := Reverse(bits[1..]);
      var rv := rest + [bits[0]];
      assert Reverse(bits) == rv;
      assert rv[..|rv| - 1] == rest;
      FoldReverse(bits[1..]);
    }
  }

  lemma {:induction false} WeighBit(bits: seq<bool>, i: nat)
    requires i < |bits|
    ensures Bit(Weigh(bits), i) == BitValue(bits[i])
    decreases i
  {
    var w := Weigh(bits);
    assert w == BitValue(bits[0]) + 2 * Weigh(bits[1..]);
    if i > 0 {
      assert w / 2 == Weigh(bits[1..]);
      WeighBit(bits[1..], i - 1);
    }
  }

  lemma {:induction false} WeighBound(bits: seq<bool>)
    ensures Weigh(bits) < Pow2(|bits|)
    decreases |bits|
  {
    if |bits| > 0 {
      WeighBound(bits[1..]);
    }
  }

  /** Bit `i` of the capability code is set exactly when the i-th kind
      (NO2, CO, SO2, O3, PM, CO2, VOC, conductivity, pH, turbidity) was
      seen, and no other bit is set. */
  lemma CodeBits(topics: seq<string>, serial: string, i: nat)
    requires i < |BitOrder|
    ensures Bit(ModelCode(topics, serial), i) == 1 <==> Present(BitOrder[i], topics, serial)
    ensures ModelCode(topics, serial) < 1024
  {
    var bits := Presence(topics, serial);
    FoldReverse(bits);
    WeighBit(bits, i);
    WeighBound(bits);
    assert |bits| == 10;
    assert Pow2(10) == 1024;
  }

  /** The topics that feed no bit of the code. */
  datatype Neutral = NTemperature | NHumidity | NPressure | NBattery | NWaterTemperature

  function NeutralTopic(n: Neutral): string {
    match n
    case NTemperature => TemperatureTopic
    case NHumidity => HumidityTopic
    case NPressure => PressureTopic
    case NBattery => BatteryTopic
    case NWaterTemperature => WaterTemperatureTopic
  }

  /** The names under the topic root. */
  function NeutralName(n: Neutral): string {
    match n
    case NTemperature => "temperature"
    case NHumidity => "humidity"
    case NPressure => "pressure"
    case NBattery => "battery"
    case NWaterTemperature => "water/temperature"
  }

  function KindName(k: Kind): string {
    match k
    case NO2 => "no2"
    case CO => "co"
    case SO2 => "so2"
    case O3 => "o3"
    case PM => "particulate"
    case CO2 => "co2"
    case VOC => "voc"
    case Conductivity => "water/conductivity"
    case PH => "water/ph"
    case Turbidity => "water/turbidity"
  }

  lemma NamedTopics(n: Neutral, k: Kind)
    ensures NeutralTopic(n) == TopicOf(NeutralName(n)) && KindTopic(k) == TopicOf(KindName(k))
  {
  }

  /** A position at which the neutral name and the kind name differ. */
  function Divergence(n: Neutral, k: Kind): (j: nat)
    ensures j < |NeutralName(n)| && j < |KindName(k)|
    ensures NeutralName(n)[j] != KindName(k)[j]
  {
    if n == NPressure && k == PM then 1
    else if n == NWaterTemperature && k == Turbidity then 7
    else if n == NWaterTemperature && k in {Conductivity, PH} then 6
    else 0
  }

  lemma NeutralDiffers(n: Neutral, k: Kind, serial: string)
    ensures NeutralTopic(n) != KindTopic(k)
    ensures NeutralTopic(n) != KindTopic(k) + "/" + serial
    ensures NeutralTopic(n) + "/" + serial != KindTopic(k)
    ensures NeutralTopic(n) + "/" + serial != KindTopic(k) + "/" + serial
  {
    NamedTopics(n, k);
    var i := |Root| + Divergence(n, k);
    assert NeutralTopic(n)[i] == NeutralName(n)[i - |Root|];
    assert KindTopic(k)[i] == KindName(k)[i - |Root|];
    assert (NeutralTopic(n) + "/" + serial)[i] == NeutralTopic(n)[i];
    assert (KindTopic(k) + "/" + serial)[i] == KindTopic(k)[i];
  }

  lemma PresentIgnores(k: Kind, topics: seq<string>, t: string, serial: string)
    requires t != KindTopic(k) && t != KindTopic(k) + "/" + serial
    ensures Present(k, topics + [t], serial) == Present(k, topics, serial)
  {
  }

  /** Adding a topic that matches no kind's topic leaves the presence list
      unchanged. */
  lemma PresenceIgnores(topics: seq<string>, t: string, serial: string)
    requires forall k: Kind :: t != KindTopic(k) && t != KindTopic(k) + "/" + serial
    ensures Presence(topics + [t], serial) == Presence(topics, serial)
  {
    var before := Presence(topics, serial);
    var after := Presence(topics + [t], serial);
    forall i | 0 <= i < |BitOrder| ensures after[i] == before[i] {
      PresentIgnores(BitOrder[i], topics, t, serial);
    }
  }

  /** Temperature, humidity, pressure, battery and water-temperature topics
      (bare or suffixed with the serial) never change the classification. */
  lemma NeutralTopicsDoNotClassify(dirname: string, topics: seq<string>, n: Neutral, t: string)
    requires t == NeutralTopic(n) || t == NeutralTopic(n) + "/" + SerialOf(dirname)
    ensures Classify(dirname, topics + [t]) == Classify(dirname, topics)
  {
    var serial := SerialOf(dirname);
    forall k: Kind ensures t != KindTopic(k) && t != KindTopic(k) + "/" + serial {
      NeutralDiffers(n, k, serial);
    }
    PresenceIgnores(topics, t, serial);
  }

  /** `data.find(v => v.topic.indexOf(needle) >= 0)`, as an index. */
  function FindTopic(data: seq<Message>, needle: string): (r: Option<nat>)
    ensures r.Some? ==> r.value < |data| && Contains(data[r.value].topic, needle)
    ensures r.Some? ==> forall j :: 0 <= j < r.value ==> !Contains(data[j].topic, needle)
    ensures r.None? ==> forall j :: 0 <= j < |data| ==> !Contains(data[j].topic, needle)
  {
    if |data| == 0 then None
    else if Contains(data[0].topic, needle) then Some(0)
    else match FindTopic(data[1..], needle)
      case None => None
      case Some(j) => Some(j + 1)
  }

  /** `refineModelType(modelType, data)`: it can only turn C into N and U
      into Y. */
  function Refine(m: Model, data: seq<Message>): (r: Model)
    ensures r == m || (m == C && r == N) || (m == U && r == Y)
  {
    match m
    case C =>
      (match FindTopic(data, "particulate")
       case Some(i) => if Truthy(Field(data[i], "pm1p0")) then N else C
       case None => C)
    case U =>
      (match FindTopic(data, "so2")
       case Some(i) => if Truthy(Field(data[i], "raw-value2")) then Y else U
       case None => U)
    case _ => m
  }

  /** The first message whose topic contains `needle` has a truthy
      `field`. */
  predicate FirstHas(data: seq<Message>, needle: string, field: string) {
    exists i :: 0 <= i < |data| && Contains(data[i].topic, needle) && Truthy(Field(data[i], field)) &&
      forall j :: 0 <= j < i ==> !Contains(data[j].topic, needle)
  }

  lemma FindTopicFirst(data: seq<Message>, needle: string, field: string)
    ensures FirstHas(data, needle, field) <==>
      (FindTopic(data, needle).Some? && Truthy(Field(data[FindTopic(data, needle).value], field)))
  {
    var f := FindTopic(data, needle);
    if FirstHas(data, needle, field) {
      var i :| 0 <= i < |data| && Contains(data[i].topic, needle) && Truthy(Field(data[i], field)) &&
        forall j :: 0 <= j < i ==> !Contains(data[j].topic, needle);
      assert f.Some?;
      assert !(f.value < i) && !(i < f.value);
    }
  }

  /** Refinement changes only C (to N, when the first particulate message
      has a truthy `pm1p0`) and U (to Y, when the first so2 message has a
      truthy `raw-value2`). */
  lemma RefineSplitsCollisions(m: Model, data: seq<Message>)
    ensures m !in {C, U} ==> Refine(m, data) == m
    ensures m == C ==> (Refine(m, data) == N <==> FirstHas(data, "particulate", "pm1p0"))
    ensures m == U ==> (Refine(m, data) == Y <==> FirstHas(data, "so2", "raw-value2"))
    ensures Refine(m, data) in {m, N, Y}
  {
    if m == C {
      FindTopicFirst(data, "particulate", "pm1p0");
    } else if m == U {
      FindTopicFirst(data, "so2", "raw-value2");
    }
  }

  /** A refined model is final: refining it again, against any data, leaves
      it unchanged. So refinement is idempotent. */
  lemma RefineIdempotent(m: Model, data: seq<Message>, more: seq<Message>)
    ensures Refine(Refine(m, data), data) == Refine(m, data)
    ensures Refine(m, data) != m ==> Refine(Refine(m, data), more) == Refine(m, data)
  {
  }
}

=== FILE: options.dfy ===
/** The optional value used wherever the source has `undefined` or `null`
    for "nothing there". */
module Options {

  datatype Option<+T> = None | Some(value: T) {

    function GetOr(default: T): T {
      match this
      case Some(v) => v
      case None => default
    }
  }
}

=== FILE: placement.dfy ===
/** `addMessageToRecord` (stitchjob.js): where one telemetry message lands
    in the record being assembled. A record is a sparse array of cells; the
    message patches the GPS triple, then the columns its topic and the
    device model call for, each through the `valueOrInvalid` filter. */
module Placement {

  import opened Options
  import opened Values
  import opened Text
  import opened Messages
  import opened Models
  import opened Layout

  /** A record cell: the timestamp (slot 0) or a filtered value. */
  datatype Cell = Time(stamp: Stamp) | Val(v: Value)

  /** A sparse record: slots never written are absent. */
  type Record = map<nat, Cell>

  /** `record[k]`, with `None` for `undefined`. */
  function Lookup(record: Record, k: int): (c: Option<Cell>)
    ensures c.Some? <==> k >= 0 && k in record
  {
    if k >= 0 && k in record then Some(record[k]) else None
  }

  /** The branch of the topic dispatch a message takes. */
  datatype Branch =
    | TemperatureBranch | HumidityBranch | No2Branch | So2Branch | O3Branch
    | ParticulateBranch | PressureBranch | BatteryBranch | Co2Branch | CoBranch
    | VocBranch | WaterTemperatureBranch | ConductivityBranch | TurbidityBranch
    | PhBranch | NoBranch

  /** The dispatch tests, in the order the code makes them: each is a
      substring test on the full topic, so `co2` must come before `co`. */
  const DispatchOrder: seq<(string, Branch)> := [
    (TemperatureTopic, TemperatureBranch), (HumidityTopic, HumidityBranch),
    (No2Topic, No2Branch), (So2Topic, So2Branch), (O3Topic, O3Branch),
    (ParticulateTopic, ParticulateBranch), (PressureTopic, PressureBranch),
    (BatteryTopic, BatteryBranch), (Co2Topic, Co2Branch), (CoTopic, CoBranch),
    (VocTopic, VocBranch), (WaterTemperatureTopic, WaterTemperatureBranch),
    (ConductivityTopic, ConductivityBranch), (TurbidityTopic, TurbidityBranch),
    (PhTopic, PhBranch)
  ]

  /** The index of the first of `tests` at or after `from` whose topic
      occurs in `topic`. */
  function FirstMatch(topic: string, tests: seq<(string, Branch)>, from: nat): (r: Option<nat>)
    requires from <= |tests|
    ensures r.Some? ==> from <= r.value < |tests|
    decreases |tests| - from
  {
    if from == |tests| then None
    else if Contains(topic, tests[from].0) then Some(from)
    else FirstMatch(topic, tests, from + 1)
  }

  /** `FirstMatch` finds the first matching test. */
  lemma {:induction false} FirstMatchIsFirst(topic: string, tests: seq<(string, Branch)>, from: nat)
    requires from <= |tests|
    ensures var r := FirstMatch(topic, tests, from);
      && (r.Some? ==> Contains(topic, tests[r.value].0))
      && (r.Some? ==> forall k :: from <= k < r.value ==> !Contains(topic, tests[k].0))
      && (r.None? ==> forall k :: from <= k < |tests| ==> !Contains(topic, tests[k].0))
    decreases |tests| - from
  {
    if from < |tests| && !Contains(topic, tests[from].0) {
      var r := FirstMatch(topic, tests, from + 1);
      assert FirstMatch(topic, tests, from) == r;
      FirstMatchIsFirst(topic, tests, from + 1);
      forall k | from <= k < (if r.Some? then r.value else |tests|)
        ensures !Contains(topic, tests[k].0)
      {
        if k > from {
          assert from + 1 <= k;
        }
      }
    }
  }

  /** The first test of the dispatch chain that matches. */
  function DispatchIndex(topic: string): Option<nat> {
    FirstMatch(topic, DispatchOrder, 0)
  }

  /** `DispatchIndex` finds the first matching test of the chain. */
  lemma DispatchIndexFirst(topic: string)
    ensures var r := DispatchIndex(topic);
      && (r.Some? ==> r.value < |DispatchOrder| && Contains(topic, DispatchOrder[r.value].0))
      && (r.Some? ==> forall k :: 0 <= k < r.value ==> !Contains(topic, DispatchOrder[k].0))
      && (r.None? ==> forall k :: 0 <= k < |DispatchOrder| ==> !Contains(topic, DispatchOrder[k].0))
  {
    FirstMatchIsFirst(topic, DispatchOrder, 0);
  }

  /** The `if … else if` chain of `addMessageToRecord`: the branch of the
      first test that matches. */
  function Dispatch(topic: string): Branch {
    match DispatchIndex(topic)
    case None => NoBranch
    case Some(j) => DispatchOrder[j].1
  }

  /** A message takes no branch exactly when its topic holds none of the
      known topics. */
  lemma NoBranchIff(topic: string)
    ensures Dispatch(topic) == NoBranch <==> forall k :: 0 <= k < |DispatchOrder| ==> !Contains(topic, DispatchOrder[k].0)
  {
    DispatchIndexFirst(topic);
    if DispatchIndex(topic).Some? {
      DistinctBranches(DispatchIndex(topic).value, DispatchIndex(topic).value);
    }
  }

  /** The topic of the branch taken occurs in the message's topic, and no
      earlier test's topic does. */
  lemma DispatchedTopicOccurs(topic: string, j: nat)
    requires j < |DispatchOrder| && DispatchOrder[j].1 == Dispatch(topic)
    ensures Contains(topic, DispatchOrder[j].0)
    ensures forall k :: 0 <= k < j ==> !Contains(topic, DispatchOrder[k].0)
  {
    DispatchIndexFirst(topic);
    match DispatchIndex(topic)
    case None =>
      DistinctBranches(j, j);
    case Some(i) =>
      DistinctBranches(i, j);
  }

  /** Each test leads to its own branch. */
  lemma DistinctBranches(j: nat, k: nat)
    requires j < |DispatchOrder| && k < |DispatchOrder|
    requires DispatchOrder[j].1 == DispatchOrder[k].1
    ensures j == k
    ensures DispatchOrder[j].1 != NoBranch
  {
  }

  /** A topic holding the `co2` topic never takes the `co` branch, although
      it also holds the `co` topic: the order of the tests matters. */
  lemma {:induction false} Co2IsNotCo(topic: string)
    requires Contains(topic, Co2Topic)
    ensures Contains(topic, CoTopic)
    ensures Dispatch(topic) != CoBranch
  {
    assert OccursAt(Co2Topic, CoTopic, 0);
    ContainsPiece(topic, Co2Topic, CoTopic, 0);
    assert DispatchOrder[8].0 == Co2Topic;
    DispatchIndexFirst(topic);
    var j := DispatchIndex(topic).value;
    assert j <= 8;
  }

  // ---------------------------------------------------------------- sources

  /** What a record slot is read from: a message member, or `a || b`. */
  datatype Source = Named(name: string) | Fallback(first: string, second: string)

  function Read(msg: Message, src: Source): Value {
    match src
    case Named(n) => Field(msg, n)
    case Fallback(a, b) => Or(Field(msg, a), Field(msg, b))
  }

  /** The raw column: the instantaneous raw value when asked for and truthy,
      else the averaged raw value. */
  function RawSource(instantaneous: bool): Source {
    if instantaneous then Fallback("raw-instant-value", "raw-value") else Named("raw-value")
  }

  /** The second raw channel of the two-electrode sensors. */
  function Raw2Source(instantaneous: bool): Source {
    if instantaneous then Fallback("raw-instant-value2", "raw-value2") else Named("raw-value2")
  }

  /** Temperature and humidity: the converted value when compensated, else
      the raw column. */
  function EnvSource(compensated: bool, instantaneous: bool): Source {
    if compensated then Named("converted-value") else RawSource(instantaneous)
  }

  const Compensated: Source := Named("compensated-value")

  /** Models J and Y report the converted value when not compensated. */
  function CompensatedOrConverted(compensated: bool): Source {
    if compensated then Compensated else Named("converted-value")
  }

  function Co2Source(compensated: bool): Source {
    if compensated then Compensated else Named("raw-instant-value")
  }

  /** The VOC members are named by a prefix chosen by the two flags. */
  function VocSource(compensated: bool, instantaneous: bool, what: string): Source {
    var prefix :=
      if !compensated && !instantaneous then "converted-"
      else if compensated && !instantaneous then "compensated-"
      else if !compensated then "raw-instant-"
      else "compensated-instant-";
    Named(prefix + what)
  }

  /** A gas sensor pair: compensated value, then the raw column. */
  function Pair(first: nat, second: nat, instantaneous: bool): seq<(nat, Source)> {
    [(first, Compensated), (second, RawSource(instantaneous))]
  }

  /** The three particulate sizes from `first` on. */
  function Pm(first: nat): seq<(nat, Source)> {
    [(first, Named("pm1p0")), (first + 1, Named("pm2p5")), (first + 2, Named("pm10p0"))]
  }

  function Voc(first: nat, compensated: bool, instantaneous: bool): seq<(nat, Source)> {
    [(first, VocSource(compensated, instantaneous, "co2")),
     (first + 1, VocSource(compensated, instantaneous, "tvoc")),
     (first + 2, VocSource(compensated, instantaneous, "resistance"))]
  }

  function No2Targets(m: Model, compensated: bool, i: bool): seq<(nat, Source)> {
    if m == A then Pair(3, 5, i)
    else if m == J then [(3, CompensatedOrConverted(compensated)), (5, RawSource(i)), (6, Raw2Source(i))]
    else if m == K then Pair(3, 4, i)
    else if m == Q || m == R || m == S then Pair(8, 9, i)
    else []
  }

  function So2Targets(m: Model, compensated: bool, i: bool): seq<(nat, Source)> {
    if m == B then Pair(3, 5, i)
    else if m == S then Pair(6, 7, i)
    else if m == U then Pair(3, 4, i)
    else if m == Y then [(3, CompensatedOrConverted(compensated)), (4, RawSource(i)), (5, Raw2Source(i))]
    else []
  }

  function O3Targets(m: Model, compensated: bool, i: bool): seq<(nat, Source)> {
    if m == B then Pair(4, 6, i)
    else if m == J then [(4, CompensatedOrConverted(compensated)), (7, RawSource(i))]
    else if m == R || m == T then Pair(6, 7, i)
    else []
  }

  function ParticulateTargets(m: Model, i: bool): seq<(nat, Source)> {
    if m == C then Pair(3, 4, i)
    else if m == G || m == P then Pm(4)
    else if m == K || m == L || m == U then Pm(5)
    else if m == N || m == Q || m == R || m == S || m == T then Pm(3)
    else if m == Y then Pm(6)
    else []
  }

  function Co2Targets(m: Model, compensated: bool): seq<(nat, Source)> {
    if m == D || m == G || m == M || m == P || m == V then [(3, Co2Source(compensated))] else []
  }

  function CoTargets(m: Model, i: bool): seq<(nat, Source)> {
    if m == A then Pair(4, 6, i)
    else if m == L then Pair(3, 4, i)
    else if m == Q then Pair(6, 7, i)
    else if m == T then Pair(8, 9, i)
    else []
  }

  function VocTargets(m: Model, compensated: bool, i: bool): seq<(nat, Source)> {
    if m == E then Voc(3, compensated, i)
    else if m == P then Voc(7, compensated, i)
    else if m == V then Voc(4, compensated, i)
    else []
  }

  /** The writes a branch makes for a model, in order (slot 0 of the
      temperature branch aside). A model a branch does not know gets none. */
  function Targets(b: Branch, m: Model, compensated: bool, instantaneous: bool, hasPressure: bool, hasBattery: bool): seq<(nat, Source)> {
    var i := instantaneous;
    match b
    case TemperatureBranch => [(1, EnvSource(compensated, i))]
    case HumidityBranch => [(2, EnvSource(compensated, i))]
    case No2Branch => No2Targets(m, compensated, i)
    case So2Branch => So2Targets(m, compensated, i)
    case O3Branch => O3Targets(m, compensated, i)
    case ParticulateBranch => ParticulateTargets(m, i)
    case PressureBranch => [(Width(m, hasPressure, hasBattery) - 4 - Flag(hasBattery), Named("pressure"))]
    case BatteryBranch => [(Width(m, hasPressure, hasBattery) - 4, Named("converted-value"))]
    case Co2Branch => Co2Targets(m, compensated)
    case CoBranch => CoTargets(m, i)
    case VocBranch => VocTargets(m, compensated, i)
    case WaterTemperatureBranch => [(1, Named("value"))]
    case ConductivityBranch => [(2, Named("value")), (3, Named("raw-value"))]
    case TurbidityBranch => [(4, Named("value")), (5, Named("raw-value"))]
    case PhBranch => [(6, Named("value")), (7, Named("raw-value"))]
    case NoBranch => []
  }

  /** Every write lands in the sensor columns `lo..hi`. */
  predicate Within(ts: seq<(nat, Source)>, lo: nat, hi: int) {
    forall j :: 0 <= j < |ts| ==> lo <= ts[j].0 <= hi
  }

  lemma No2Fits(m: Model, compensated: bool, i: bool)
    ensures Within(No2Targets(m, compensated, i), 3, LastSensorSlot(m))
  {
  }

  lemma So2Fits(m: Model, compensated: bool, i: bool)
    ensures Within(So2Targets(m, compensated, i), 3, LastSensorSlot(m))
  {
  }

  lemma O3Fits(m: Model, compensated: bool, i: bool)
    ensures Within(O3Targets(m, compensated, i), 3, LastSensorSlot(m))
  {
  }

  lemma PairWithin(first: nat, second: nat, i: bool, lo: nat, hi: int)
    requires lo <= first <= hi && lo <= second <= hi
    ensures Within(Pair(first, second, i), lo, hi)
  {
  }

  lemma PmWithin(first: nat, lo: nat, hi: int)
    requires lo <= first && first + 2 <= hi
    ensures Within(Pm(first), lo, hi)
  {
  }

  lemma ParticulateFits(m: Model, i: bool)
    ensures Within(ParticulateTargets(m, i), 3, LastSensorSlot(m))
  {
    if m == C {
      PairWithin(3, 4, i, 3, LastSensorSlot(m));
    } else if m == G || m == P {
      PmWithin(4, 3, LastSensorSlot(m));
    } else if m == K || m == L || m == U {
      PmWithin(5, 3, LastSensorSlot(m));
    } else if m == N || m == Q || m == R || m == S || m == T {
      PmWithin(3, 3, LastSensorSlot(m));
    } else if m == Y {
      PmWithin(6, 3, LastSensorSlot(m));
    }
  }

  lemma Co2Fits(m: Model, compensated: bool)
    ensures Within(Co2Targets(m, compensated), 3, LastSensorSlot(m))
  {
  }

  lemma CoFits(m: Model, i: bool)
    ensures Within(CoTargets(m, i), 3, LastSensorSlot(m))
  {
  }

  lemma VocFits(m: Model, compensated: bool, i: bool)
    ensures Within(VocTargets(m, compensated, i), 3, LastSensorSlot(m))
  {
  }

  /** The slots a list of writes touches. */
  function Slots(writes: seq<(nat, Source)>): set<nat> {
    set j | 0 <= j < |writes| :: writes[j].0
  }

  /** Perform the writes in order, each through `valueOrInvalid`. */
  function Apply(record: Record, msg: Message, writes: seq<(nat, Source)>): (r: Record)
    decreases |writes|
  {
    if |writes| == 0 then record
    else Apply(record[writes[0].0 := Val(ValueOrInvalid(Read(msg, writes[0].1)))], msg, writes[1..])
  }

  /** A value `valueOrInvalid` can produce. */
  predicate Filtered(c: Cell) {
    c.Val? && (IsNumeric(c.v) || c.v == Invalid)
  }

  /** Writing touches exactly the listed slots, leaves every other slot as
      it was, and fills each listed slot with a filtered value. */
  lemma {:induction false} ApplyEffect(record: Record, msg: Message, writes: seq<(nat, Source)>)
    ensures var r := Apply(record, msg, writes);
      && r.Keys == record.Keys + Slots(writes)
      && (forall k :: k in record && k !in Slots(writes) ==> r[k] == record[k])
      && (forall k :: k in Slots(writes) ==> Filtered(r[k]))
    decreases |writes|
  {
    if |writes| > 0 {
      var w := writes[0];
      var next := record[w.0 := Val(ValueOrInvalid(Read(msg, w.1)))];
      ApplyEffect(next, msg, writes[1..]);
      assert Slots(writes) == {w.0} + Slots(writes[1..]) by {
        forall k | k in Slots(writes) ensures k in {w.0} + Slots(writes[1..]) {
          var j :| 0 <= j < |writes| && writes[j].0 == k;
          if j > 0 {
            assert writes[1..][j - 1] == writes[j];
          }
        }
        forall k | k in Slots(writes[1..]) ensures k in Slots(writes) {
          var j :| 0 <= j < |writes[1..]| && writes[1..][j].0 == k;
          assert writes[j + 1].0 == k;
        }
      }
    } else {
      assert Slots(writes) == {};
    }
  }

  /** The last write to a slot decides its value. */
  lemma {:induction false} ApplyLast(record: Record, msg: Message, writes: seq<(nat, Source)>, j: nat)
    requires j < |writes|
    requires forall k :: j < k < |writes| ==> writes[k].0 != writes[j].0
    ensures var r := Apply(record, msg, writes);
      writes[j].0 in r && r[writes[j].0] == Val(ValueOrInvalid(Read(msg, writes[j].1)))
    decreases |writes|
  {
    var w := writes[0];
    var next := record[w.0 := Val(ValueOrInvalid(Read(msg, w.1)))];
    if j == 0 {
      ApplyEffect(next, msg, writes[1..]);
      forall k | 0 <= k < |writes[1..]| ensures writes[1..][k].0 != w.0 {
        assert writes[1..][k] == writes[k + 1];
      }
      assert w.0 !in Slots(writes[1..]);
    } else {
      forall k | j - 1 < k < |writes[1..]| ensures writes[1..][k].0 != writes[1..][j - 1].0 {
        assert writes[1..][k] == writes[k + 1];
      }
      ApplyLast(next, msg, writes[1..], j - 1);
    }
  }

  // ---------------------------------------------------------------- GPS

  /** The latitude the message reports: the old top-level members when both
      coordinates are truthy, else the `__location` object's, else none. */
  function Latitude(msg: Message): Value {
    if Truthy(Field(msg, "latitude")) && Truthy(Field(msg, "longitude")) then ToNumber(Field(msg, "latitude"))
    else if Truthy(LocationField(msg, "lat")) && Truthy(LocationField(msg, "lon")) then ToNumber(LocationField(msg, "lat"))
    else Null
  }

  function Longitude(msg: Message): Value {
    if Truthy(Field(msg, "latitude")) && Truthy(Field(msg, "longitude")) then ToNumber(Field(msg, "longitude"))
    else if Truthy(LocationField(msg, "lat")) && Truthy(LocationField(msg, "lon")) then ToNumber(LocationField(msg, "lon"))
    else Null
  }

  /** The altitude: the `__location` object's first, then the old member. */
  function Altitude(msg: Message): Value {
    if Truthy(LocationField(msg, "alt")) then ToNumber(LocationField(msg, "alt"))
    else if Truthy(Field(msg, "altitude")) then ToNumber(Field(msg, "altitude"))
    else Null
  }

  /** Latitude and longitude come from the same place: both are numbers or
      both are absent. */
  lemma CoordinatesTogether(msg: Message)
    ensures Latitude(msg).Null? <==> Longitude(msg).Null?
    ensures !Latitude(msg).Null? ==> Latitude(msg).Num? || Latitude(msg).NaN? || Latitude(msg).Infinity?
  {
  }

  // ---------------------------------------------------------------- the step

  /** The GPS patch: altitude, longitude, latitude into the last three
      slots of a record `w` wide. */
  function PatchGps(record: Record, msg: Message, w: nat): Record
    requires w >= 3
  {
    record[w - 1 := Val(ValueOrInvalid(Altitude(msg)))]
          [w - 2 := Val(ValueOrInvalid(Longitude(msg)))]
          [w - 3 := Val(ValueOrInvalid(Latitude(msg)))]
  }

  /** The record after the GPS patch and, for temperature messages, the
      timestamp. */
  function Stamped(record: Record, msg: Message, w: nat, b: Branch): Record
    requires w >= 3
  {
    var withGps := PatchGps(record, msg, w);
    if b == TemperatureBranch then withGps[0 := Time(msg.timestamp)] else withGps
  }

  /** The body of `addMessageToRecord` for a known message of branch `b`
      whose writes are `ts`, in a record `w` wide. */
  function Patch(record: Record, msg: Message, w: nat, b: Branch, ts: seq<(nat, Source)>): Record
    requires w >= 3
  {
    var written := Apply(Stamped(record, msg, w, b), msg, ts);
    // the altitude fallback of the pressure branch
    if b == PressureBranch && w - 1 !in written && Truthy(Field(msg, "altitude"))
    then written[w - 1 := Val(ValueOrInvalid(Field(msg, "altitude")))]
    else written
  }

  /** A message of branch `b` placed into a record of model `m`. */
  function Place(v: Variant, msg: Message, b: Branch, m: Model, compensated: bool, instantaneous: bool, record: Record, hasPressure: bool, hasBattery: bool): Record {
    Patch(record, msg, Width(m, hasPressure, hasBattery), b, Writes(v, b, m, compensated, instantaneous, hasPressure, hasBattery))
  }

  /** `addMessageToRecord`: messages on unknown topics leave the record
      alone; the others patch the GPS triple, then write their branch's
      columns. The anchor in slot 0 moves exactly for temperature messages,
      and a record inside its width stays inside it when corrected, or as
      written when water messages come only from the water model. */
  function AddMessage(v: Variant, msg: Message, m: Model, compensated: bool, instantaneous: bool, record: Record, hasPressure: bool, hasBattery: bool): (r: Record)
    ensures !IsKnown(msg) ==> r == record
    ensures Lookup(r, 0) == if IsKnown(msg) && Dispatch(msg.topic) == TemperatureBranch then Some(Time(msg.timestamp)) else Lookup(record, 0)
    ensures (v == Corrected || (IsWaterMessage(msg) ==> m == W)) && (forall k :: k in record ==> k < Width(m, hasPressure, hasBattery)) ==>
      forall k :: k in r ==> k < Width(m, hasPressure, hasBattery)
  {
    if !IsKnown(msg) then record
    else
      var b := Dispatch(msg.topic);
      PlaceAnchor(v, msg, b, m, compensated, instantaneous, record, hasPressure, hasBattery);
      PlaceBounds(v, msg, b, m, compensated, instantaneous, record, hasPressure, hasBattery);
      Place(v, msg, b, m, compensated, instantaneous, record, hasPressure, hasBattery)
  }

  /** The slots the GPS patch and the timestamp write. */
  function PrefixSlots(w: nat, b: Branch): set<nat>
    requires w >= 3
  {
    {w - 1, w - 2, w - 3} + (if b == TemperatureBranch then {0} else {})
  }

  /** The slots a message of branch `b` writes in a record of model `m`. */
  function PlaceSlots(v: Variant, b: Branch, m: Model, compensated: bool, instantaneous: bool, hasPressure: bool, hasBattery: bool): set<nat> {
    PrefixSlots(Width(m, hasPressure, hasBattery), b) + Slots(Writes(v, b, m, compensated, instantaneous, hasPressure, hasBattery))
  }

  lemma StampedEffect(record: Record, msg: Message, w: nat, b: Branch)
    requires w >= 3
    ensures var r := Stamped(record, msg, w, b);
      && r.Keys == record.Keys + PrefixSlots(w, b)
      && (forall k :: k in record && k !in PrefixSlots(w, b) ==> r[k] == record[k])
      && (forall k :: k in PrefixSlots(w, b) && (k != 0 || b != TemperatureBranch) ==> Filtered(r[k]))
      && (b == TemperatureBranch ==> r[0] == Time(msg.timestamp))
  {
  }

  /** The altitude fallback of the pressure branch never fires: the GPS
      patch has already defined the altitude slot, so `Patch` is the GPS
      patch, the timestamp, then the branch's writes. */
  lemma PressureFallbackUnreachable(record: Record, msg: Message, w: nat, b: Branch, ts: seq<(nat, Source)>)
    requires w >= 3
    ensures Patch(record, msg, w, b, ts) == Apply(Stamped(record, msg, w, b), msg, ts)
  {
    ApplyEffect(Stamped(record, msg, w, b), msg, ts);
  }

  /** `Patch` writes exactly the GPS, timestamp and listed slots and leaves
      every other slot as it was; every written slot but the timestamp
      holds a filtered value; the timestamp is written exactly by
      temperature messages. */
  lemma PatchEffect(record: Record, msg: Message, w: nat, b: Branch, ts: seq<(nat, Source)>)
    requires w >= 3
    requires b == TemperatureBranch ==> 0 !in Slots(ts)
    ensures var r := Patch(record, msg, w, b, ts);
      var ws := PrefixSlots(w, b) + Slots(ts);
      && r.Keys == record.Keys + ws
      && (forall k :: k in record && k !in ws ==> r[k] == record[k])
      && (forall k :: k in ws && (k != 0 || b != TemperatureBranch) ==> Filtered(r[k]))
      && (b == TemperatureBranch ==> r[0] == Time(msg.timestamp))
  {
    var stamped := Stamped(record, msg, w, b);
    PressureFallbackUnreachable(record, msg, w, b, ts);
    StampedEffect(record, msg, w, b);
    ApplyEffect(stamped, msg, ts);
  }

  /** A slot set within bounds. */
  lemma SlotsWithin(ts: seq<(nat, Source)>, lo: nat, hi: int)
    requires Within(ts, lo, hi)
    ensures forall k :: k in Slots(ts) ==> lo <= k <= hi
  {
  }

  /** The water sensors' branches. */
  predicate IsWaterBranch(b: Branch) {
    b == WaterTemperatureBranch || b == ConductivityBranch || b == TurbidityBranch || b == PhBranch
  }

  /** The code as written, or with the defects recorded among the findings
      corrected. Here the corrected code writes a water sensor's columns
      only on the water model, as every other sensor branch writes only on
      the models that carry its sensor. */
  datatype Variant = AsWritten | Corrected

  /** The writes a message of branch `b` makes under variant `v`. */
  function Writes(v: Variant, b: Branch, m: Model, compensated: bool, instantaneous: bool, hasPressure: bool, hasBattery: bool): seq<(nat, Source)> {
    if v == Corrected && IsWaterBranch(b) && m != W then []
    else Targets(b, m, compensated, instantaneous, hasPressure, hasBattery)
  }

  /** Under `v`, a message of branch `b` writes water columns only on the
      water model: always so when corrected. */
  predicate WaterKept(v: Variant, b: Branch, m: Model) {
    v == Corrected || !IsWaterBranch(b) || m == W
  }

  /** Where a branch's writes land. No branch touches the timestamp slot
      through its writes, and none lands more than one slot past the end
      of the record (the water branches can, on models H and D). Provided
      the water branches are kept to the water model, every write lands
      ahead of the GPS triple, and the sensor branches stay within the
      sensor columns, ahead of pressure and battery. */
  lemma TargetsFit(b: Branch, m: Model, compensated: bool, instantaneous: bool, hasPressure: bool, hasBattery: bool)
    ensures var ts := Targets(b, m, compensated, instantaneous, hasPressure, hasBattery);
      Within(ts, 1, Width(m, hasPressure, hasBattery) + 1)
    ensures var ts := Targets(b, m, compensated, instantaneous, hasPressure, hasBattery);
      (IsWaterBranch(b) ==> m == W) ==> Within(ts, 1, Width(m, hasPressure, hasBattery) - 4)
    ensures var ts := Targets(b, m, compensated, instantaneous, hasPressure, hasBattery);
      b !in {TemperatureBranch, HumidityBranch, PressureBranch, BatteryBranch} && (IsWaterBranch(b) ==> m == W) ==>
        Within(ts, 1, LastSensorSlot(m))
  {
    var i := instantaneous;
    match b
    case No2Branch => No2Fits(m, compensated, i);
    case So2Branch => So2Fits(m, compensated, i);
    case O3Branch => O3Fits(m, compensated, i);
    case ParticulateBranch => ParticulateFits(m, i);
    case Co2Branch => Co2Fits(m, compensated);
    case CoBranch => CoFits(m, i);
    case VocBranch => VocFits(m, compensated, i);
    case _ =>
  }

  /** The writes of either variant land within the record plus one; when
      water writes are kept to the water model, which the corrected code
      always does, they land ahead of the GPS triple. */
  lemma WritesFit(v: Variant, b: Branch, m: Model, compensated: bool, instantaneous: bool, hasPressure: bool, hasBattery: bool)
    ensures var ts := Writes(v, b, m, compensated, instantaneous, hasPressure, hasBattery);
      Within(ts, 1, Width(m, hasPressure, hasBattery) + 1)
    ensures var ts := Writes(v, b, m, compensated, instantaneous, hasPressure, hasBattery);
      WaterKept(v, b, m) ==> Within(ts, 1, Width(m, hasPressure, hasBattery) - 4)
  {
    if !(v == Corrected && IsWaterBranch(b) && m != W) {
      TargetsFit(b, m, compensated, instantaneous, hasPressure, hasBattery);
    }
  }

  /** As written, the water branches are not limited to the water model:
      on the bare model H, a pH message writes past the end of the record. */
  lemma WaterBranchOverrunsModelH(compensated: bool, instantaneous: bool)
    ensures var ts := Writes(AsWritten, PhBranch, H, compensated, instantaneous, false, false);
      ts[1].0 == 7 && Width(H, false, false) == 6
  {
  }

  /** Placing a message writes exactly its slots and leaves every other
      slot as it was; every written slot but the timestamp holds a
      filtered value; the timestamp is written exactly by temperature
      messages. */
  lemma PlaceEffect(v: Variant, msg: Message, b: Branch, m: Model, compensated: bool, instantaneous: bool, record: Record, hasPressure: bool, hasBattery: bool)
    ensures var r := Place(v, msg, b, m, compensated, instantaneous, record, hasPressure, hasBattery);
      var ws := PlaceSlots(v, b, m, compensated, instantaneous, hasPressure, hasBattery);
      && r.Keys == record.Keys + ws
      && (forall k :: k in record && k !in ws ==> r[k] == record[k])
      && (forall k :: k in ws && k != 0 ==> Filtered(r[k]))
      && (b == TemperatureBranch <==> 0 in ws && r[0] == Time(msg.timestamp))
  {
    var w := Width(m, hasPressure, hasBattery);
    var ts := Writes(v, b, m, compensated, instantaneous, hasPressure, hasBattery);
    WritesFit(v, b, m, compensated, instantaneous, hasPressure, hasBattery);
    SlotsWithin(ts, 1, w + 1);
    PatchEffect(record, msg, w, b, ts);
  }

  /** Writes ahead of the GPS triple leave the GPS patch in place. */
  lemma PatchKeepsGps(record: Record, msg: Message, w: nat, b: Branch, ts: seq<(nat, Source)>)
    requires w >= 4
    requires Within(ts, 0, w - 4)
    ensures var r := Patch(record, msg, w, b, ts);
      && Lookup(r, w - 1) == Some(Val(ValueOrInvalid(Altitude(msg))))
      && Lookup(r, w - 2) == Some(Val(ValueOrInvalid(Longitude(msg))))
      && Lookup(r, w - 3) == Some(Val(ValueOrInvalid(Latitude(msg))))
  {
    PressureFallbackUnreachable(record, msg, w, b, ts);
    ApplyEffect(Stamped(record, msg, w, b), msg, ts);
    SlotsWithin(ts, 0, w - 4);
  }

  /** A placed message's record holds its own GPS reading in the last three
      slots, provided water writes are kept to the water model (always so
      when corrected). */
  lemma PlaceKeepsGps(v: Variant, msg: Message, b: Branch, m: Model, compensated: bool, instantaneous: bool, record: Record, hasPressure: bool, hasBattery: bool)
    requires WaterKept(v, b, m)
    ensures var r := Place(v, msg, b, m, compensated, instantaneous, record, hasPressure, hasBattery);
      var w := Width(m, hasPressure, hasBattery);
      && Lookup(r, w - 1) == Some(Val(ValueOrInvalid(Altitude(msg))))
      && Lookup(r, w - 2) == Some(Val(ValueOrInvalid(Longitude(msg))))
      && Lookup(r, w - 3) == Some(Val(ValueOrInvalid(Latitude(msg))))
  {
    WritesFit(v, b, m, compensated, instantaneous, hasPressure, hasBattery);
    PatchKeepsGps(record, msg, Width(m, hasPressure, hasBattery), b, Writes(v, b, m, compensated, instantaneous, hasPressure, hasBattery));
  }

  /** Slot 0 is written only by temperature messages: a placed message
      leaves the record's anchor alone unless it takes the temperature
      branch, which moves the anchor to its own timestamp. */
  lemma PlaceAnchor(v: Variant, msg: Message, b: Branch, m: Model, compensated: bool, instantaneous: bool, record: Record, hasPressure: bool, hasBattery: bool)
    ensures var r := Place(v, msg, b, m, compensated, instantaneous, record, hasPressure, hasBattery);
      Lookup(r, 0) == if b == TemperatureBranch then Some(Time(msg.timestamp)) else Lookup(record, 0)
  {
    PlaceSlotsAround(v, b, m, compensated, instantaneous, hasPressure, hasBattery);
    PlaceEffect(v, msg, b, m, compensated, instantaneous, record, hasPressure, hasBattery);
  }

  /** A message whose water writes are kept to the water model (always so
      when corrected) keeps every slot of a record inside the record width. */
  lemma PlaceWithin(v: Variant, msg: Message, b: Branch, m: Model, compensated: bool, instantaneous: bool, record: Record, hasPressure: bool, hasBattery: bool)
    requires WaterKept(v, b, m)
    requires forall k :: k in record ==> k < Width(m, hasPressure, hasBattery)
    ensures forall k :: k in Place(v, msg, b, m, compensated, instantaneous, record, hasPressure, hasBattery) ==> k < Width(m, hasPressure, hasBattery)
  {
    PlaceSlotsAround(v, b, m, compensated, instantaneous, hasPressure, hasBattery);
    PlaceEffect(v, msg, b, m, compensated, instantaneous, record, hasPressure, hasBattery);
  }

  /** Slot 0 is among a message's slots exactly for the temperature branch,
      and with water writes kept to the water model every slot lies inside
      the record. */
  lemma PlaceSlotsAround(v: Variant, b: Branch, m: Model, compensated: bool, instantaneous: bool, hasPressure: bool, hasBattery: bool)
    ensures 0 in PlaceSlots(v, b, m, compensated, instantaneous, hasPressure, hasBattery) <==> b == TemperatureBranch
    ensures WaterKept(v, b, m) ==>
      forall k :: k in PlaceSlots(v, b, m, compensated, instantaneous, hasPressure, hasBattery) ==> k < Width(m, hasPressure, hasBattery)
  {
    WritesFit(v, b, m, compensated, instantaneous, hasPressure, hasBattery);
    SlotsAround(Width(m, hasPressure, hasBattery), b, Writes(v, b, m, compensated, instantaneous, hasPressure, hasBattery));
  }

  lemma SlotsAround(w: nat, b: Branch, ts: seq<(nat, Source)>)
    requires w >= 4 && Within(ts, 1, w + 1)
    ensures 0 in PrefixSlots(w, b) + Slots(ts) <==> b == TemperatureBranch
    ensures Within(ts, 1, w - 4) ==> forall k :: k in PrefixSlots(w, b) + Slots(ts) ==> k < w
  {
    SlotsWithin(ts, 1, w + 1);
    if Within(ts, 1, w - 4) {
      SlotsWithin(ts, 1, w - 4);
    }
  }

  /** `PlaceWithin` as an implication. */
  lemma PlaceBounds(v: Variant, msg: Message, b: Branch, m: Model, compensated: bool, instantaneous: bool, record: Record, hasPressure: bool, hasBattery: bool)
    ensures WaterKept(v, b, m) && (forall k :: k in record ==> k < Width(m, hasPressure, hasBattery)) ==>
      forall k :: k in Place(v, msg, b, m, compensated, instantaneous, record, hasPressure, hasBattery) ==> k < Width(m, hasPressure, hasBattery)
  {
    if WaterKept(v, b, m) && (forall k :: k in record ==> k < Width(m, hasPressure, hasBattery)) {
      PlaceWithin(v, msg, b, m, compensated, instantaneous, record, hasPressure, hasBattery);
    }
  }

  /** A message on a known topic that takes a water branch. */
  predicate IsWaterMessage(msg: Message) {
    IsKnown(msg) && IsWaterBranch(Dispatch(msg.topic))
  }

  /** As written, the water branches overwrite the GPS patch: on the bare
      model H (a water device whose files lack the conductivity, turbidity
      or pH topic is classified so) a turbidity message writes its readings into slots 4
      and 5, where the GPS patch has just put the longitude and the
      altitude. A turbidity value with no longitude thus leaves a number
      where the longitude column should read `---`. */
  lemma WaterBranchOverwritesGps(msg: Message, compensated: bool, instantaneous: bool, record: Record)
    ensures var r := Place(AsWritten, msg, TurbidityBranch, H, compensated, instantaneous, record, false, false);
      && Width(H, false, false) == 6
      && Lookup(r, 4) == Some(Val(ValueOrInvalid(Field(msg, "value"))))
      && Lookup(r, 5) == Some(Val(ValueOrInvalid(Field(msg, "raw-value"))))
    ensures IsNumeric(Field(msg, "value")) && Longitude(msg).Null? ==>
      Lookup(Place(AsWritten, msg, TurbidityBranch, H, compensated, instantaneous, record, false, false), 4)
        != Some(Val(ValueOrInvalid(Longitude(msg))))
  {
    var ts := Writes(AsWritten, TurbidityBranch, H, compensated, instantaneous, false, false);
    var stamped := Stamped(record, msg, 6, TurbidityBranch);
    PressureFallbackUnreachable(record, msg, 6, TurbidityBranch, ts);
    ApplyLast(stamped, msg, ts, 0);
    ApplyLast(stamped, msg, ts, 1);
  }

  /** Corrected, placement keeps every message's GPS reading in the last
      three slots and a record within its width, on every model. */
  lemma CorrectedPlacementFits(msg: Message, b: Branch, m: Model, compensated: bool, instantaneous: bool, record: Record, hasPressure: bool, hasBattery: bool)
    ensures var r := Place(Corrected, msg, b, m, compensated, instantaneous, record, hasPressure, hasBattery);
      var w := Width(m, hasPressure, hasBattery);
      && Lookup(r, w - 1) == Some(Val(ValueOrInvalid(Altitude(msg))))
      && Lookup(r, w - 2) == Some(Val(ValueOrInvalid(Longitude(msg))))
      && Lookup(r, w - 3) == Some(Val(ValueOrInvalid(Latitude(msg))))
    ensures (forall k :: k in record ==> k < Width(m, hasPressure, hasBattery)) ==>
      forall k :: k in Place(Corrected, msg, b, m, compensated, instantaneous, record, hasPressure, hasBattery) ==> k < Width(m, hasPressure, hasBattery)
  {
    PlaceKeepsGps(Corrected, msg, b, m, compensated, instantaneous, record, hasPressure, hasBattery);
    if forall k :: k in record ==> k < Width(m, hasPressure, hasBattery) {
      PlaceWithin(Corrected, msg, b, m, compensated, instantaneous, record, hasPressure, hasBattery);
    }
  }
}

=== FILE: stitch.dfy ===
/** The stitching job of stitchjob.js for one device directory: a first
    pass over every message surveys the topics, the optional pressure and
    battery columns and the temperature units, classifies the model and
    estimates the timebase; the main pass then refines the model file by
    file, writes a header (CSV) or opens the array (Influx), and folds the
    messages into records, flushing a record whenever a message falls
    outside its window; the last record is flushed at the end.

    The files are given already loaded and ordered; the output is the
    sequence of chunks appended to the output file. */
module Stitch {

  import opened Options
  import opened Values
  import opened Text
  import opened Messages
  import opened Models
  import opened Layout
  import opened Placement
  import opened Timebase
  import opened Encoders

  datatype Format = Csv | Influx

  /** The job parameters the stitching reads: the directory name
      (`job.data.serials[0]`), the format, the two value-selection flags,
      and `now`, the clock reading `moment(undefined)` gives. */
  datatype Job = Job(dirname: string, format: Format, compensated: bool, instantaneous: bool, now: int)
  {
    /** The serial number the Influx points are tagged with: the same
        `job.data.serials[0]` that names the directory, so no tag when it
        is empty. */
    function Serial(): string {
      dirname
    }
  }

  /** What is appended to the output file, in order. */
  datatype Chunk =
    | HeaderRow(labels: seq<string>)
    | OpenArray
    | CloseArray
    | Row(fields: map<nat, CsvField>)
    | Entry(point: Point)

  /** All messages of all files, in order. */
  function Concat(files: seq<seq<Message>>): (r: seq<Message>)
    ensures |files| == 0 ==> r == []
  {
    if |files| == 0 then [] else Concat(files[..|files| - 1]) + files[|files| - 1]
  }

  // ---------------------------------------------------------------- first pass

  /** `getTemperatureUnits(items)`: the units of the first message on a
      topic containing "temperature", `undefined` when there is none. */
  function TemperatureUnits(items: seq<Message>): (r: Value)
    ensures r == Undefined <==> forall j :: 0 <= j < |items| ==> !Contains(items[j].topic, "temperature")
    ensures r != Undefined ==> Truthy(r)
  {
    if |items| == 0 then Undefined
    else if Contains(items[0].topic, "temperature") then
      Or(Or(Field(items[0], "converted-units"), Field(items[0], "units")), Lit("degC"))
    else TemperatureUnits(items[1..])
  }

  /** The units are those of the first message on a temperature topic:
      its `converted-units`, else its `units`, else `"degC"`. */
  lemma {:induction false} TemperatureUnitsFirst(items: seq<Message>, j: nat)
    requires j < |items| && Contains(items[j].topic, "temperature")
    requires forall i :: 0 <= i < j ==> !Contains(items[i].topic, "temperature")
    ensures TemperatureUnits(items) == Or(Or(Field(items[j], "converted-units"), Field(items[j], "units")), Lit("degC"))
    decreases j
  {
    if j > 0 {
      assert !Contains(items[0].topic, "temperature");
      assert forall i :: 0 <= i < j - 1 ==> items[1..][i] == items[i + 1];
      TemperatureUnitsFirst(items[1..], j - 1);
    }
  }

  /** What the first pass gathers. */
  datatype Survey = Survey(
    /** `Object.keys(uniqueTopics)`: the distinct topics in first-seen order */
    topics: seq<string>,
    /** the messages on a topic containing "temperature" */
    temperatureItems: seq<Message>,
    hasPressure: bool,
    hasBattery: bool,
    /** `temperatureUnits`, which starts as `null` */
    units: Value,
    total: nat)

  /** The first pass's work on one message. */
  function SurveyItem(s: Survey, item: Message): Survey {
    Survey(
      if item.topic in s.topics then s.topics else s.topics + [item.topic],
      s.temperatureItems + (if Contains(item.topic, "temperature") then [item] else []),
      s.hasPressure || Contains(item.topic, "pressure"),
      s.hasBattery || Contains(item.topic, "battery"),
      Or(s.units, TemperatureUnits([item])),
      s.total + 1)
  }

  /** The first pass over a list of messages. */
  function Surveyed(items: seq<Message>): Survey {
    if |items| == 0 then Survey([], [], false, false, Null, 0)
    else SurveyItem(Surveyed(items[..|items| - 1]), items[|items| - 1])
  }

  lemma {:induction false} TemperatureUnitsAppend(xs: seq<Message>, x: Message)
    ensures TemperatureUnits(xs + [x]) == if TemperatureUnits(xs) != Undefined then TemperatureUnits(xs) else TemperatureUnits([x])
  {
    if |xs| > 0 {
      assert (xs + [x])[1..] == xs[1..] + [x];
      TemperatureUnitsAppend(xs[1..], x);
    }
  }

  /** The first pass counts the messages and notes whether any topic
      mentions pressure or battery. */
  lemma {:induction false} SurveyFlags(items: seq<Message>)
    ensures var s := Surveyed(items);
      && s.total == |items|
      && (s.hasPressure <==> exists j :: 0 <= j < |items| && Contains(items[j].topic, "pressure"))
      && (s.hasBattery <==> exists j :: 0 <= j < |items| && Contains(items[j].topic, "battery"))
  {
    if |items| > 0 {
      var init, x := items[..|items| - 1], items[|items| - 1];
      assert items == init + [x];
      SurveyFlags(init);
      MentionsAppend(init, x, "pressure");
      MentionsAppend(init, x, "battery");
    }
  }

  /** A message on the end mentions `needle` or the earlier ones do. */
  lemma MentionsAppend(init: seq<Message>, x: Message, needle: string)
    ensures (exists j :: 0 <= j < |init + [x]| && Contains((init + [x])[j].topic, needle)) <==>
      (exists j :: 0 <= j < |init| && Contains(init[j].topic, needle)) || Contains(x.topic, needle)
  {
    var items := init + [x];
    if exists j :: 0 <= j < |items| && Contains(items[j].topic, needle) {
      var j :| 0 <= j < |items| && Contains(items[j].topic, needle);
      if j < |init| {
        assert init[j] == items[j];
      }
    }
    if exists j :: 0 <= j < |init| && Contains(init[j].topic, needle) {
      var j :| 0 <= j < |init| && Contains(init[j].topic, needle);
      assert items[j] == init[j];
    }
    assert items[|init|] == x;
  }

  /** The first pass records every topic seen, each once. */
  lemma {:induction false} SurveyTopics(items: seq<Message>)
    ensures var s := Surveyed(items);
      && (forall t :: t in s.topics <==> exists j :: 0 <= j < |items| && items[j].topic == t)
      && (forall a, b :: 0 <= a < b < |s.topics| ==> s.topics[a] != s.topics[b])
  {
    if |items| > 0 {
      var init := items[..|items| - 1];
      var x := items[|items| - 1];
      SurveyTopics(init);
      var before := Surveyed(init).topics;
      var after := Surveyed(items).topics;
      assert Surveyed(items) == SurveyItem(Surveyed(init), x);
      assert forall t :: t in before <==> exists j :: 0 <= j < |init| && init[j].topic == t;
      assert after == if x.topic in before then before else before + [x.topic];
      forall t ensures t in after <==> exists j :: 0 <= j < |items| && items[j].topic == t {
        if t != x.topic {
          if exists j :: 0 <= j < |items| && items[j].topic == t {
            var j :| 0 <= j < |items| && items[j].topic == t;
            assert init[j] == items[j];
          }
          if t in before {
            var j :| 0 <= j < |init| && init[j].topic == t;
            assert items[j] == init[j];
          }
        }
      }
    }
  }

  /** The first pass's per-message `||` fold of the units is
      `getTemperatureUnits` of the whole list (`null` when there are no
      messages). */
  lemma {:induction false} SurveyUnits(items: seq<Message>)
    ensures Surveyed(items).units == if |items| == 0 then Null else TemperatureUnits(items)
  {
    if |items| > 0 {
      var init := items[..|items| - 1];
      var x := items[|items| - 1];
      assert items == init + [x];
      SurveyUnits(init);
      TemperatureUnitsAppend(init, x);
      assert Surveyed(items).units == Or(Surveyed(init).units, TemperatureUnits([x]));
    }
  }

  lemma {:induction false} StampsOnAppend(xs: seq<Message>, ys: seq<Message>, topic: string)
    ensures StampsOn(xs + ys, topic) == StampsOn(xs, topic) + StampsOn(ys, topic)
  {
    if |xs| > 0 {
      assert (xs + ys)[0] == xs[0];
      assert (xs + ys)[1..] == xs[1..] + ys;
      StampsOnAppend(xs[1..], ys, topic);
    } else {
      assert xs + ys == ys;
    }
  }

  /** Keeping only the temperature messages, as the first pass does, does
      not change the timestamps on a topic that contains "temperature". */
  lemma {:induction false} TemperatureItemsKeepStamps(items: seq<Message>, topic: string)
    requires Contains(topic, "temperature")
    ensures StampsOn(Surveyed(items).temperatureItems, topic) == StampsOn(items, topic)
  {
    if |items| > 0 {
      var init := items[..|items| - 1];
      var x := items[|items| - 1];
      var kept := if Contains(x.topic, "temperature") then [x] else [];
      assert items == init + [x];
      assert Surveyed(items).temperatureItems == Surveyed(init).temperatureItems + kept;
      TemperatureItemsKeepStamps(init, topic);
      StampsOnAppend(init, [x], topic);
      StampsOnAppend(Surveyed(init).temperatureItems, kept, topic);
      assert StampsOn(kept, topic) == StampsOn([x], topic);
    }
  }

  lemma ContainsItself(s: string)
    ensures Contains(s, s)
  {
    assert OccursAt(s, s, 0);
    ContainsIff(s, s);
  }

  /** Both temperature topics the timebase may use contain "temperature". */
  lemma TemperatureTopicsContainTemperature(serial: string)
    ensures Contains(TemperatureTopic, "temperature")
    ensures Contains(TemperatureTopic + "/" + serial, "temperature")
  {
    assert OccursAt(TemperatureTopic, "temperature", 13);
    ContainsItself(TemperatureTopic);
    ContainsPiece(TemperatureTopic, TemperatureTopic, "temperature", 13);
    var t := TemperatureTopic + "/" + serial;
    assert OccursAt(t, TemperatureTopic, 0);
    ContainsIff(t, TemperatureTopic);
    ContainsPiece(t, TemperatureTopic, "temperature", 13);
  }

  /** The timebase estimated from the surveyed temperature messages is the
      one estimated from all messages. */
  lemma SurveyedTimebase(dirname: string, items: seq<Message>)
    ensures var s := Surveyed(items);
      DetermineTimebase(dirname, s.temperatureItems, s.topics) == DetermineTimebase(dirname, items, s.topics)
  {
    var s := Surveyed(items);
    match TemperatureTopicIn(dirname, s.topics)
    case None =>
    case Some(t) =>
      TemperatureTopicContainsTemperature(t, SerialOf(dirname));
      TemperatureItemsKeepStamps(items, t);
  }

  lemma TemperatureTopicContainsTemperature(t: string, serial: string)
    requires t == TemperatureTopic || t == TemperatureTopic + "/" + serial
    ensures Contains(t, "temperature")
  {
    TemperatureTopicsContainTemperature(serial);
  }

  // ---------------------------------------------------------------- main pass

  /** The timestamp test `timeToPreviousMessage < timeBase / 2`: a
      difference that is not a number (an unparseable timestamp on either
      side) and a timebase that is not a number fail it, and a `null`
      timebase divides to 0. */
  predicate Joins(stamp: Stamp, anchor: Stamp, timebase: Timebase) {
    match (stamp, anchor)
    case (At(t), At(a)) =>
      (match timebase
       case NoTemperatureTopic => t - a < 0
       case NotANumber => false
       case Period(p) => ((t - a) as real) < p / 2.0)
    case _ => false
  }

  /** What the main pass reads from the job and the first pass. */
  datatype Setup = Setup(job: Job, variant: Variant, hasPressure: bool, hasBattery: bool, units: Value, timebase: Timebase, total: nat)

  /** The state the main pass carries from message to message. `points`
      counts the Influx points written. */
  datatype State = State(model: Model, record: Record, rowsWritten: nat, points: nat, currentUnits: Value, out: seq<Chunk>)

  /** The comma rule's counter. As written, a comma precedes every point
      after the first flush; corrected, every point after the first point. */
  function Written(ctx: Setup, st: State): nat {
    match ctx.variant
    case AsWritten => st.rowsWritten
    case Corrected => st.points
  }

  /** `convertRecordToString` of the current record, as zero or one chunk. */
  function Flush(ctx: Setup, st: State, tempUnits: Value): (r: seq<Chunk>)
    ensures |r| <= 1
    ensures ctx.job.format == Csv ==> forall j :: 0 <= j < |r| ==> r[j].Row?
    ensures ctx.job.format == Influx ==> forall j :: 0 <= j < |r| ==> r[j].Entry?
  {
    match ctx.job.format
    case Csv =>
      (match EncodeCsv(st.record, st.model, ctx.hasPressure, ctx.hasBattery)
       case None => []
       case Some(row) => [Row(row)])
    case Influx =>
      (match EncodeInflux(st.record, st.model, ctx.hasPressure, ctx.hasBattery, ctx.job.now,
                          TempUnitsArgument(tempUnits), Written(ctx, st), ctx.job.Serial())
       case None => []
       case Some(p) => [Entry(p)])
  }

  /** `addMessageToRecord(datum, modelType, ...)` in the main pass. */
  function Add(ctx: Setup, m: Model, datum: Message, record: Record): Record {
    AddMessage(ctx.variant, datum, m, ctx.job.compensated, ctx.job.instantaneous, record, ctx.hasPressure, ctx.hasBattery)
  }

  /** The first message of each file on a known topic anchors an empty
      record. */
  function Anchored(st: State, datum: Message, first: bool): Record {
    if first && IsKnown(datum) && !Defined(st.record, 0) then st.record[0 := Time(datum.timestamp)] else st.record
  }

  /** The main pass's work on one message. It keeps the model, never takes
      back output, and appends at most one chunk, only when it counts a
      row. */
  function Step(ctx: Setup, st: State, datum: Message, first: bool): (r: State)
    ensures r.model == st.model
    ensures st.out <= r.out && |r.out| <= |st.out| + 1
    ensures r.rowsWritten == st.rowsWritten || r.rowsWritten == st.rowsWritten + 1
    ensures r.rowsWritten == st.rowsWritten ==> r.out == st.out
  {
    var record := Anchored(st, datum, first);
    if Joins(datum.timestamp, Anchor(record, ctx.job.now), ctx.timebase) then
      st.(record := Add(ctx, st.model, datum, record),
          currentUnits := if Contains(datum.topic, "temperature") then Field(datum, "converted-units") else st.currentUnits)
    else
      var chunks := Flush(ctx, st.(record := record), st.currentUnits);
      st.(record := Add(ctx, st.model, datum, map[0 := Time(datum.timestamp)]),
          rowsWritten := st.rowsWritten + 1,
          points := st.points + |chunks|,
          out := st.out + chunks)
  }

  /** The main pass over the messages of one file. */
  function Steps(ctx: Setup, st: State, data: seq<Message>, first: bool): State
    decreases |data|
  {
    if |data| == 0 then st else Steps(ctx, Step(ctx, st, data[0], first), data[1..], false)
  }

  /** What opens a file's part of the output. */
  function Opening(ctx: Setup, m: Model, firstFile: bool): seq<Chunk> {
    match ctx.job.format
    case Csv => [HeaderRow(HeaderLabels(m, ctx.units, ctx.hasPressure, ctx.hasBattery))]
    case Influx => if ctx.total > 0 && (ctx.variant == AsWritten || firstFile) then [OpenArray] else []
  }

  /** One file of the main pass: refine the model on the file's messages,
      open the file's part of the output, and fold the messages in. */
  function File(ctx: Setup, st: State, data: seq<Message>, firstFile: bool): State {
    var m := Refine(st.model, data);
    Steps(ctx, st.(model := m, out := st.out + Opening(ctx, m, firstFile)), data, true)
  }

  /** The main pass over the files. */
  function Files(ctx: Setup, st: State, files: seq<seq<Message>>, firstFile: bool): State
    decreases |files|
  {
    if |files| == 0 then st else Files(ctx, File(ctx, st, files[0], firstFile), files[1..], false)
  }

  /** The final flush of the last record, closing the Influx array when
      there were messages. It counts one more row, keeps the model and the
      output so far, and adds exactly the flush of the last record: under
      the current units for CSV, under the survey's units for Influx, and
      then the `]`. An Influx job without messages writes nothing. */
  function Finish(ctx: Setup, st: State): (r: State)
    ensures r.rowsWritten == st.rowsWritten + 1 && r.model == st.model
    ensures st.out <= r.out && |r.out| <= |st.out| + 2
    ensures ctx.job.format == Influx && ctx.total > 0 ==> |r.out| > 0 && r.out[|r.out| - 1] == CloseArray
    ensures ctx.job.format == Csv ==> |r.out| <= |st.out| + 1
    ensures ctx.job.format == Csv ==> r.out == st.out + Flush(ctx, st, st.currentUnits)
    ensures ctx.job.format == Influx && ctx.total > 0 ==> r.out == st.out + Flush(ctx, st, ctx.units) + [CloseArray]
    ensures ctx.job.format == Influx && ctx.total == 0 ==> r.out == st.out
  {
    match ctx.job.format
    case Csv =>
      var chunks := Flush(ctx, st, st.currentUnits);
      st.(rowsWritten := st.rowsWritten + 1, points := st.points + |chunks|, out := st.out + chunks)
    case Influx =>
      if ctx.total > 0 then
        var chunks := Flush(ctx, st, ctx.units);
        st.(rowsWritten := st.rowsWritten + 1, points := st.points + |chunks|, out := st.out + chunks + [CloseArray])
      else st.(rowsWritten := st.rowsWritten + 1)
  }

  /** The result of a job: no files to read, or the classified model, the
      timebase, the final model, the number of flushes and the output. */
  datatype Outcome = NoFiles | Stitched(classified: Model, timebase: Timebase, model: Model, rowsWritten: nat, out: seq<Chunk>)

  /** What the first pass learns about a job's messages. */
  function Context(job: Job, variant: Variant, files: seq<seq<Message>>): (ctx: Setup)
    ensures ctx.job == job && ctx.variant == variant
    ensures ctx.total == |Concat(files)|
  {
    var s := Surveyed(Concat(files));
    SurveyFlags(Concat(files));
    Setup(job, variant, s.hasPressure, s.hasBattery, s.units,
      DetermineTimebase(job.dirname, s.temperatureItems, s.topics), s.total)
  }

  /** The state the main pass starts from: the classified model, an empty
      record, nothing written, Celsius. */
  function Initial(job: Job, files: seq<seq<Message>>): State {
    State(Classify(job.dirname, Surveyed(Concat(files)).topics), map[], 0, 0, Lit("degC"), [])
  }

  /** The first pass, then the main pass, then the final flush. A job
      stitches exactly when it has files; the classified model is never a
      refined one, and the final model is the classified one or its
      refinement. */
  function Run(job: Job, variant: Variant, files: seq<seq<Message>>): (r: Outcome)
    ensures r.Stitched? <==> |files| > 0
    ensures r.Stitched? ==> r.classified != N && r.classified != Y && r.model in {r.classified, N, Y}
  {
    if |files| == 0 then NoFiles
    else
      var ctx := Context(job, variant, files);
      var st0 := Initial(job, files);
      FilesModel(ctx, st0, files, true);
      var st := Finish(ctx, Files(ctx, st0, files, true));
      Stitched(st0.model, ctx.timebase, st.model, st.rowsWritten, st.out)
  }

  /** The main pass over a file keeps the model. */
  lemma {:induction false} StepsKeepModel(ctx: Setup, st: State, data: seq<Message>, first: bool)
    ensures Steps(ctx, st, data, first).model == st.model
    decreases |data|
  {
    if |data| > 0 {
      StepsKeepModel(ctx, Step(ctx, st, data[0], first), data[1..], false);
    }
  }

  /** Over the files, the model only ever changes by refinement. */
  lemma {:induction false} FilesModel(ctx: Setup, st: State, files: seq<seq<Message>>, firstFile: bool)
    ensures Files(ctx, st, files, firstFile).model in {st.model, N, Y}
    decreases |files|
  {
    if |files| > 0 {
      var m := Refine(st.model, files[0]);
      StepsKeepModel(ctx, st.(model := m, out := st.out + Opening(ctx, m, firstFile)), files[0], true);
      FilesModel(ctx, File(ctx, st, files[0], firstFile), files[1..], false);
    }
  }

  /** The stitching job, with the defects recorded among the findings
      corrected. */
  function Stitch(job: Job, files: seq<seq<Message>>): Outcome {
    Run(job, Corrected, files)
  }

  /** The stitching job as written. */
  function StitchAsWritten(job: Job, files: seq<seq<Message>>): Outcome {
    Run(job, AsWritten, files)
  }

  // ---------------------------------------------------------------- the window

  /** The windowing step. A message joins the current record exactly when
      its timestamp is within half a timebase of the record's anchor; it
      is then added and nothing is written, the anchor moves only when the
      message is a temperature reading, and a message whose topic mentions
      temperature sets the current units to its converted units. Otherwise
      the current record is flushed under the current units, which stay as
      they were, one more row is counted, and a fresh record anchored at
      the message's timestamp receives the message. */
  lemma StepWindow(ctx: Setup, st: State, datum: Message, first: bool)
    ensures var record := Anchored(st, datum, first);
      var next := Step(ctx, st, datum, first);
      Joins(datum.timestamp, Anchor(record, ctx.job.now), ctx.timebase) ==>
        && next.out == st.out && next.rowsWritten == st.rowsWritten
        && next.record == Add(ctx, st.model, datum, record)
        && next.currentUnits == (if Contains(datum.topic, "temperature") then Field(datum, "converted-units") else st.currentUnits)
        && Lookup(next.record, 0) == if IsKnown(datum) && Dispatch(datum.topic) == TemperatureBranch then Some(Time(datum.timestamp)) else Lookup(record, 0)
    ensures var record := Anchored(st, datum, first);
      var next := Step(ctx, st, datum, first);
      !Joins(datum.timestamp, Anchor(record, ctx.job.now), ctx.timebase) ==>
        && next.out == st.out + Flush(ctx, st.(record := record), st.currentUnits)
        && next.rowsWritten == st.rowsWritten + 1
        && next.record == Add(ctx, st.model, datum, map[0 := Time(datum.timestamp)])
        && next.currentUnits == st.currentUnits
        && Lookup(next.record, 0) == Some(Time(datum.timestamp))
  {
  }

  // ---------------------------------------------------------------- CSV shape

  /** The number of columns of the last header in `out`. */
  function HeaderWidth(out: seq<Chunk>): Option<nat>
    decreases |out|
  {
    if |out| == 0 then None
    else if out[|out| - 1].HeaderRow? then Some(|out[|out| - 1].labels|)
    else HeaderWidth(out[..|out| - 1])
  }

  /** Every row spans exactly the columns of the header above it. */
  predicate RowsMatchHeaders(out: seq<Chunk>) {
    forall j :: 0 <= j < |out| && out[j].Row? ==>
      HeaderWidth(out[..j]).Some? && out[j].fields.Keys == Below(HeaderWidth(out[..j]).value)
  }

  lemma AppendChunk(out: seq<Chunk>, c: Chunk)
    requires RowsMatchHeaders(out)
    requires c.Row? ==> HeaderWidth(out).Some? && c.fields.Keys == Below(HeaderWidth(out).value)
    ensures RowsMatchHeaders(out + [c])
    ensures HeaderWidth(out + [c]) == if c.HeaderRow? then Some(|c.labels|) else HeaderWidth(out)
  {
    assert (out + [c])[..|out|] == out;
    forall j | 0 <= j < |out| ensures (out + [c])[..j] == out[..j] { }
  }

  /** Every slot of the record lies inside the width of the current model. */
  predicate Bounded(ctx: Setup, st: State) {
    forall k :: k in st.record ==> k < Width(st.model, ctx.hasPressure, ctx.hasBattery)
  }

  /** A CSV row of a bounded record spans exactly the record width. */
  lemma BoundedRow(ctx: Setup, st: State, tempUnits: Value)
    requires ctx.job.format == Csv && Bounded(ctx, st)
    ensures var w := Width(st.model, ctx.hasPressure, ctx.hasBattery);
      forall j :: 0 <= j < |Flush(ctx, st, tempUnits)| ==> Flush(ctx, st, tempUnits)[j].fields.Keys == Below(w)
  {
    var w := Width(st.model, ctx.hasPressure, ctx.hasBattery);
    assert Below(w) + st.record.Keys + {0} == Below(w);
  }

  /** The CSV invariant of the main pass inside a file. */
  predicate CsvShaped(ctx: Setup, st: State) {
    && ctx.job.format == Csv
    && RowsMatchHeaders(st.out)
    && Bounded(ctx, st)
    && HeaderWidth(st.out) == Some(Width(st.model, ctx.hasPressure, ctx.hasBattery))
  }

  /** A flush keeps the CSV invariant. */
  lemma FlushShaped(ctx: Setup, st: State, record: Record)
    requires CsvShaped(ctx, st)
    requires forall k :: k in record ==> k < Width(st.model, ctx.hasPressure, ctx.hasBattery)
    ensures RowsMatchHeaders(st.out + Flush(ctx, st.(record := record), st.currentUnits))
    ensures HeaderWidth(st.out + Flush(ctx, st.(record := record), st.currentUnits)) == HeaderWidth(st.out)
  {
    var chunks := Flush(ctx, st.(record := record), st.currentUnits);
    BoundedRow(ctx, st.(record := record), st.currentUnits);
    if |chunks| == 1 {
      AppendChunk(st.out, chunks[0]);
      assert st.out + chunks == st.out + [chunks[0]];
    } else {
      assert st.out + chunks == st.out;
    }
  }

  lemma JoinShaped(ctx: Setup, st: State, datum: Message, record: Record, units: Value)
    requires CsvShaped(ctx, st)
    requires ctx.variant == Corrected || (IsWaterMessage(datum) ==> st.model == W)
    requires forall k :: k in record ==> k < Width(st.model, ctx.hasPressure, ctx.hasBattery)
    ensures CsvShaped(ctx, st.(record := Add(ctx, st.model, datum, record), currentUnits := units))
  {
  }

  lemma BreakShaped(ctx: Setup, st: State, datum: Message, record: Record)
    requires CsvShaped(ctx, st)
    requires ctx.variant == Corrected || (IsWaterMessage(datum) ==> st.model == W)
    requires forall k :: k in record ==> k < Width(st.model, ctx.hasPressure, ctx.hasBattery)
    ensures var chunks := Flush(ctx, st.(record := record), st.currentUnits);
      CsvShaped(ctx, st.(record := Add(ctx, st.model, datum, map[0 := Time(datum.timestamp)]),
                         rowsWritten := st.rowsWritten + 1, points := st.points + |chunks|, out := st.out + chunks))
  {
    FlushShaped(ctx, st, record);
  }

  lemma StepShaped(ctx: Setup, st: State, datum: Message, first: bool)
    requires CsvShaped(ctx, st)
    requires ctx.variant == Corrected || (IsWaterMessage(datum) ==> st.model == W)
    ensures CsvShaped(ctx, Step(ctx, st, datum, first))
    ensures Step(ctx, st, datum, first).model == st.model
  {
    var record := Anchored(st, datum, first);
    assert forall k :: k in record ==> k < Width(st.model, ctx.hasPressure, ctx.hasBattery);
    if Joins(datum.timestamp, Anchor(record, ctx.job.now), ctx.timebase) {
      JoinShaped(ctx, st, datum, record, if Contains(datum.topic, "temperature") then Field(datum, "converted-units") else st.currentUnits);
    } else {
      BreakShaped(ctx, st, datum, record);
    }
  }

  /** Under variant `v`, no message of `data` writes water columns unless
      the model is the water model: always so when corrected. */
  predicate WaterFits(v: Variant, m: Model, data: seq<Message>) {
    v == Corrected || m == W || forall j :: 0 <= j < |data| ==> !IsWaterMessage(data[j])
  }

  lemma {:induction false} StepsShaped(ctx: Setup, st: State, data: seq<Message>, first: bool)
    requires CsvShaped(ctx, st)
    requires WaterFits(ctx.variant, st.model, data)
    ensures CsvShaped(ctx, Steps(ctx, st, data, first))
    ensures Steps(ctx, st, data, first).model == st.model
    decreases |data|
  {
    if |data| > 0 {
      StepShaped(ctx, st, data[0], first);
      var next := Step(ctx, st, data[0], first);
      assert WaterFits(ctx.variant, next.model, data[1..]) by {
        forall j | 0 <= j < |data[1..]| ensures data[1..][j] == data[j + 1] { }
      }
      StepsShaped(ctx, next, data[1..], false);
    }
  }

  /** The CSV invariant between files: rows match headers and the record
      fits the current model; after the first file there is a header of the
      current model's width. */
  predicate CsvBetweenFiles(ctx: Setup, st: State, firstFile: bool) {
    && ctx.job.format == Csv
    && RowsMatchHeaders(st.out)
    && Bounded(ctx, st)
    && (!firstFile ==> HeaderWidth(st.out) == Some(Width(st.model, ctx.hasPressure, ctx.hasBattery)))
  }

  lemma FileShaped(ctx: Setup, st: State, data: seq<Message>, firstFile: bool)
    requires CsvBetweenFiles(ctx, st, firstFile)
    requires WaterFits(ctx.variant, st.model, data)
    ensures CsvBetweenFiles(ctx, File(ctx, st, data, false), false)
    ensures WaterFits(ctx.variant, st.model, data) ==> File(ctx, st, data, firstFile).model == Refine(st.model, data)
    ensures File(ctx, st, data, firstFile) == File(ctx, st, data, false)
  {
    var m := Refine(st.model, data);
    RefineWidens(st.model, data, ctx.hasPressure, ctx.hasBattery);
    RefineSplitsCollisions(st.model, data);
    var header := HeaderRow(HeaderLabels(m, ctx.units, ctx.hasPressure, ctx.hasBattery));
    AppendChunk(st.out, header);
    var started := st.(model := m, out := st.out + [header]);
    assert CsvShaped(ctx, started);
    StepsShaped(ctx, started, data, true);
  }

  /** Under variant `v`, water messages anywhere in the files write water
      columns only on the water model. */
  predicate WaterFitsAll(v: Variant, m: Model, files: seq<seq<Message>>) {
    forall f :: 0 <= f < |files| ==> WaterFits(v, m, files[f])
  }

  lemma {:induction false} FilesShaped(ctx: Setup, st: State, files: seq<seq<Message>>, firstFile: bool)
    requires CsvBetweenFiles(ctx, st, firstFile)
    requires WaterFitsAll(ctx.variant, st.model, files)
    ensures CsvBetweenFiles(ctx, Files(ctx, st, files, firstFile), firstFile && |files| == 0)
    decreases |files|
  {
    if |files| > 0 {
      FileShaped(ctx, st, files[0], firstFile);
      var next := File(ctx, st, files[0], firstFile);
      RefineSplitsCollisions(st.model, files[0]);
      assert WaterFitsAll(ctx.variant, next.model, files[1..]) by {
        forall f | 0 <= f < |files[1..]| ensures WaterFits(ctx.variant, next.model, files[1..][f]) {
          assert files[1..][f] == files[f + 1];
        }
      }
      FilesShaped(ctx, next, files[1..], false);
    }
  }

  /** The CSV output: a job with files stitches, and every row it writes
      spans exactly the columns of the header written above it. Corrected,
      this holds of every job; as written, provided water messages come
      only from a device classified as the water model. */
  lemma CsvRowsMatchHeaders(job: Job, variant: Variant, files: seq<seq<Message>>)
    requires job.format == Csv
    requires |files| > 0 ==> WaterFitsAll(variant, Initial(job, files).model, files)
    ensures Run(job, variant, files).Stitched? <==> |files| > 0
    ensures Run(job, variant, files).Stitched? ==> RowsMatchHeaders(Run(job, variant, files).out)
  {
    if |files| > 0 {
      var ctx := Context(job, variant, files);
      var st0 := Initial(job, files);
      assert CsvBetweenFiles(ctx, st0, true);
      FilesShaped(ctx, st0, files, true);
      var st := Files(ctx, st0, files, true);
      FlushShaped(ctx, st, st.record);
      assert st.(record := st.record) == st;
    }
  }

  // ---------------------------------------------------------------- Influx framing

  /** A well-formed JSON array of points: `[`, the points, each but the
      first preceded by a comma, then `]`. */
  predicate WellFramed(out: seq<Chunk>) {
    && |out| >= 2 && out[0] == OpenArray && out[|out| - 1] == CloseArray
    && forall j :: 0 < j < |out| - 1 ==> out[j].Entry? && (out[j].point.leadingComma <==> j > 1)
  }

  /** The corrected Influx invariant: after the first file, the array is
      open and holds the points written so far, each but the first with a
      comma; before it, nothing has been written. */
  predicate InfluxFramed(ctx: Setup, st: State, firstFile: bool) {
    && ctx.job.format == Influx && ctx.variant == Corrected && ctx.total > 0
    && if firstFile then st.out == [] && st.points == 0
       else
         && |st.out| == st.points + 1 && st.out[0] == OpenArray
         && forall j :: 0 < j < |st.out| ==> st.out[j].Entry? && (st.out[j].point.leadingComma <==> j > 1)
  }

  /** A corrected flush appends at most one point, with a comma exactly
      when points were written before it. */
  lemma FlushFramed(ctx: Setup, st: State, tempUnits: Value)
    requires ctx.job.format == Influx && ctx.variant == Corrected
    ensures forall j :: 0 <= j < |Flush(ctx, st, tempUnits)| ==>
      Flush(ctx, st, tempUnits)[j].Entry? && (Flush(ctx, st, tempUnits)[j].point.leadingComma <==> st.points > 0)
  {
    var hP, hB := ctx.hasPressure, ctx.hasBattery;
    var u := TempUnitsArgument(tempUnits);
  }

  lemma BreakFramed(ctx: Setup, st: State, datum: Message, record: Record)
    requires InfluxFramed(ctx, st, false)
    ensures var chunks := Flush(ctx, st.(record := record), st.currentUnits);
      InfluxFramed(ctx, st.(record := Add(ctx, st.model, datum, map[0 := Time(datum.timestamp)]),
                            rowsWritten := st.rowsWritten + 1, points := st.points + |chunks|, out := st.out + chunks), false)
  {
    var chunks := Flush(ctx, st.(record := record), st.currentUnits);
    FlushFramed(ctx, st.(record := record), st.currentUnits);
    var out := st.out + chunks;
    forall j | 0 < j < |out| ensures out[j].Entry? && (out[j].point.leadingComma <==> j > 1) {
      if j >= |st.out| {
        assert out[j] == chunks[0];
      }
    }
  }

  lemma StepFramed(ctx: Setup, st: State, datum: Message, first: bool)
    requires InfluxFramed(ctx, st, false)
    ensures InfluxFramed(ctx, Step(ctx, st, datum, first), false)
  {
    var record := Anchored(st, datum, first);
    if !Joins(datum.timestamp, Anchor(record, ctx.job.now), ctx.timebase) {
      BreakFramed(ctx, st, datum, record);
    }
  }

  lemma {:induction false} StepsFramed(ctx: Setup, st: State, data: seq<Message>, first: bool)
    requires InfluxFramed(ctx, st, false)
    ensures InfluxFramed(ctx, Steps(ctx, st, data, first), false)
    decreases |data|
  {
    if |data| > 0 {
      StepFramed(ctx, st, data[0], first);
      StepsFramed(ctx, Step(ctx, st, data[0], first), data[1..], false);
    }
  }

  lemma {:induction false} FilesFramed(ctx: Setup, st: State, files: seq<seq<Message>>, firstFile: bool)
    requires InfluxFramed(ctx, st, firstFile)
    ensures InfluxFramed(ctx, Files(ctx, st, files, firstFile), firstFile && |files| == 0)
    decreases |files|
  {
    if |files| > 0 {
      var m := Refine(st.model, files[0]);
      var started := st.(model := m, out := st.out + Opening(ctx, m, firstFile));
      assert InfluxFramed(ctx, started, false);
      StepsFramed(ctx, started, files[0], true);
      FilesFramed(ctx, File(ctx, st, files[0], firstFile), files[1..], false);
    }
  }

  /** Corrected, the Influx output of a job with messages is one
      well-formed JSON array. */
  lemma InfluxWellFramed(job: Job, files: seq<seq<Message>>)
    requires job.format == Influx
    requires |Concat(files)| > 0
    ensures Stitch(job, files).Stitched? && WellFramed(Stitch(job, files).out)
  {
    assert |files| > 0;
    var ctx := Context(job, Corrected, files);
    var st0 := Initial(job, files);
    FilesFramed(ctx, st0, files, true);
    FinishFramed(ctx, Files(ctx, st0, files, true));
  }

  /** The final flush of a framed state closes a well-formed array. */
  lemma FinishFramed(ctx: Setup, st: State)
    requires InfluxFramed(ctx, st, false)
    ensures WellFramed(Finish(ctx, st).out)
  {
    var chunks := Flush(ctx, st, ctx.units);
    FlushFramed(ctx, st, ctx.units);
    var out := st.out + chunks + [CloseArray];
    assert Finish(ctx, st).out == out;
    forall j | 0 < j < |out| - 1 ensures out[j].Entry? && (out[j].point.leadingComma <==> j > 1) {
      if j >= |st.out| {
        assert out[j] == chunks[0];
      }
    }
  }

  // ---------------------------------------------------------------- the framing as written

  /** A well-framed output opens and closes the array exactly once. */
  lemma WellFramedBracketsOnce(out: seq<Chunk>)
    requires WellFramed(out)
    ensures multiset(out)[OpenArray] == 1 && multiset(out)[CloseArray] == 1
  {
    var middle := out[1..|out| - 1];
    assert out == [out[0]] + middle + [out[|out| - 1]];
    forall j | 0 <= j < |middle| ensures middle[j].Entry? {
      assert middle[j] == out[j + 1];
    }
    assert OpenArray !in middle && CloseArray !in middle;
  }

  /** The main pass over a file writes no brackets of its own. */
  lemma {:induction false} StepsWriteNoBrackets(ctx: Setup, st: State, data: seq<Message>, first: bool)
    requires ctx.job.format == Influx
    ensures multiset(Steps(ctx, st, data, first).out)[OpenArray] == multiset(st.out)[OpenArray]
    ensures multiset(Steps(ctx, st, data, first).out)[CloseArray] == multiset(st.out)[CloseArray]
    decreases |data|
  {
    if |data| > 0 {
      var next := Step(ctx, st, data[0], first);
      var record := Anchored(st, data[0], first);
      if !Joins(data[0].timestamp, Anchor(record, ctx.job.now), ctx.timebase) {
        var chunks := Flush(ctx, st.(record := record), st.currentUnits);
        assert next.out == st.out + chunks;
        assert OpenArray !in chunks && CloseArray !in chunks;
      }
      StepsWriteNoBrackets(ctx, next, data[1..], false);
    }
  }

  /** As written, every file opens the array again. */
  lemma {:induction false} FilesOpenEach(ctx: Setup, st: State, files: seq<seq<Message>>, firstFile: bool)
    requires ctx.job.format == Influx && ctx.variant == AsWritten && ctx.total > 0
    ensures multiset(Files(ctx, st, files, firstFile).out)[OpenArray] == multiset(st.out)[OpenArray] + |files|
    ensures multiset(Files(ctx, st, files, firstFile).out)[CloseArray] == multiset(st.out)[CloseArray]
    decreases |files|
  {
    if |files| > 0 {
      var m := Refine(st.model, files[0]);
      var started := st.(model := m, out := st.out + [OpenArray]);
      StepsWriteNoBrackets(ctx, started, files[0], true);
      FilesOpenEach(ctx, File(ctx, st, files[0], firstFile), files[1..], false);
    }
  }

  /** The final Influx flush closes the array once. */
  lemma FinishClosesOnce(ctx: Setup, st: State)
    requires ctx.job.format == Influx && ctx.total > 0
    ensures multiset(Finish(ctx, st).out)[OpenArray] == multiset(st.out)[OpenArray]
    ensures multiset(Finish(ctx, st).out)[CloseArray] == multiset(st.out)[CloseArray] + 1
  {
    var chunks := Flush(ctx, st, ctx.units);
    assert OpenArray !in chunks && CloseArray !in chunks;
    assert Finish(ctx, st).out == st.out + chunks + [CloseArray];
  }

  /** As written, a job with messages opens the Influx array once per file
      but closes it once. */
  lemma AsWrittenBrackets(job: Job, files: seq<seq<Message>>)
    requires job.format == Influx
    requires |Concat(files)| > 0
    ensures StitchAsWritten(job, files).Stitched?
    ensures multiset(StitchAsWritten(job, files).out)[OpenArray] == |files|
    ensures multiset(StitchAsWritten(job, files).out)[CloseArray] == 1
  {
    assert |files| > 0;
    var ctx := Context(job, AsWritten, files);
    var st0 := Initial(job, files);
    var out := Finish(ctx, Files(ctx, st0, files, true)).out;
    assert StitchAsWritten(job, files).out == out;
    PassBrackets(ctx, st0, files);
  }

  /** As written, the main pass from an empty output and the final flush
      open the array once per file and close it once. */
  lemma PassBrackets(ctx: Setup, st: State, files: seq<seq<Message>>)
    requires ctx.job.format == Influx && ctx.variant == AsWritten && ctx.total > 0
    requires st.out == []
    ensures var out := Finish(ctx, Files(ctx, st, files, true)).out;
      multiset(out)[OpenArray] == |files| && multiset(out)[CloseArray] == 1
  {
    FilesOpenEach(ctx, st, files, true);
    FinishClosesOnce(ctx, Files(ctx, st, files, true));
  }

  /** Hence, as written, two files or more never give one JSON array. */
  lemma AsWrittenMisframed(job: Job, files: seq<seq<Message>>)
    requires job.format == Influx
    requires |Concat(files)| > 0 && |files| >= 2
    ensures StitchAsWritten(job, files).Stitched? && !WellFramed(StitchAsWritten(job, files).out)
  {
    AsWrittenBrackets(job, files);
    if WellFramed(StitchAsWritten(job, files).out) {
      WellFramedBracketsOnce(StitchAsWritten(job, files).out);
    }
  }

  /** As written, a flush that writes nothing still counts as a written
      row. When the timebase is not a number (a job with a single
      temperature reading), the first message of the first file breaks the
      window with only the anchor in the record: nothing is written, yet
      every point written afterwards carries a leading comma, and the
      array reads `[,{...}`. Corrected, the count of written points stays
      zero and the next point carries none. */
  lemma PhantomComma(ctx: Setup, st: State, datum: Message, tempUnits: Value)
    requires ctx.job.format == Influx && ctx.timebase == NotANumber
    requires st.record == map[] && st.rowsWritten == 0 && st.points == 0
    requires IsKnown(datum)
    ensures Step(ctx, st, datum, true).out == st.out
    ensures var next := Step(ctx, st, datum, true);
      forall j :: 0 <= j < |Flush(ctx, next, tempUnits)| ==>
        (Flush(ctx, next, tempUnits)[j].point.leadingComma <==> ctx.variant == AsWritten)
  {
    var record := Anchored(st, datum, true);
    assert record == map[0 := Time(datum.timestamp)];
    assert !Joins(datum.timestamp, Anchor(record, ctx.job.now), ctx.timebase);
    FlushAnchorOnly(ctx, st.(record := record), st.currentUnits);
    var next := Step(ctx, st, datum, true);
    assert next.out == st.out && next.rowsWritten == 1 && next.points == 0;
    FlushFramedAny(ctx, next, tempUnits);
  }

  /** A record holding at most its anchor flushes to nothing. */
  lemma FlushAnchorOnly(ctx: Setup, st: State, tempUnits: Value)
    requires st.record.Keys <= {0}
    ensures Flush(ctx, st, tempUnits) == []
  {
    var w := Width(st.model, ctx.hasPressure, ctx.hasBattery);
    NothingPastAnchor(st.record, w);
    match ctx.job.format
    case Csv =>
      assert EncodeCsv(st.record, st.model, ctx.hasPressure, ctx.hasBattery).None?;
    case Influx =>
      assert EncodeInflux(st.record, st.model, ctx.hasPressure, ctx.hasBattery, ctx.job.now,
        TempUnitsArgument(tempUnits), Written(ctx, st), ctx.job.Serial()).None?;
  }

  lemma NothingPastAnchor(record: Record, w: nat)
    requires record.Keys <= {0}
    ensures !exists k :: 1 <= k < w && Defined(record, k)
  {
  }

  /** The leading comma of a flushed point records whether anything counts
      as written before it. */
  lemma FlushFramedAny(ctx: Setup, st: State, tempUnits: Value)
    requires ctx.job.format == Influx
    ensures forall j :: 0 <= j < |Flush(ctx, st, tempUnits)| ==>
      (Flush(ctx, st, tempUnits)[j].point.leadingComma <==> Written(ctx, st) > 0)
  {
    var hP, hB := ctx.hasPressure, ctx.hasBattery;
    var u := TempUnitsArgument(tempUnits);
  }

  // ---------------------------------------------------------------- rows written

  /** The concatenation of the files, read from the first file on. */
  lemma {:induction false} ConcatFront(files: seq<seq<Message>>)
    requires |files| > 0
    ensures Concat(files) == files[0] + Concat(files[1..])
    decreases |files|
  {
    if |files| > 1 {
      var init := files[..|files| - 1];
      ConcatFront(init);
      assert init[1..] == files[1..][..|files[1..]| - 1];
      assert init[0] == files[0];
    } else {
      assert files[1..] == [];
    }
  }

  /** Each message breaks the window at most once, and always when the
      timebase is not a number. */
  lemma {:induction false} StepsRows(ctx: Setup, st: State, data: seq<Message>, first: bool)
    ensures st.rowsWritten <= Steps(ctx, st, data, first).rowsWritten <= st.rowsWritten + |data|
    ensures ctx.timebase == NotANumber ==> Steps(ctx, st, data, first).rowsWritten == st.rowsWritten + |data|
    decreases |data|
  {
    if |data| > 0 {
      StepsRows(ctx, Step(ctx, st, data[0], first), data[1..], false);
    }
  }

  lemma {:induction false} FilesRows(ctx: Setup, st: State, files: seq<seq<Message>>, firstFile: bool)
    ensures st.rowsWritten <= Files(ctx, st, files, firstFile).rowsWritten <= st.rowsWritten + |Concat(files)|
    ensures ctx.timebase == NotANumber ==> Files(ctx, st, files, firstFile).rowsWritten == st.rowsWritten + |Concat(files)|
    decreases |files|
  {
    if |files| > 0 {
      var m := Refine(st.model, files[0]);
      StepsRows(ctx, st.(model := m, out := st.out + Opening(ctx, m, firstFile)), files[0], true);
      FilesRows(ctx, File(ctx, st, files[0], firstFile), files[1..], false);
      ConcatFront(files);
    }
  }

  /** A job with files counts one row for the final flush and at most one
      more per message; with a timebase that is not a number no two
      messages share a row, so it counts exactly one per message. */
  lemma RowsWrittenBounds(job: Job, variant: Variant, files: seq<seq<Message>>)
    requires |files| > 0
    ensures Run(job, variant, files).Stitched?
    ensures 1 <= Run(job, variant, files).rowsWritten <= |Concat(files)| + 1
    ensures Run(job, variant, files).timebase == NotANumber ==>
      Run(job, variant, files).rowsWritten == |Concat(files)| + 1
  {
    var ctx := Context(job, variant, files);
    FilesRows(ctx, Initial(job, files), files, true);
  }
}

=== FILE: text.dfy ===
/** The string operations the engine uses: `indexOf` (substring search),
    `replace` with a string pattern (first occurrence only), the last part
    of `split`, and `join`/`split` on a separator. */
module Text {

  import opened Options

  /** `p` occurs in `s` starting at index `i`. */
  predicate OccursAt(s: string, p: string, i: int) {
    0 <= i && i + |p| <= |s| && s[i..i + |p|] == p
  }

  /** The first occurrence of `p` in `s` at or after `from`. */
  function IndexOfFrom(s: string, p: string, from: nat): (r: Option<nat>)
    requires from <= |s|
    ensures r.Some? ==> from <= r.value && OccursAt(s, p, r.value)
    ensures r.Some? ==> forall j :: from <= j < r.value ==> !OccursAt(s, p, j)
    ensures r.None? ==> forall j :: from <= j ==> !OccursAt(s, p, j)
    decreases |s| - from
  {
    if from + |p| > |s| then None
    else if s[from..from + |p|] == p then Some(from)
    else IndexOfFrom(s, p, from + 1)
  }

  /** `s.indexOf(p)`, with `None` for -1. */
  function IndexOf(s: string, p: string): Option<nat> {
    IndexOfFrom(s, p, 0)
  }

  /** `s.indexOf(p) >= 0` */
  predicate Contains(s: string, p: string) {
    IndexOf(s, p).Some?
  }

  /** `Contains` holds exactly when `p` occurs somewhere in `s`. */
  lemma ContainsIff(s: string, p: string)
    ensures Contains(s, p) <==> exists i :: OccursAt(s, p, i)
  {
    if !Contains(s, p) {
      forall i ensures !OccursAt(s, p, i) {
        if i >= 0 {
          assert 0 <= i;
        }
      }
    }
  }

  /** Whatever contains `p` contains every piece of `p`. */
  lemma {:induction false} ContainsPiece(s: string, p: string, q: string, k: nat)
    requires Contains(s, p)
    requires OccursAt(p, q, k)
    ensures Contains(s, q)
  {
    var i := IndexOf(s, p).value;
    assert s[i + k..i + k + |q|] == p[k..k + |q|];
    assert OccursAt(s, q, i + k);
    ContainsIff(s, q);
  }

  /** `s.replace(p, "")` with a string pattern: only the first occurrence is
      removed. */
  function RemoveFirst(s: string, p: string): (r: string)
    ensures !Contains(s, p) ==> r == s
    ensures Contains(s, p) ==> |r| == |s| - |p|
  {
    match IndexOf(s, p)
    case None => s
    case Some(k) => s[..k] + s[k + |p|..]
  }

  /** The last element of `s.split([sep])`: the longest suffix free of `sep`. */
  function LastSegment(s: string, sep: char): (r: string)
    ensures sep !in r
    ensures |r| <= |s| && r == s[|s| - |r|..]
    ensures |r| < |s| ==> s[|s| - |r| - 1] == sep
  {
    if |s| == 0 then ""
    else if s[|s| - 1] == sep then ""
    else
      var r := LastSegment(s[..|s| - 1], sep);
      assert s[..|s| - 1][|s| - 1 - |r|..] == s[|s| - 1 - |r|..|s| - 1];
      r + [s[|s| - 1]]
  }

  /** `parts.join(sep)` */
  function Join(parts: seq<string>, sep: char): string {
    if |parts| == 0 then ""
    else if |parts| == 1 then parts[0]
    else parts[0] + [sep] + Join(parts[1..], sep)
  }

  /** `s.split(sep)` */
  function Split(s: string, sep: char): (r: seq<string>)
    ensures |r| >= 1
    decreases |s|
  {
    match IndexOf(s, [sep])
    case None => [s]
    case Some(k) => [s[..k]] + Split(s[k + 1..], sep)
  }

  /** No part contains the separator. */
  predicate SeparatorFree(parts: seq<string>, sep: char) {
    forall i :: 0 <= i < |parts| ==> sep !in parts[i]
  }

  lemma NoOccurrenceOfAbsentChar(s: string, c: char)
    requires c !in s
    ensures !Contains(s, [c])
  {
    forall i | 0 <= i && i + 1 <= |s| ensures !OccursAt(s, [c], i) {
      assert s[i..i + 1][0] == s[i];
    }
    ContainsIff(s, [c]);
  }

  /** Splitting a join gives the parts back, so the number of fields of a
      joined line is the number of parts. */
  lemma {:induction false} SplitJoin(parts: seq<string>, sep: char)
    requires |parts| >= 1
    requires SeparatorFree(parts, sep)
    ensures Split(Join(parts, sep), sep) == parts
    decreases |parts|
  {
    if |parts| == 1 {
      NoOccurrenceOfAbsentChar(parts[0], sep);
    } else {
      var s := Join(parts, sep);
      var a := parts[0];
      assert s == a + [sep] + Join(parts[1..], sep);
      assert OccursAt(s, [sep], |a|) by {
        assert s[|a|..|a| + 1] == [sep];
      }
      forall j | 0 <= j < |a| ensures !OccursAt(s, [sep], j) {
        assert s[j] == a[j];
      }
      var k := IndexOf(s, [sep]);
      assert k == Some(|a|);
      assert s[..|a|] == a;
      assert s[|a| + 1..] == Join(parts[1..], sep);
      SplitJoin(parts[1..], sep);
      assert [a] + parts[1..] == parts;
    }
  }
}

=== FILE: timebase.dfy ===
/** `determineTimebase` (stitchjob.js): the expected interval between
    temperature messages, in milliseconds. The gaps between consecutive
    temperature messages are collected, the ones further than one
    (population) standard deviation from their mean are dropped, and the
    mean of the rest is the timebase. Arithmetic is on reals: the
    floating-point rounding of the mean and deviation is not modelled. */
module Timebase {

  import opened Options
  import opened Messages
  import opened Models

  /** The result: `null` when the device has no temperature topic, `NaN`
      when there are no gaps to average (or a gap is not a number), else a
      number. */
  datatype Timebase = NoTemperatureTopic | NotANumber | Period(ms: real)

  /** The temperature topic the device uses: the bare one, else the one
      with the serial-number suffix. */
  function TemperatureTopicIn(dirname: string, uniqueTopics: seq<string>): (r: Option<string>)
    ensures r.Some? ==> r.value in uniqueTopics
    ensures r.Some? ==> r.value == TemperatureTopic || r.value == TemperatureTopic + "/" + SerialOf(dirname)
    ensures TemperatureTopic in uniqueTopics ==> r == Some(TemperatureTopic)
    ensures r.None? <==> TemperatureTopic !in uniqueTopics && TemperatureTopic + "/" + SerialOf(dirname) !in uniqueTopics
  {
    if TemperatureTopic in uniqueTopics then Some(TemperatureTopic)
    else if TemperatureTopic + "/" + SerialOf(dirname) in uniqueTopics then Some(TemperatureTopic + "/" + SerialOf(dirname))
    else None
  }

  /** The timestamps of the messages on `topic`, in order. */
  function StampsOn(items: seq<Message>, topic: string): (r: seq<Stamp>)
    ensures |r| <= |items|
  {
    if |items| == 0 then []
    else (if items[0].topic == topic then [items[0].timestamp] else []) + StampsOn(items[1..], topic)
  }

  /** `current.diff(last, "milliseconds")`: not a number when either
      timestamp cannot be parsed. */
  function Gap(last: Stamp, current: Stamp): Option<int> {
    if last.At? && current.At? then Some(current.ms - last.ms) else None
  }

  /** The gaps between consecutive timestamps. */
  function Gaps(stamps: seq<Stamp>): (r: seq<Option<int>>)
    ensures |r| == if |stamps| == 0 then 0 else |stamps| - 1
    ensures forall i :: 0 <= i < |r| ==> r[i] == Gap(stamps[i], stamps[i + 1])
  {
    if |stamps| <= 1 then []
    else [Gap(stamps[0], stamps[1])] + Gaps(stamps[1..])
  }

  // ---------------------------------------------------------------- statistics

  function Sum(xs: seq<real>): real {
    if |xs| == 0 then 0.0 else xs[0] + Sum(xs[1..])
  }

  /** `jStat.mean` of a non-empty list. */
  function Mean(xs: seq<real>): real
    requires |xs| > 0
  {
    Sum(xs) / (|xs| as real)
  }

  function Square(x: real): (r: real)
    ensures r >= 0.0
  {
    if x >= 0.0 then x * x else (-x) * (-x)
  }

  /** The sum of squared deviations from `mu`. */
  function SquaredDeviations(xs: seq<real>, mu: real): (r: real)
    ensures r >= 0.0
  {
    if |xs| == 0 then 0.0 else Square(xs[0] - mu) + SquaredDeviations(xs[1..], mu)
  }

  /** `jStat.variance` (population) of a non-empty list; its square root is
      `jStat.stdev`. */
  function Variance(xs: seq<real>): (r: real)
    requires |xs| > 0
    ensures r >= 0.0
  {
    SquaredDeviations(xs, Mean(xs)) / (|xs| as real)
  }

  /** `mean - stdev <= x <= mean + stdev`, squared to avoid the root. */
  predicate Near(x: real, mu: real, variance: real) {
    Square(x - mu) <= variance
  }

  /** The values within one standard deviation of the mean, in order. */
  function Keep(xs: seq<real>, mu: real, variance: real): (r: seq<real>)
    ensures |r| <= |xs|
    ensures forall i :: 0 <= i < |r| ==> r[i] in xs && Near(r[i], mu, variance)
  {
    if |xs| == 0 then []
    else (if Near(xs[0], mu, variance) then [xs[0]] else []) + Keep(xs[1..], mu, variance)
  }

  /** The outlier filter. */
  function Inliers(xs: seq<real>): seq<real>
    requires |xs| > 0
  {
    Keep(xs, Mean(xs), Variance(xs))
  }

  /** Every value near the mean is kept. */
  lemma {:induction false} KeepComplete(xs: seq<real>, mu: real, variance: real)
    ensures forall i :: 0 <= i < |xs| && Near(xs[i], mu, variance) ==> xs[i] in Keep(xs, mu, variance)
  {
    if |xs| > 0 {
      KeepComplete(xs[1..], mu, variance);
      forall i | 1 <= i < |xs| && Near(xs[i], mu, variance) ensures xs[i] in Keep(xs, mu, variance) {
        assert xs[i] == xs[1..][i - 1];
      }
    }
  }

  /** When nothing is kept, no value is near the mean. */
  lemma {:induction false} KeepEmpty(xs: seq<real>, mu: real, variance: real)
    requires Keep(xs, mu, variance) == []
    ensures forall i :: 0 <= i < |xs| ==> !Near(xs[i], mu, variance)
  {
    if |xs| > 0 {
      KeepEmpty(xs[1..], mu, variance);
      forall i | 1 <= i < |xs| ensures !Near(xs[i], mu, variance) {
        assert xs[i] == xs[1..][i - 1];
      }
    }
  }

  /** Values all further than `c` from `mu` spread more than `|xs| * c`. */
  lemma {:induction false} DeviationsExceed(xs: seq<real>, mu: real, c: real)
    requires |xs| > 0
    requires forall i :: 0 <= i < |xs| ==> Square(xs[i] - mu) > c
    ensures SquaredDeviations(xs, mu) > (|xs| as real) * c
  {
    if |xs| > 1 {
      forall i | 0 <= i < |xs[1..]| ensures Square(xs[1..][i] - mu) > c {
        assert xs[1..][i] == xs[i + 1];
      }
      DeviationsExceed(xs[1..], mu, c);
    }
  }

  /** Some value always lies within one standard deviation of the mean, so
      the outlier filter never empties a non-empty list. */
  lemma InliersNonEmpty(xs: seq<real>)
    requires |xs| > 0
    ensures |Inliers(xs)| > 0
  {
    var mu, v := Mean(xs), Variance(xs);
    if Keep(xs, mu, v) == [] {
      KeepEmpty(xs, mu, v);
      DeviationsExceed(xs, mu, v);
      DivideMultiply(SquaredDeviations(xs, mu), |xs| as real);
    }
  }

  lemma DivideMultiply(a: real, n: real)
    requires n > 0.0
    ensures n * (a / n) == a
  {
  }

  lemma MultiplyDivide(d: real, n: real)
    requires n > 0.0
    ensures (n * d) / n == d
  {
  }

  /** Bounds on every value bound their sum. */
  lemma {:induction false} SumBetween(xs: seq<real>, lo: real, hi: real)
    requires forall i :: 0 <= i < |xs| ==> lo <= xs[i] <= hi
    ensures (|xs| as real) * lo <= Sum(xs) <= (|xs| as real) * hi
  {
    if |xs| > 0 {
      forall i | 0 <= i < |xs[1..]| ensures lo <= xs[1..][i] <= hi {
        assert xs[1..][i] == xs[i + 1];
      }
      SumBetween(xs[1..], lo, hi);
    }
  }

  /** The mean lies between the smallest and largest value. */
  lemma MeanBetween(xs: seq<real>, lo: real, hi: real)
    requires |xs| > 0
    requires forall i :: 0 <= i < |xs| ==> lo <= xs[i] <= hi
    ensures lo <= Mean(xs) <= hi
  {
    SumBetween(xs, lo, hi);
    var n := |xs| as real;
    assert n * lo <= Sum(xs) <= n * hi;
    assert Sum(xs) / n >= lo by {
      assert Sum(xs) / n * n == Sum(xs);
    }
    assert Sum(xs) / n <= hi by {
      assert Sum(xs) / n * n == Sum(xs);
    }
  }

  /** The sum of `n` copies of `d`. */
  lemma {:induction false} SumConstant(xs: seq<real>, d: real)
    requires forall i :: 0 <= i < |xs| ==> xs[i] == d
    ensures Sum(xs) == (|xs| as real) * d
    ensures SquaredDeviations(xs, d) == 0.0
  {
    if |xs| > 0 {
      forall i | 0 <= i < |xs[1..]| ensures xs[1..][i] == d {
        assert xs[1..][i] == xs[i + 1];
      }
      SumConstant(xs[1..], d);
    }
  }

  /** Values all near keep them all. */
  lemma {:induction false} KeepAll(xs: seq<real>, mu: real, variance: real)
    requires forall i :: 0 <= i < |xs| ==> Near(xs[i], mu, variance)
    ensures Keep(xs, mu, variance) == xs
  {
    if |xs| > 0 {
      forall i | 0 <= i < |xs[1..]| ensures Near(xs[1..][i], mu, variance) {
        assert xs[1..][i] == xs[i + 1];
      }
      KeepAll(xs[1..], mu, variance);
    }
  }

  // ---------------------------------------------------------------- the timebase

  /** Every gap is a number. */
  predicate AllNumbers(gaps: seq<Option<int>>) {
    forall i :: 0 <= i < |gaps| ==> gaps[i].Some?
  }

  function Reals(gaps: seq<Option<int>>): (r: seq<real>)
    requires AllNumbers(gaps)
    ensures |r| == |gaps|
    ensures forall i :: 0 <= i < |r| ==> r[i] == gaps[i].value as real
  {
    if |gaps| == 0 then [] else [gaps[0].value as real] + Reals(gaps[1..])
  }

  /** The timebase of a list of temperature timestamps. A gap that is not a
      number makes the mean and deviation not numbers, every comparison
      with them false, and so the filtered list empty: the mean of an
      empty list is not a number either. */
  function TimebaseOf(stamps: seq<Stamp>): Timebase {
    var gaps := Gaps(stamps);
    if |gaps| == 0 || !AllNumbers(gaps) then NotANumber
    else Period(Mean(KeepNonEmpty(Reals(gaps))))
  }

  /** The outlier filter, known to leave something. */
  function KeepNonEmpty(xs: seq<real>): (r: seq<real>)
    requires |xs| > 0
    ensures |r| > 0 && r == Inliers(xs)
  {
    InliersNonEmpty(xs);
    Inliers(xs)
  }

  /** `determineTimebase(dirname, items, uniqueTopics)`: a job without a
      temperature topic has its own outcome; otherwise the timebase is a
      number exactly when the temperature topic has two or more
      timestamps, all of which parse. */
  function DetermineTimebase(dirname: string, items: seq<Message>, uniqueTopics: seq<string>): (t: Timebase)
    ensures t == NoTemperatureTopic <==> TemperatureTopicIn(dirname, uniqueTopics).None?
    ensures TemperatureTopicIn(dirname, uniqueTopics).Some? ==>
      var stamps := StampsOn(items, TemperatureTopicIn(dirname, uniqueTopics).value);
      (t.Period? <==> |stamps| >= 2 && forall i :: 0 <= i < |stamps| ==> stamps[i].At?)
  {
    match TemperatureTopicIn(dirname, uniqueTopics)
    case None => NoTemperatureTopic
    case Some(topic) =>
      TimebaseDefined(StampsOn(items, topic));
      TimebaseOf(StampsOn(items, topic))
  }

  /** A timebase is a number exactly when there are at least two
      temperature timestamps and all of them parse. */
  lemma TimebaseDefined(stamps: seq<Stamp>)
    ensures TimebaseOf(stamps).Period? <==> |stamps| >= 2 && forall i :: 0 <= i < |stamps| ==> stamps[i].At?
  {
    var gaps := Gaps(stamps);
    if |stamps| >= 2 && forall i :: 0 <= i < |stamps| ==> stamps[i].At? {
      forall i | 0 <= i < |gaps| ensures gaps[i].Some? {
        assert stamps[i].At? && stamps[i + 1].At?;
      }
    }
    if |gaps| > 0 && AllNumbers(gaps) {
      forall i | 0 <= i < |stamps| ensures stamps[i].At? {
        if i < |stamps| - 1 {
          assert gaps[i].Some? && gaps[i] == Gap(stamps[i], stamps[i + 1]);
        } else {
          assert gaps[i - 1].Some? && gaps[i - 1] == Gap(stamps[i - 1], stamps[i]);
        }
      }
    }
  }

  /** The timebase is no smaller than the smallest gap between temperature
      timestamps and no larger than the largest. */
  lemma TimebaseBetween(stamps: seq<Stamp>, lo: real, hi: real)
    requires TimebaseOf(stamps).Period?
    requires forall i :: 0 <= i < |stamps| - 1 && stamps[i].At? && stamps[i + 1].At? ==>
      lo <= (stamps[i + 1].ms - stamps[i].ms) as real <= hi
    ensures lo <= TimebaseOf(stamps).ms <= hi
  {
    var gaps := Gaps(stamps);
    var xs := Reals(gaps);
    assert forall i :: 0 <= i < |xs| ==> lo <= xs[i] <= hi by {
      forall i | 0 <= i < |xs| ensures lo <= xs[i] <= hi {
        assert gaps[i] == Gap(stamps[i], stamps[i + 1]);
      }
    }
    var kept := KeepNonEmpty(xs);
    forall i | 0 <= i < |kept| ensures lo <= kept[i] <= hi {
      var j :| 0 <= j < |xs| && xs[j] == kept[i];
    }
    MeanBetween(kept, lo, hi);
  }

  /** Messages at a regular interval have exactly that interval as their
      timebase. */
  lemma RegularTimebase(stamps: seq<Stamp>, d: int)
    requires |stamps| >= 2
    requires forall i :: 0 <= i < |stamps| ==> stamps[i].At?
    requires forall i :: 0 <= i < |stamps| - 1 ==> stamps[i + 1].ms - stamps[i].ms == d
    ensures TimebaseOf(stamps) == Period(d as real)
  {
    var gaps := Gaps(stamps);
    forall i | 0 <= i < |gaps| ensures gaps[i] == Some(d) {
      assert stamps[i].At? && stamps[i + 1].At?;
    }
    var xs := Reals(gaps);
    var dr := d as real;
    SumConstant(xs, dr);
    var mu := Mean(xs);
    assert mu == dr by {
      var n := |xs| as real;
      assert Sum(xs) == n * dr;
      MultiplyDivide(dr, n);
      assert mu == Sum(xs) / n;
    }
    assert Variance(xs) == 0.0;
    forall i | 0 <= i < |xs| ensures Near(xs[i], mu, 0.0) {
      assert xs[i] - mu == 0.0;
    }
    KeepAll(xs, mu, 0.0);
  }
}

=== FILE: values.dfy ===
/** JavaScript values as they appear in telemetry messages, with the two
    observations the stitching engine makes of them: whether `isNumeric`
    accepts a value, and whether it is truthy (the `||` fallbacks and the
    `if (dat.pm1p0)` tests). Number formatting and string parsing are not
    modelled: a string carries the number that `parseFloat`/`isFinite`
    would accept it as, if any. */
module Values {

  import opened Options

  datatype Value =
    | Undefined
    | Null
    | Bool(b: bool)
    /** a finite number */
    | Num(x: real)
    | NaN
    | Infinity(negative: bool)
    /** a string; `numeric` is the finite number it denotes when both
        `parseFloat` and `isFinite` accept it */
    | Str(s: string, numeric: Option<real>)

  /** The sentinel written for a column without a valid number. */
  const Invalid: Value := Str("---", None)

  /** `isNumeric(n)`: `!isNaN(parseFloat(n)) && isFinite(n)`. */
  predicate IsNumeric(v: Value) {
    match v
    case Num(_) => true
    case Str(s, n) => n.Some? && |s| > 0
    case _ => false
  }

  /** JavaScript truthiness. */
  predicate Truthy(v: Value) {
    match v
    case Undefined => false
    case Null => false
    case Bool(b) => b
    case Num(x) => x != 0.0
    case NaN => false
    case Infinity(_) => true
    case Str(s, _) => |s| > 0
  }

  /** `a || b`: one of the operands, the left one exactly when it is truthy
      (or both are the same), and truthy exactly when either operand is. */
  function Or(a: Value, b: Value): (r: Value)
    ensures r == a || r == b
    ensures r == a <==> Truthy(a) || a == b
    ensures Truthy(r) <==> Truthy(a) || Truthy(b)
  {
    if Truthy(a) then a else b
  }

  /** The unary plus `+v`. A string that is not numeric is taken to give
      NaN (blank strings, which JavaScript reads as 0, are not modelled). */
  function ToNumber(v: Value): (r: Value)
    ensures r.Num? || r.NaN? || r.Infinity?
    ensures IsNumeric(v) ==> r.Num?
    ensures r.Num? ==> IsNumeric(r)
  {
    match v
    case Undefined => NaN
    case Null => Num(0.0)
    case Bool(b) => Num(if b then 1.0 else 0.0)
    case Num(x) => Num(x)
    case NaN => NaN
    case Infinity(neg) => Infinity(neg)
    case Str(s, n) => if n.Some? && |s| > 0 then Num(n.value) else NaN
  }

  /** `valueOrInvalid`: the value or the sentinel, numeric exactly when the
      value is, and the value itself exactly when it is numeric (or already
      the sentinel). */
  function ValueOrInvalid(v: Value): (r: Value)
    ensures r == v || r == Invalid
    ensures IsNumeric(r) <==> IsNumeric(v)
    ensures r == v <==> IsNumeric(v) || v == Invalid
  {
    if IsNumeric(v) then v else Invalid
  }

  /** Filtering twice is filtering once. */
  lemma ValueOrInvalidIdempotent(v: Value)
    ensures ValueOrInvalid(ValueOrInvalid(v)) == ValueOrInvalid(v)
  {
  }

  /** The sentinel is never mistaken for a number, and it is truthy. */
  lemma InvalidIsNotNumeric()
    ensures !IsNumeric(Invalid) && Truthy(Invalid)
  {
  }
}
